=== FILE: README.md ===
# tinyurl core, modelled in Dafny

tinyurl is a URL shortener written in Go. This project models its sequential
core and proves properties about that model:

- **Storage engine** (`Storage`): the `MemoryStorage` engine. It holds an
  in-memory map of URL records keyed by short key and a map of user records
  keyed by e-mail. In front of them sits an optional persistence adapter,
  the *keeper*.
- **Deletion worker** (`Worker`): a background loop. It collects deletion
  requests and hands them to the engine on every tick.
- **Keepers**: three keeper implementations.
  - `FileKeeper`: a JSON-lines file.
  - `BDKeeper`: PostgreSQL.
  - `LegacyKeeper`: the earlier rewrite-the-whole-file keeper.
- **Short keys** (`ShortURL`, `CmdShortURL`): the short-key derivation, in its
  current and its earlier revision. The key is a base-62 spelling of a hash
  of the trimmed URL, least significant digit first.
- **Legacy store** (`CmdStorage`): the earliest key/value store.
- **Configuration** (`Config`, `CmdConfig`): precedence rules, in both
  revisions. Flags come first, then the environment, then the config file.
- **Lint rule** (`DenyOsExit`): the `deny_os_exit` static-analysis rule.

Shared modules:

- `Models`: the records `DataURL`, `DataUser` and `DeleteURL`.
- `Wrappers`: `Option`.
- `Collections`: Go map iteration as an input order, and the
  "later record overwrites earlier" decoding loop.
- `Strings`: the Go string functions the core uses.

How the model stands in for what it cannot see:

- **Go results.** A Go `(value, error)` result is `Answer(value, err)`.
  `err` is `None` for nil, `Conflict` for `storage.ErrConflict`, `NotFound`
  for a missing key and `Failure(reason)` for any other error.
- **Map iteration.** Go visits map entries in an unspecified order. That
  order is an input `order` that enumerates the keys exactly once
  (`Collections.IsEnumeration`).
- **Keeper replies.** Every reply the engine gets from its keeper is an input
  to the transition that asks for it. `uuid.New()` is an input string
  `newID`.
- **Hashing.** The MD5-based `strToUint64` is a function parameter `hash`
  into the 64-bit range.
- **Files and tables.** A keeper's file is the sequence of records on it. A
  database table is the sequence of its rows, with the unique constraints
  the code relies on.
- **Worker events.** The worker's `select` loop is a state machine over three
  events: `Receive(job)`, `Tick(reply)` and `Cancel`.

## Model

| member | source | states |
|---|---|---|
| Models.DefaultUUID | internal/filekeeper/fileKeeper.go:144-150 | The record's UUID is the caller's when it has one and the fresh one otherwise; it is never empty. |
| Collections.IndexKeys | internal/filekeeper/fileKeeper.go:59-68 | The map a decode loop builds has as keys the initial keys plus the key of every record read. |
| Collections.IndexLastWins | internal/filekeeper/fileKeeper.go:60-63 | A record that no later record shadows decides the value under its key (last writer wins). |
| Collections.IndexUntouched | internal/keeper/keeper.go:50-59 | A key that no record carries keeps its initial entry, or stays absent. |
| Storage.NewMemoryStorage | internal/storage/storage.go:54-77 | With no keeper both maps start empty. With a keeper they are exactly what `Load` and `LoadUsers` returned. |
| Storage.NewMemoryStorageIgnoresLoadErrors | internal/storage/storage.go:58-69 | Load errors are only logged: the errors have no influence on the engine built. |
| Storage.SaveURL | internal/storage/storage.go:177-183 | With no keeper, the caller's record comes back unchanged with no error. With a keeper, the keeper's answer comes back verbatim. |
| Storage.SaveUser | internal/storage/storage.go:214-220 | Same as SaveURL, for user records. |
| Storage.SaveBatch | internal/storage/storage.go:223-229 | No error without a keeper; the keeper's error with one. |
| Storage.InsertURL | internal/storage/storage.go:90-102 | Persists first. Any keeper error, Conflict included, is returned with the keeper's record, and the engine is unchanged. On success the key maps to the record the keeper returned, not the caller's input. No other URL key changes, and the user map and the keeper stay the same. |
| Storage.InsertUser | internal/storage/storage.go:105-117 | InsertURL's contract, on the user map. |
| Storage.InsertBatch | internal/storage/storage.go:120-131 | Every batch entry is in the URL map afterwards. The keeper's error is reported without rolling the map back. Keys outside the batch keep their records. |
| Storage.GetURL | internal/storage/storage.go:134-145 | The stored record exactly when the key is present; otherwise the zero record and an error. |
| Storage.GetUser | internal/storage/storage.go:148-158 | The stored user exactly when the key is present; otherwise the zero user and an error. |
| Storage.InsertURLThenGetURL | internal/storage/storage.go:90-145 | After a successful insert, reading the key gives the keeper's record; every other key reads as before. |
| Storage.FailedInsertURLInvisible | internal/storage/storage.go:90-94 | A failed insert, a conflict included, is invisible to every later read. |
| Storage.CollectOwnedMembers | internal/storage/storage.go:166-171 | The loop's output holds exactly the projections of the visited records owned by the user. |
| Storage.CollectOwnedCount | internal/storage/storage.go:166-171 | Over distinct keys the loop emits one entry per owned key. |
| Storage.GetUserURLs | internal/storage/storage.go:161-174 | The result holds exactly the user's records, projected to short and original URL, and its length is the number of owned keys. Tombstoned records are included. |
| Storage.CollectOwnedMultiplicity | internal/storage/storage.go:166-171 | Over distinct keys the loop emits each projection once per visited owned key whose record projects to it. |
| Storage.GetUserURLsMultiplicity | internal/storage/storage.go:161-174 | One entry per owned record: each projection occurs in the result exactly as often as the user has keys whose record projects to it. |
| Storage.TombstoneKeysSpec | internal/storage/storage.go:200-207 | The inner loop sets the flag of exactly the listed keys whose record passes the owner-and-substring guard. It does not change which records pass the guard. |
| Storage.TombstoneAllSpec | internal/storage/storage.go:199-208 | After the outer loop, a key holds its record with the flag set exactly when some request lists it and its owner passes the guard; otherwise it holds its record as it was. |
| Storage.TombstoneAllIsTombstoned | internal/storage/storage.go:199-208 | The two loops compute the reference map `Tombstoned`, whatever the order of requests and keys. |
| Storage.DeleteURLs | internal/storage/storage.go:186-211 | With no keeper: no error and no change. If UpdateBatch fails: its error and no change. Otherwise the URL map becomes the reference tombstoned map. |
| Storage.TombstonedOnlySetsFlag | internal/storage/storage.go:203-205 | A stored record is either unchanged or identical except for the deleted flag, which is set. No stored key disappears. |
| Storage.TombstoneIsolation | internal/storage/storage.go:201-203 | A key whose record belongs to none of the users requesting it is untouched. |
| Storage.OwnerRequestTombstones | internal/storage/storage.go:203-205 | A stored record requested by its owner, whose short URL contains its key, ends up flagged deleted. |
| Storage.TombstoneAddsOnlyEmptyKey | internal/storage/storage.go:201-205 | An absent key reads as the zero record, so the only key deletion can add is "". It is added only when requested by the empty owner, and it holds the flagged zero record. |
| Storage.TombstonedIdempotent | internal/storage/storage.go:199-208 | Tombstoning twice with the same requests is the same as once. |
| Storage.DeleteURLsIdempotent | internal/storage/storage.go:186-211 | Running DeleteURLs twice with the same requests and replies leaves the same engine state as once. |
| Storage.InsertBatchIdempotent | internal/storage/storage.go:120-131 | A repeated batch insert leaves the same state as a single one. |
| Storage.GetBaseConnection | internal/storage/storage.go:232-238 | Live exactly when a keeper is attached and its Ping answers true. |
| Worker.NewWorker | internal/worker/worker.go:47-57 | A new worker has an empty buffer, a job queue of capacity 1024, and no loop running. |
| Worker.Start | internal/worker/worker.go:60-66 | The loop starts with the buffer and capacity unchanged. |
| Worker.DoWork | internal/worker/worker.go:100-108 | An empty buffer makes no call. A non-empty one is handed whole, in arrival order, to one DeleteURLs call. The buffer is empty afterwards whatever the call answered. |
| Worker.Next | internal/worker/worker.go:87-106 | A job is appended with no call. Cancellation stops the loop with no call. A tick on a running loop always clears the buffer and makes a call exactly when the buffer was non-empty, passing the whole buffer. Only a tick calls. A loop that is not running does nothing. |
| Worker.InactiveRunIsInert | internal/worker/worker.go:82-96 | A worker whose loop is not running ignores every event and makes no call. |
| Worker.RunConservesJobs | internal/worker/worker.go:87-107 | Over any run, the jobs handed to DeleteURLs followed by the final buffer are the initial buffer followed by the jobs received, in order. Nothing is lost, duplicated or reordered. |
| Worker.RunCallsNonEmpty | internal/worker/worker.go:100-102 | DeleteURLs is never called with an empty batch. |
| Worker.CancelDoesNotFlush | internal/worker/worker.go:89-90 | After cancellation no call is made and the buffered jobs stay unsent, whatever events follow. |
| Worker.TickReplyIgnored | internal/worker/worker.go:102-106 | The state after a tick does not depend on whether DeleteURLs failed: a failed batch is dropped, not retried. |
| FileKeeper.NewFileKeeper | internal/filekeeper/fileKeeper.go:29-40 | No keeper exactly when the path is empty. |
| FileKeeper.Load | internal/filekeeper/fileKeeper.go:43-71 | A missing file gives an empty map and an error. Otherwise the keys are the short URLs of the lines, and an unshadowed line decides its key. |
| FileKeeper.LoadUsers | internal/filekeeper/fileKeeper.go:74-102 | Load's contract, keyed by e-mail. |
| FileKeeper.FirstWith | internal/filekeeper/fileKeeper.go:131-141 | The conflict scan finds a line exactly when some line carries the key, and returns the first such line. |
| FileKeeper.Save | internal/filekeeper/fileKeeper.go:105-164 | Corrected member. An open failure is returned and the file is left alone. If a line already carries the short URL being written, the first such line is returned with Conflict and nothing is appended. Otherwise a record with the defaulted UUID, the caller's short and original URL, no owner and no tombstone is appended and returned. |
| FileKeeper.SaveAsWritten | internal/filekeeper/fileKeeper.go:113-142 | As written: the scan reads from a write-only descriptor and sees no line, so the record is always appended. |
| FileKeeper.SaveAsWrittenMissesConflict | internal/filekeeper/fileKeeper.go:113-142 | On a file that already holds the short URL being saved, the corrected Save reports Conflict and leaves the file alone. The code as written appends a second line and reports success. |
| FileKeeper.SaveThenLoad | internal/filekeeper/fileKeeper.go:144-163 | After a Save that appended, Load finds the returned record under its short URL. |
| FileKeeper.SaveKeyScan | internal/filekeeper/fileKeeper.go:130-163 | As written, with a readable file: the scan compares each line's short URL with the bare key. The first line carrying the key is returned with Conflict. If no line carries it, the record is appended. |
| FileKeeper.SaveKeyScanMissesRepeat | internal/filekeeper/fileKeeper.go:131-163 | When the caller's short URL differs from the key, saving the same record twice into a fresh file appends twice under the key comparison. The corrected Save returns the first record with Conflict and leaves the file alone. |
| FileKeeper.SaveUser | internal/filekeeper/fileKeeper.go:167-226 | Corrected member. An existing e-mail is a Conflict with the first line carrying it, and nothing is appended. Otherwise a record with the defaulted UUID and the caller's name, e-mail and hash is appended and returned. |
| FileKeeper.SaveUserAsWritten | internal/filekeeper/fileKeeper.go:175-204 | As written: the scan sees no line, so the user is always appended. |
| FileKeeper.SaveUserAsWrittenMissesConflict | internal/filekeeper/fileKeeper.go:175-204 | A registered e-mail is a Conflict in the corrected SaveUser, but is appended again by the code as written. |
| FileKeeper.SaveUserThenLoadUsers | internal/filekeeper/fileKeeper.go:206-225 | After a SaveUser that appended, LoadUsers finds the returned user under its e-mail. |
| FileKeeper.SaveBatch | internal/filekeeper/fileKeeper.go:229-274 | An open failure is returned and the file is left alone. Otherwise the old lines stay as they were and exactly one line per map entry follows them, with no conflict check. |
| FileKeeper.BatchLineAt | internal/filekeeper/fileKeeper.go:253-264 | Batch line i is the record for the i-th key visited: that key as short URL, the entry's original URL and defaulted UUID, no owner. |
| FileKeeper.SaveBatchThenLoad | internal/filekeeper/fileKeeper.go:253-271 | After SaveBatch, Load finds every batch key. It maps to a record with that key as short URL, the entry's original URL, its UUID or a fresh one, no owner and no tombstone. |
| FileKeeper.UpdateBatch | internal/filekeeper/fileKeeper.go:277-279 | Always succeeds. |
| FileKeeper.Ping | internal/filekeeper/fileKeeper.go:282 | Always live. |
| FileKeeper.Close | internal/filekeeper/fileKeeper.go:285 | Always true. |
| LegacyKeeper.NewKeeper | internal/keeper/keeper.go:27-33 | An empty map over the given path. |
| LegacyKeeper.Load | internal/keeper/keeper.go:35-62 | A missing file is not an error and changes nothing. An open failure is returned and changes nothing. Otherwise every record's short URL is a key afterwards, and keys no record carries keep their values. |
| LegacyKeeper.LoadLastWins | internal/keeper/keeper.go:50-59 | An unshadowed record decides its key's original URL. |
| LegacyKeeper.RecordsAt | internal/keeper/keeper.go:84-90 | The i-th record written carries id first+i and the i-th entry visited. |
| LegacyKeeper.Save | internal/keeper/keeper.go:64-98 | A create failure is returned and leaves no file, because the old one was removed first. Otherwise the file holds exactly one record per entry, record i is (i+1, the i-th visited key, its value), and every key of the map has a record. |
| LegacyKeeper.SaveReplacesFile | internal/keeper/keeper.go:66-80 | Save replaces the file: what the file held before has no influence. |
| LegacyKeeper.SaveThenLoad | internal/keeper/keeper.go:50-96 | Round trip: loading the saved file into a fresh keeper gives back the saved map, whatever the iteration order. |
| LegacyKeeper.IndexRecords | internal/keeper/keeper.go:50-96 | Decoding the records Save writes rebuilds the map they were written from. |
| BDKeeper.NewBDKeeper | internal/bdkeeper/bdKeeper.go:43-119 | No keeper for an empty DSN or a failed setup; otherwise a keeper for that DSN. |
| BDKeeper.TuplesAt | internal/bdkeeper/bdKeeper.go:218 | The i-th VALUES tuple starts at placeholder i·width+1, so the tuples number the arguments consecutively. |
| BDKeeper.TupleTextPair | internal/bdkeeper/bdKeeper.go:218 | A two-wide tuple is spelled `($n, $n+1)`, the text of the UPDATE's VALUES list. |
| BDKeeper.TupleTextFive | internal/bdkeeper/bdKeeper.go:371-372 | A five-wide tuple is spelled `($n, $n+1, $n+2, $n+3, $n+4)`, the text of the batch INSERT's VALUES list. |
| BDKeeper.RequestPairs | internal/bdkeeper/bdKeeper.go:217-220 | One (short URL, owner) pair per short URL of the request, in order. |
| BDKeeper.PairsMembers | internal/bdkeeper/bdKeeper.go:216-223 | A pair is sent exactly when some request lists that short URL and has that owner. |
| BDKeeper.PairArgsAt | internal/bdkeeper/bdKeeper.go:219-220 | Pair i supplies arguments 2i and 2i+1, the ones tuple ($2i+1, $2i+2) refers to. |
| BDKeeper.BuildUpdateBatch | internal/bdkeeper/bdKeeper.go:212-223 | One tuple ($2i+1, $2i+2) per short URL, flattened across requests in order, and 2·n arguments interleaving short URL and owner. |
| BDKeeper.AppendPairs | internal/bdkeeper/bdKeeper.go:217-222 | The inner loop extends the tuples and arguments by exactly one request's pairs. |
| BDKeeper.UpdateBatch | internal/bdkeeper/bdKeeper.go:209-240 | An empty VALUES list is rejected and a failed execution is returned; neither changes the table. Otherwise exactly the rows matched by some pair (substring on short URL, equal owner) get the flag set, and nothing else changes. |
| BDKeeper.UpdateBatchIdempotent | internal/bdkeeper/bdKeeper.go:224-232 | Running the same UPDATE twice leaves the table as once. |
| BDKeeper.UpdateBatchCoversMemoryTombstone | internal/bdkeeper/bdKeeper.go:224-232 | Every record the engine tombstones in memory is matched by the database statement too. |
| BDKeeper.BuildSaveBatch | internal/bdkeeper/bdKeeper.go:367-379 | One tuple of five consecutive placeholders per entry. Entry i supplies arguments 5i..5i+4 in the order UUID, short URL, original URL, owner, flag. |
| BDKeeper.SaveArgsAt | internal/bdkeeper/bdKeeper.go:373-377 | Entry i's five arguments sit at positions 5i..5i+4. |
| BDKeeper.BatchRows | internal/bdkeeper/bdKeeper.go:370-378 | The rows of the batch are the map's records in visiting order. |
| BDKeeper.InsertRow | internal/bdkeeper/bdKeeper.go:388 | After one row of ON CONFLICT DO NOTHING, its original URL is stored, the old rows are kept, and the unique constraint is preserved. |
| BDKeeper.InsertCovers | internal/bdkeeper/bdKeeper.go:388 | After the batch, every batch row's original URL is stored. |
| BDKeeper.InsertKeepsUnique | internal/bdkeeper/bdKeeper.go:388 | The batch keeps one row per original URL. |
| BDKeeper.InsertOnlyFromBatch | internal/bdkeeper/bdKeeper.go:388 | Every row added is a row of the batch. |
| BDKeeper.InsertPresentIsNoop | internal/bdkeeper/bdKeeper.go:388 | A batch whose original URLs are all stored inserts nothing. |
| BDKeeper.SaveBatch | internal/bdkeeper/bdKeeper.go:364-397 | An empty map is rejected and a failed execution is returned, the table unchanged. Otherwise the old rows stay, every record's original URL is present, every added row is a batch record, and the unique constraint holds. |
| BDKeeper.SaveBatchIdempotent | internal/bdkeeper/bdKeeper.go:381-390 | A second identical batch changes nothing. |
| BDKeeper.SelectResult | internal/bdkeeper/bdKeeper.go:280-296 | A failed re-read wins and returns the caller's record with that error. Otherwise the re-read row comes back with Conflict exactly after a unique violation, the insert's error after another failure, and no error exactly after a clean insert. |
| BDKeeper.FindOriginal | internal/bdkeeper/bdKeeper.go:265-276 | The re-read finds a row exactly when the original URL is stored, and that row has it. |
| BDKeeper.Save | internal/bdkeeper/bdKeeper.go:244-297 | A new original URL is appended; a stored one, or a failed insert, leaves the table unchanged. The user table never changes. After a failed insert, the stored row for the original URL comes back with the insert's error, or the caller's record with the no-rows error when none is stored. |
| BDKeeper.SaveNewOriginal | internal/bdkeeper/bdKeeper.go:247-296 | A new original URL comes back stored, with no error and the caller's UUID or a fresh one. |
| BDKeeper.SaveExistingOriginal | internal/bdkeeper/bdKeeper.go:286-292 | A stored original URL is a Conflict returning the row already stored for it; the table is unchanged. |
| BDKeeper.SavePreservesUniqueOriginals | internal/bdkeeper/bdKeeper.go:254-263 | Save keeps one row per original URL. |
| BDKeeper.FindUser | internal/bdkeeper/bdKeeper.go:331-340 | The re-read finds a user exactly when some row matches the e-mail, and the hash when one is given. |
| BDKeeper.RereadPlaceholders | internal/bdkeeper/bdKeeper.go:326-339 | The re-read has a $2 hash filter exactly when the caller's hash is non-nil. |
| BDKeeper.RereadArgsAsWritten | internal/bdkeeper/bdKeeper.go:340 | As written the re-read always gets two arguments, the e-mail first. |
| BDKeeper.RereadArgs | internal/bdkeeper/bdKeeper.go:326-340 | Corrected member: one argument per placeholder, the e-mail first; it equals the code's list whenever a hash is given. |
| BDKeeper.BindArgs | internal/bdkeeper/bdKeeper.go:340 | The driver runs a query only when the argument count equals the placeholder count. |
| BDKeeper.SaveUserWith | internal/bdkeeper/bdKeeper.go:312-357 | A new e-mail is appended; a registered one, or a failed insert, leaves the table unchanged. A re-read whose argument count differs from its placeholders returns the caller's record with the bind error. After a failed insert, a matching row comes back with the insert's error, or the caller's record with the no-rows error when none matches. |
| BDKeeper.SaveUserAsWritten | internal/bdkeeper/bdKeeper.go:321-347 | As written: with a nil hash the caller's record always comes back with the bind error. With a hash it behaves as the corrected SaveUser. |
| BDKeeper.SaveUser | internal/bdkeeper/bdKeeper.go:301-360 | Corrected member: the user table changes exactly by appending a new e-mail's row. After a failed insert, the matching row comes back with the insert's error, or the caller's record with the no-rows error when none matches. |
| BDKeeper.SaveUserAsWrittenNilHashFails | internal/bdkeeper/bdKeeper.go:321-347 | For a new e-mail with no hash, the code as written stores the row yet returns the caller's record with an error. The corrected SaveUser returns the stored row with no error. |
| BDKeeper.SaveUserNewEmail | internal/bdkeeper/bdKeeper.go:349-359 | A new e-mail comes back stored, with the defaulted UUID and no error. |
| BDKeeper.SaveUserExistingEmail | internal/bdkeeper/bdKeeper.go:349-356 | A registered e-mail leaves the table unchanged. It returns the matching row with Conflict, or the caller's record with the no-rows error when the hash filter matches no row. |
| BDKeeper.Load | internal/bdkeeper/bdKeeper.go:122-167 | A failed query gives an empty map and its error. Otherwise the keys are the rows' short-URL paths with every "/" removed, an unshadowed row decides its key, and an iteration error is returned with the rows read. |
| BDKeeper.LoadUsers | internal/bdkeeper/bdKeeper.go:170-206 | The same, keyed by e-mail. |
| BDKeeper.Ping | internal/bdkeeper/bdKeeper.go:400-409 | Live exactly when the database answers within its deadline. |
| BDKeeper.Close | internal/bdkeeper/bdKeeper.go:412-417 | Always true. |
| Strings.TrimSpace | internal/services/shorturl/shorturl.go:40-41 | The result is the infix of the input between its leading and trailing white space, and neither starts nor ends with white space. |
| Strings.TrimSpaceIgnoresSurroundingSpace | internal/services/shorturl/shorturl.go:40 | Surrounding white space does not reach the trimmed result. |
| ShortURL.AlphabetDigit | internal/services/shorturl/shorturl.go:12 | The alphabet has 62 characters; digit d is the d-th of them and is an ASCII letter or digit. |
| ShortURL.KeyCharIffInAlphabet | internal/services/shorturl/shorturl.go:12 | A character is in the alphabet exactly when it is an ASCII letter or decimal digit. |
| ShortURL.ValueOfDigit | internal/services/shorturl/shorturl.go:12 | Reading back the d-th alphabet character gives d. |
| ShortURL.DigitOfValue | internal/services/shorturl/shorturl.go:12 | Every key character is the alphabet character of its own value. |
| ShortURL.StrHash | internal/services/shorturl/shorturl.go:16-24 | Only alphabet characters; empty exactly for 0. |
| ShortURL.DecodeStrHash | internal/services/shorturl/shorturl.go:17-21 | Round trip: little-endian base-62 decoding of the key gives back the number. |
| ShortURL.StrHashCanonical | internal/services/shorturl/shorturl.go:17-21 | A key never ends with the zero digit 'a'. |
| ShortURL.StrHashDecode | internal/services/shorturl/shorturl.go:17-21 | Every such canonical string is the key of its decoding, so keys and numbers correspond one to one. |
| ShortURL.StrHashLength | internal/services/shorturl/shorturl.go:17-21 | The key has one character per base-62 digit: k characters exactly when 62^(k-1) <= n < 62^k. |
| ShortURL.StrHashAtMost11 | internal/services/shorturl/shorturl.go:16-24 | A key from a 64-bit hash has at most 11 characters. |
| ShortURL.WithSlash | internal/services/shorturl/shorturl.go:41-44 | The address ends with "/"; an address that already did is unchanged, any other gets exactly one "/" appended. |
| ShortURL.Shorten | internal/services/shorturl/shorturl.go:39-47 | Requires a non-blank base address. The key decodes to the hash of the trimmed URL and is canonical. The short URL is the slash-terminated trimmed base followed by the key. |
| ShortURL.ShortenIgnoresSurroundingSpace | internal/services/shorturl/shorturl.go:40 | URLs that differ only in surrounding white space get the same key and short URL. |
| ShortURL.ShortenTrailingSlashIrrelevant | internal/services/shorturl/shorturl.go:41-46 | A base address with or without its trailing "/" gives the same result. |
| ShortURL.ShortenEndsWithKey | internal/services/shorturl/shorturl.go:46 | The short URL ends with "/" followed by the key. |
| CmdShortURL.StrHash | cmd/shortener/shorturl/shorturl.go:16-23 | The earlier loop computes exactly the current key: alphabet characters only, decoding back to n, empty for 0. |
| CmdShortURL.Shorten | cmd/shortener/shorturl/shorturl.go:37-45 | Computes what the current Shorten computes. The key decodes to the hash of the trimmed URL, and exactly one "/" separates the trimmed base from the key. |
| CmdStorage.NewMemoryStorage | cmd/shortener/storage/storage.go:14-18 | A new store is empty. |
| CmdStorage.Insert | cmd/shortener/storage/storage.go:20-24 | Never an error. The key maps to the new value, every other key keeps its value, and no other key appears. |
| CmdStorage.Get | cmd/shortener/storage/storage.go:26-32 | The stored value exactly when the key is present; otherwise "" and an error. |
| CmdStorage.InsertThenGet | cmd/shortener/storage/storage.go:20-32 | After Insert(k, v), Get(k) answers v without error, and every other key answers as before. |
| CmdStorage.NewStoreIsEmpty | cmd/shortener/storage/storage.go:14-32 | A new store answers every key with the error. |
| CmdStorage.InsertIdempotent | cmd/shortener/storage/storage.go:20-24 | Inserting the same pair twice is the same as once. |
| Config.NewOptions | internal/config/config.go:65-67 | Every option is empty and HTTPS is off. |
| Config.RegStringVar | internal/config/config.go:200-204 | A flag is registered when its name is new, with the given default. An existing registration is left exactly as it was. |
| Config.ReRegistrationSkipped | internal/config/config.go:200-204 | A second registration under a name changes nothing. |
| Config.FlagNameInjective | internal/config/config.go:71-81 | Distinct options have distinct flag names. |
| Config.RegisterAllDefaults | internal/config/config.go:71-81 | Registration records the default of every listed flag not registered before. |
| Config.RegisterAllKeeps | internal/config/config.go:71-81 | Registration keeps every earlier registration. |
| Config.DefaultsRegistered | internal/config/config.go:71-81 | In a fresh process the defaults are ":8080", "http://localhost:8080/", "info", "test777", "", "test_key", and "" for the other string options. |
| Config.Parsed | internal/config/config.go:71-83 | After parsing, each option has its command-line value when given and its default otherwise; HTTPS is off unless set. |
| Config.GetAsString | internal/config/config.go:224-230 | The variable's value whenever it is set, even to ""; the default only when it is unset. |
| Config.GetAsStringVersusGetenv | internal/config/config.go:224-230 | GetAsString and os.Getenv differ only for an unset variable. |
| Config.ParseBool | internal/config/config.go:128 | Accepts exactly the six true and six false spellings of strconv.ParseBool. |
| Config.Override | internal/config/config.go:86-88 | A non-empty environment value replaces the current one; an empty one keeps it. |
| Config.EnvValue | internal/config/config.go:86-124 | An option takes its variable's value when that is non-empty, and keeps its flag value otherwise. |
| Config.EnvHTTPS | internal/config/config.go:126-135 | ENABLE_HTTPS applies when it parses as a boolean; otherwise HTTPS is unchanged. |
| Config.ApplyEnv | internal/config/config.go:86-135 | Every string option follows EnvValue and HTTPS follows EnvHTTPS. |
| Config.ApplyEnvIdempotent | internal/config/config.go:86-135 | Applying the environment twice is the same as once. |
| Config.SetIfNotEmpty | internal/config/config.go:267-275 | A non-empty target never changes. An empty one takes the value exactly when it is a non-empty string. |
| Config.SetIfNotEmptyIdempotent | internal/config/config.go:267-275 | Applying it twice is the same as once. |
| Config.LoadFromConfigFile | internal/config/config.go:233-264 | A file that cannot be opened or decoded changes nothing and is reported. Otherwise string options are merged by SetIfNotEmpty, and a boolean enable_https always applies. |
| Config.LoadFromConfigFileIdempotent | internal/config/config.go:247-261 | Merging the same file twice is the same as once. |
| Config.ParseFlags | internal/config/config.go:70-147 | The environment overrides the parsed flags. When the resulting config path is non-empty the file is merged on top; otherwise the options are left as they are. |
| Config.EnvBeatsFlagAndFile | internal/config/config.go:86-146 | A non-empty environment variable beats both the flag and the config file. |
| Config.FileFillsOnlyBlanks | internal/config/config.go:248-256 | The file changes no option that flag or environment set. An empty option takes the file's string whenever that string is non-empty, and stays empty when the file has no non-empty string for it. |
| Config.FileHTTPSAlwaysApplies | internal/config/config.go:259-261 | The file's boolean enable_https wins over the flag and ENABLE_HTTPS. |
| Config.DefaultsWithoutOverrides | internal/config/config.go:71-83 | With no command line, environment or config file, every option is its default and HTTPS is off. |
| CmdConfig.NewOptions | cmd/shortener/config/config.go:16-24 | Every option is empty. |
| CmdConfig.DefaultsAgreeExceptStorage | cmd/shortener/config/config.go:30-34 | The earlier defaults equal the current ones except the storage path, "/tmp/short-url-db.json" instead of "test777". |
| CmdConfig.RegisterFlags | cmd/shortener/config/config.go:30-34 | All five flags are registered afterwards, and every earlier registration is kept. |
| CmdConfig.FreshRegistration | cmd/shortener/config/config.go:30-34 | In a fresh process each flag is registered with this revision's default. |
| CmdConfig.RegisterFlagsIdempotent | cmd/shortener/config/config.go:81-85 | A second ParseFlags registers nothing new. |
| CmdConfig.Parsed | cmd/shortener/config/config.go:30-37 | Each option has its command-line value when given, and its default otherwise. |
| CmdConfig.ApplyEnv | cmd/shortener/config/config.go:39-57 | A non-empty SERVER_ADDRESS, BASE_URL, LOG_LEVEL, FILE_STORAGE_PATH or DATABASE_DSN replaces its option; an empty one keeps it. |
| CmdConfig.ApplyEnvAgreesWithCurrent | cmd/shortener/config/config.go:39-57 | On the options both revisions have, their override rules agree. |
| CmdConfig.ParseFlags | cmd/shortener/config/config.go:28-59 | A non-empty variable wins, then the command-line value, then the default. |
| CmdConfig.ParseFlagsDefaults | cmd/shortener/config/config.go:30-37 | With neither command line nor environment, the options are ":8080", "http://localhost:8080/", "info", "/tmp/short-url-db.json" and "". |
| DenyOsExit.ExitSelector | cmd/staticlint/multichecker/denyOsExit.go:54-56 | A statement has a selector position exactly when it is a call statement of `os.Exit`, with the receiver the identifier `os`. |
| DenyOsExit.CheckExitCall | cmd/staticlint/multichecker/denyOsExit.go:53-64 | One diagnostic with the fixed message at the selector for such a statement; none for any other. |
| DenyOsExit.CheckStmts | cmd/staticlint/multichecker/denyOsExit.go:43-47 | At most one diagnostic per top-level statement. |
| DenyOsExit.CheckMainFunction | cmd/staticlint/multichecker/denyOsExit.go:41-49 | A declaration other than a function named `main` yields nothing. |
| DenyOsExit.CheckStmtsIff | cmd/staticlint/multichecker/denyOsExit.go:43-60 | A diagnostic is produced exactly for a top-level `os.Exit` call, at its selector, with the fixed message. |
| DenyOsExit.CheckMainFunctionIff | cmd/staticlint/multichecker/denyOsExit.go:41-49 | A declaration is reported exactly for the top-level `os.Exit` calls of a function `main`. |
| DenyOsExit.CheckDeclsIff | cmd/staticlint/multichecker/denyOsExit.go:30-37 | Inspecting a file reports exactly the flagged calls of its declarations. |
| DenyOsExit.RunIff | cmd/staticlint/multichecker/denyOsExit.go:20-27 | The analyzer reports exactly the top-level `os.Exit` calls of functions `main` in files of package `main`. |
| DenyOsExit.RunAppend | cmd/staticlint/multichecker/denyOsExit.go:21-25 | Files are analysed independently: the diagnostics of two file lists concatenate. |
| DenyOsExit.OtherPackageIgnored | cmd/staticlint/multichecker/denyOsExit.go:22 | A file of another package adds no diagnostic. |
| DenyOsExit.NestedCallNotReported | cmd/staticlint/multichecker/denyOsExit.go:43-45 | A call nested in a block is not reported. |
| DenyOsExit.DirectCallReported | cmd/staticlint/multichecker/denyOsExit.go:53-60 | A direct call at the top of `main` is reported once, at its selector. |
| DenyOsExit.RenamedImportNotReported | cmd/staticlint/multichecker/denyOsExit.go:56 | `os` under another name is not recognised. |

## Left out

- Concurrency is not modelled; the model is sequential. This covers the
  engine's read/write locks, the job channel and its blocking `Add`, the
  ticker, contexts, the WaitGroup, and `Stop`. The engine writes to its URL
  map under a read lock in DeleteURLs, and without any lock in
  InsertBatch; the model says nothing about those races.
- Worker: a failed DeleteURLs batch is dropped, not retried. The buffer is
  cleared whatever DeleteURLs answers (internal/worker/worker.go:102-106),
  so no retry behaviour is modelled (see Worker.TickReplyIgnored).
- FileKeeper.Load keys every line by its short URL field. A line Save wrote
  therefore comes back under the full short URL, not under the bare key the
  engine stores it by. The model keeps Load as the code has it and does not
  relate the two maps.
- `GetUsersCount` and `GetURLsCount` (internal/storage/storage.go:80-87) are
  left out. They only forward the keeper's answer, and the keepers' counting
  queries are not part of this model.
- Go's nil maps are modelled as empty maps. When BDKeeper.Load's query
  fails, the engine is built over a nil map, and a later insert into it
  would panic in Go.
- Logging, the console output of Shorten in the earlier revision, and every
  `fmt.Println` are left out.
- MD5 and the big-integer conversion in `strToUint64` are left out. They
  become the parameter `hash`, so the concrete key of the package example
  cannot be checked.
- File I/O and JSON encoding are left out; a file is the sequence of records
  on it.
  - A decode error on one line is left out (the line is read as zero
    fields). So is an `os.Open` failure after a successful `os.Stat` in
    FileKeeper.Load.
  - The file keeper's line for the other record type is decoded by JSON
    field name.
  - LegacyKeeper.Save leaves out the failure to remove the old file
    (logged only) and a failure of the encoder part-way through.
- SQL execution is left out: connection setup, migrations, table existence
  checks and the driver.
  - Tables are sequences of rows. Only the unique constraints on
    `original_url` and `email` are modelled.
  - The LIKE pattern of UpdateBatch is read as plain substring matching. It
    therefore assumes keys free of the wildcards `%` and `_` and of the
    escape character `\`.
  - A row Scan error inside Load is only logged.
- BDKeeper.Load: `url.Parse` and its panic on an unparsable short URL are
  left out. The path extraction is the total parameter `path`.
- BDKeeper.Save and BDKeeper.SaveUser: a failed INSERT is only distinguished
  as a unique violation or some other failure. The latter is the input
  `execErr`, and its effect on the table is taken to be none.
- Config getters (`RunAddr`, `ShortURLAdress`, and so on) read back through
  the flag set and are left out. Under that, a second `ParseFlags` on fresh
  `Options` reads the first registration's variables.
- Config.LoadFromConfigFile: JSON values other than strings and booleans are
  one value, `JOther`. The config-file error is only printed by ParseFlags,
  so it has no effect on the options.
- Config.ParseBool: it is stated over the exact accepted spellings and not
  over Go's error value.
- The HTTP and gRPC handlers, JWT authorisation, gzip middleware and
  application wiring are outside this core.

## Findings

| source | as written | input that shows it | evidently intended | confidence | as-written member | corrected member |
|---|---|---|---|---|---|---|
| internal/filekeeper/fileKeeper.go:113-142 | Save opens an existing file with O_APPEND\|O_WRONLY and then decodes from that descriptor to look for a line with the key. The read fails, `More()` reports nothing, and the record is appended and returned without error. | a file that already holds a line with the short URL being saved | the existing line is returned with `ErrConflict` and nothing is appended | not executed | FileKeeper.SaveAsWritten, FileKeeper.SaveAsWrittenMissesConflict | FileKeeper.Save |
| internal/filekeeper/fileKeeper.go:131-154 | Even on a readable file, the scan compares each line's `ShortURL` with the bare `key`. But Save writes `data.ShortURL`, which its callers fill with the full short URL (internal/controllers/base.go:472-478, 542-548). Only lines written by SaveBatch store the bare key. | `Save(key, d)` twice on a fresh file, with `d.ShortURL` the short URL ending in `key` (the two differ, see ShortURL.ShortenEndsWithKey) | the second Save finds the first line and returns it with `ErrConflict` | medium, not executed | FileKeeper.SaveKeyScan, FileKeeper.SaveKeyScanMissesRepeat | FileKeeper.Save |
| internal/filekeeper/fileKeeper.go:175-204 | SaveUser's e-mail scan reads from the same write-only descriptor, so a registered e-mail is appended again | a file that already holds a user line with e-mail `key` | the existing user is returned with `ErrConflict` | not executed | FileKeeper.SaveUserAsWritten, FileKeeper.SaveUserAsWrittenMissesConflict | FileKeeper.SaveUser |
| internal/bdkeeper/bdKeeper.go:321-347 | With a nil `Hash` the re-read query has only `$1`, but `data.Email` and `hash` are both passed. The driver rejects the query, so the row is stored yet the caller's record comes back with an error. | `SaveUser` of a new e-mail with `Hash == nil` | the stored row is returned with no error; the hash argument is passed only with the hash filter | not executed | BDKeeper.SaveUserAsWritten, BDKeeper.SaveUserAsWrittenNilHashFails | BDKeeper.SaveUser, BDKeeper.RereadArgs |

=== FILE: bdkeeper.dfy ===
/**
 The PostgreSQL keeper (internal/bdkeeper/bdKeeper.go). What the model keeps
 is the deterministic part of each call: the VALUES lists and argument lists
 it builds, the UUID defaulting, and the way it turns the outcome of its
 statements into a Go result. The database is an abstract `Table` holding
 the rows of `dataurl` and `users`, with the uniqueness the code relies on
 (one row per original URL, one user per e-mail); a statement's effect on it
 is stated in terms of those rows. A failure the model cannot predict (a
 lost connection, a failed migration) is an input.
 */
module BDKeeper {
  import opened Wrappers
  import opened Models
  import opened Strings
  import opened Collections
  import Storage

  /** A statement argument as pgx receives it; `Blob(None)` is a nil byte slice. */
  datatype Arg = Text(s: string) | Flag(b: bool) | Blob(h: Option<seq<Byte>>)

  /** The rows of the two tables. */
  datatype Table = Table(urls: seq<DataURL>, users: seq<DataUser>)

  /** The connection handle; only its presence matters to the model. */
  datatype BDKeeper = BDKeeper(dsn: string)

  /** A VALUES clause with no tuple is not valid SQL; the server rejects the statement. */
  const SyntaxError: Error := Failure("syntax error")

  /** `sql.ErrNoRows`, what Scan reports when the re-read finds no row. */
  const NoRows: Error := Failure("sql: no rows in result set")

  /**
   NewBDKeeper: no keeper for an empty DSN, nor when opening the connection,
   checking for the table or migrating fails (`setupErr`).
   */
  function NewBDKeeper(dsn: string, setupErr: Option<Error>): (kp: Option<BDKeeper>)
    ensures kp.Some? <==> dsn != "" && setupErr.None?
    ensures kp.Some? ==> kp.value.dsn == dsn
  {
    if dsn == "" || setupErr.Some? then None else Some(BDKeeper(dsn))
  }

  // ---------------------------------------------------------------------------
  // Placeholders

  /** `$n`. */
  function Placeholder(n: nat): string {
    "$" + Decimal(n)
  }

  /** A VALUES tuple of `width` consecutive placeholders starting at `$first`. */
  datatype Tuple = Tuple(first: nat, width: nat)

  /** The text of a tuple: `($first, $first+1, ..., $first+width-1)`. */
  function TupleText(t: Tuple): string {
    "(" + Join(seq(t.width, j requires 0 <= j => Placeholder(t.first + j)), ", ") + ")"
  }

  /** The pair tuple of UpdateBatch's VALUES list: `($n, $n+1)`. */
  lemma TupleTextPair(n: nat)
    ensures TupleText(Tuple(n, 2)) == "(" + Placeholder(n) + ", " + Placeholder(n + 1) + ")"
  {
    var two := seq(2, j requires 0 <= j => Placeholder(n + j));
    assert two == [Placeholder(n), Placeholder(n + 1)];
    assert two[1..] == [Placeholder(n + 1)];
    assert Join(two, ", ") == Placeholder(n) + ", " + Placeholder(n + 1);
  }

  /** The five-wide tuple of SaveBatch's VALUES list: `($n, $n+1, $n+2, $n+3, $n+4)`. */
  lemma TupleTextFive(n: nat)
    ensures TupleText(Tuple(n, 5)) == "(" + (Placeholder(n) + ", " + Placeholder(n + 1) + ", " + Placeholder(n + 2)
                                      + ", " + Placeholder(n + 3) + ", " + Placeholder(n + 4)) + ")"
  {
    FivePlaceholders(n);
    Join5(Placeholder(n), Placeholder(n + 1), Placeholder(n + 2), Placeholder(n + 3), Placeholder(n + 4), ", ");
  }

  lemma FivePlaceholders(n: nat)
    ensures seq(5, j requires 0 <= j => Placeholder(n + j))
            == [Placeholder(n), Placeholder(n + 1), Placeholder(n + 2), Placeholder(n + 3), Placeholder(n + 4)]
  {
  }

  lemma Join5(a: string, b: string, c: string, d: string, e: string, sep: string)
    ensures Join([a, b, c, d, e], sep) == a + sep + b + sep + c + sep + d + sep + e
  {
    assert [a, b, c, d, e][1..] == [b, c, d, e];
    assert [b, c, d, e][1..] == [c, d, e];
    assert [c, d, e][1..] == [d, e];
    assert [d, e][1..] == [e];
    assert Join([d, e], sep) == d + sep + e;
    assert Join([c, d, e], sep) == c + sep + (d + sep + e);
    assert Join([b, c, d, e], sep) == b + sep + (c + sep + (d + sep + e));
  }

  /** The VALUES list of `count` tuples of `width` consecutive placeholders, numbered from 1. */
  function Tuples(count: nat, width: nat): (ts: seq<Tuple>)
    ensures |ts| == count
  {
    if count == 0 then [] else Tuples(count - 1, width) + [Tuple((count - 1) * width + 1, width)]
  }

  /** The i-th tuple starts at placeholder i*width+1: the tuples number the arguments consecutively. */
  lemma {:induction false} TuplesAt(count: nat, width: nat, i: nat)
    requires i < count
    ensures Tuples(count, width)[i] == Tuple(i * width + 1, width)
    decreases count
  {
    if i < count - 1 {
      TuplesAt(count - 1, width, i);
    }
  }

  // ---------------------------------------------------------------------------
  // UpdateBatch

  /** One request's (short URL, owner) pairs, in request order. */
  function RequestPairs(u: DeleteURL): (ps: seq<(string, string)>)
    ensures |ps| == |u.shortURLs|
    ensures forall j :: 0 <= j < |ps| ==> ps[j] == (u.shortURLs[j], u.userID)
  {
    seq(|u.shortURLs|, j requires 0 <= j < |u.shortURLs| => (u.shortURLs[j], u.userID))
  }

  /** Every request's pairs, flattened in order: what UpdateBatch sends, one tuple each. */
  function Pairs(reqs: seq<DeleteURL>): seq<(string, string)>
    decreases |reqs|
  {
    if |reqs| == 0 then [] else Pairs(reqs[..|reqs| - 1]) + RequestPairs(reqs[|reqs| - 1])
  }

  /** A pair is sent exactly when some request lists that short URL and has that owner. */
  lemma {:induction false} PairsMembers(reqs: seq<DeleteURL>, k: string, owner: string)
    ensures (k, owner) in Pairs(reqs) <==> exists i :: 0 <= i < |reqs| && k in reqs[i].shortURLs && reqs[i].userID == owner
    decreases |reqs|
  {
    if |reqs| > 0 {
      var front := reqs[..|reqs| - 1];
      var last := reqs[|reqs| - 1];
      PairsMembers(front, k, owner);
      if (k, owner) in RequestPairs(last) {
        var j :| 0 <= j < |RequestPairs(last)| && RequestPairs(last)[j] == (k, owner);
        assert k == last.shortURLs[j];
      }
      if k in last.shortURLs && last.userID == owner {
        var j :| 0 <= j < |last.shortURLs| && last.shortURLs[j] == k;
        assert RequestPairs(last)[j] == (k, owner);
      }
      if exists i :: 0 <= i < |reqs| && k in reqs[i].shortURLs && reqs[i].userID == owner {
        var i :| 0 <= i < |reqs| && k in reqs[i].shortURLs && reqs[i].userID == owner;
        if i < |reqs| - 1 {
          assert front[i] == reqs[i];
        }
      }
      if exists i :: 0 <= i < |front| && k in front[i].shortURLs && front[i].userID == owner {
        var i :| 0 <= i < |front| && k in front[i].shortURLs && front[i].userID == owner;
        assert reqs[i] == front[i];
      }
    }
  }

  /** The arguments for a list of pairs: short URL then owner, pair after pair. */
  function PairArgs(ps: seq<(string, string)>): (args: seq<Arg>)
    ensures |args| == 2 * |ps|
    decreases |ps|
  {
    if |ps| == 0 then []
    else PairArgs(ps[..|ps| - 1]) + [Text(ps[|ps| - 1].0), Text(ps[|ps| - 1].1)]
  }

  /** Pair i supplies arguments 2i and 2i+1, which tuple i refers to. */
  lemma {:induction false} PairArgsAt(ps: seq<(string, string)>, i: nat)
    requires i < |ps|
    ensures PairArgs(ps)[2 * i] == Text(ps[i].0) && PairArgs(ps)[2 * i + 1] == Text(ps[i].1)
    decreases |ps|
  {
    if i < |ps| - 1 {
      PairArgsAt(ps[..|ps| - 1], i);
    }
  }

  /**
   The two loops of UpdateBatch: tuple `($2i+1, $2i+2)` for the i-th pair
   overall, and the arguments short URL, owner for each pair, across the
   requests in order.
   */
  method BuildUpdateBatch(reqs: seq<DeleteURL>) returns (values: seq<Tuple>, args: seq<Arg>)
    ensures values == Tuples(|Pairs(reqs)|, 2)
    ensures args == PairArgs(Pairs(reqs))
  {
    values := [];
    args := [];
    var j := 0;
    while j < |reqs|
      invariant 0 <= j <= |reqs|
      invariant values == Tuples(|Pairs(reqs[..j])|, 2)
      invariant args == PairArgs(Pairs(reqs[..j]))
    {
      values, args := AppendPairs(values, args, Pairs(reqs[..j]), reqs[j]);
      PairsSnoc(reqs, j);
      j := j + 1;
    }
    assert reqs[..j] == reqs;
  }

  /** The inner loop of UpdateBatch: one tuple and two arguments per short URL of one request. */
  method AppendPairs(values0: seq<Tuple>, args0: seq<Arg>, done: seq<(string, string)>, u: DeleteURL)
    returns (values: seq<Tuple>, args: seq<Arg>)
    requires values0 == Tuples(|done|, 2) && args0 == PairArgs(done)
    ensures values == Tuples(|done + RequestPairs(u)|, 2)
    ensures args == PairArgs(done + RequestPairs(u))
  {
    values, args := values0, args0;
    var rp := RequestPairs(u);
    var t := 0;
    assert done + rp[..t] == done;
    while t < |u.shortURLs|
      invariant 0 <= t <= |u.shortURLs|
      invariant values == Tuples(|done| + t, 2)
      invariant args == PairArgs(done + rp[..t])
    {
      AppendStep(values, args, done, u, t);
      values := values + [Tuple((|done| + t) * 2 + 1, 2)];
      args := args + [Text(u.shortURLs[t]), Text(u.userID)];
      t := t + 1;
    }
    assert rp[..t] == rp;
  }

  lemma AppendStep(values: seq<Tuple>, args: seq<Arg>, done: seq<(string, string)>, u: DeleteURL, t: nat)
    requires t < |u.shortURLs|
    requires values == Tuples(|done| + t, 2) && args == PairArgs(done + RequestPairs(u)[..t])
    ensures values + [Tuple((|done| + t) * 2 + 1, 2)] == Tuples(|done| + t + 1, 2)
    ensures args + [Text(u.shortURLs[t]), Text(u.userID)] == PairArgs(done + RequestPairs(u)[..t + 1])
  {
    var rp := RequestPairs(u);
    TuplesSnoc(|done| + t, 2);
    PrefixSnoc(done, rp, t);
    PairArgsSnoc(done + rp[..t], rp[t]);
  }

  lemma TuplesSnoc(count: nat, width: nat)
    ensures Tuples(count + 1, width) == Tuples(count, width) + [Tuple(count * width + 1, width)]
  {
  }

  lemma PrefixSnoc<T>(done: seq<T>, xs: seq<T>, t: nat)
    requires t < |xs|
    ensures done + xs[..t + 1] == (done + xs[..t]) + [xs[t]]
  {
    assert xs[..t + 1] == xs[..t] + [xs[t]];
  }

  lemma PairArgsSnoc(ps: seq<(string, string)>, p: (string, string))
    ensures PairArgs(ps + [p]) == PairArgs(ps) + [Text(p.0), Text(p.1)]
  {
    assert (ps + [p])[..|ps|] == ps;
  }

  lemma PairsSnoc(reqs: seq<DeleteURL>, j: nat)
    requires j < |reqs|
    ensures Pairs(reqs[..j + 1]) == Pairs(reqs[..j]) + RequestPairs(reqs[j])
  {
    assert reqs[..j + 1][..j] == reqs[..j];
  }

  /** The statement's WHERE: the row's short URL contains the key (LIKE '%' || k || '%') and the owner matches. */
  predicate Matches(row: DataURL, p: (string, string)) {
    Contains(row.shortURL, p.0) && row.userID == p.1
  }

  predicate MarkedBy(row: DataURL, ps: seq<(string, string)>) {
    exists i :: 0 <= i < |ps| && Matches(row, ps[i])
  }

  /**
   UpdateBatch: no pair gives an empty VALUES list and the statement is
   rejected; an execution failure is returned; otherwise every row matched by
   some pair gets `is_deleted = TRUE` and nothing else changes.
   */
  function UpdateBatch(t: Table, reqs: seq<DeleteURL>, execErr: Option<Error>): (r: (Table, Option<Error>))
    ensures |Pairs(reqs)| == 0 ==> r == (t, Some(SyntaxError))
    ensures |Pairs(reqs)| > 0 && execErr.Some? ==> r == (t, execErr)
    ensures |Pairs(reqs)| > 0 && execErr.None? ==> r.1 == None && r.0.users == t.users && |r.0.urls| == |t.urls|
    ensures |Pairs(reqs)| > 0 && execErr.None? ==> forall i :: 0 <= i < |t.urls| ==>
              && r.0.urls[i] == t.urls[i].(deletedFlag := r.0.urls[i].deletedFlag)
              && (r.0.urls[i].deletedFlag <==> t.urls[i].deletedFlag || MarkedBy(t.urls[i], Pairs(reqs)))
  {
    var ps := Pairs(reqs);
    if |ps| == 0 then (t, Some(SyntaxError))
    else if execErr.Some? then (t, execErr)
    else
      (t.(urls := seq(|t.urls|, i requires 0 <= i < |t.urls| =>
                    if MarkedBy(t.urls[i], ps) then t.urls[i].(deletedFlag := true) else t.urls[i])), None)
  }

  /** Running the same UpdateBatch twice leaves the table as once. */
  lemma UpdateBatchIdempotent(t: Table, reqs: seq<DeleteURL>)
    requires UpdateBatch(t, reqs, None).1 == None
    ensures UpdateBatch(UpdateBatch(t, reqs, None).0, reqs, None).0 == UpdateBatch(t, reqs, None).0
  {
    var t1 := UpdateBatch(t, reqs, None).0;
    var t2 := UpdateBatch(t1, reqs, None).0;
    forall i | 0 <= i < |t1.urls| ensures t2.urls[i] == t1.urls[i] {
      if MarkedBy(t1.urls[i], Pairs(reqs)) {
        var n :| 0 <= n < |Pairs(reqs)| && Matches(t1.urls[i], Pairs(reqs)[n]);
        assert Matches(t.urls[i], Pairs(reqs)[n]);
      }
    }
  }

  /**
   The database delete covers the in-memory one: a record that
   `MemoryStorage.DeleteURLs` tombstones for some request (its owner matches
   and its short URL contains the key) is matched by the statement too.
   */
  lemma UpdateBatchCoversMemoryTombstone(data: StorageURL, reqs: seq<DeleteURL>, i: nat, k: string)
    requires i < |reqs| && k in reqs[i].shortURLs
    requires Storage.Eligible(data, reqs[i].userID, k)
    ensures MarkedBy(Storage.Get(data, k), Pairs(reqs))
  {
    PairsMembers(reqs, k, reqs[i].userID);
    var n :| 0 <= n < |Pairs(reqs)| && Pairs(reqs)[n] == (k, reqs[i].userID);
    assert Matches(Storage.Get(data, k), Pairs(reqs)[n]);
  }

  // ---------------------------------------------------------------------------
  // SaveBatch

  /** The five arguments of one URL row, in column order. */
  function URLArgs(d: DataURL): seq<Arg> {
    [Text(d.uuid), Text(d.shortURL), Text(d.originalURL), Text(d.userID), Flag(d.deletedFlag)]
  }

  /**
   The loop of SaveBatch: tuple `($5i+1, ..., $5i+5)` for the i-th entry
   visited and its five arguments at positions 5i..5i+4. The map key is not
   used: the row's short URL is the record's own.
   */
  method BuildSaveBatch(data: StorageURL, order: seq<string>) returns (values: seq<Tuple>, args: seq<Arg>)
    requires IsEnumeration(order, data.Keys)
    ensures values == Tuples(|data|, 5)
    ensures |args| == 5 * |order| == 5 * |data|
    ensures forall i :: 0 <= i < |order| ==> args[5 * i..5 * i + 5] == URLArgs(data[order[i]])
  {
    EnumerationSize(order, data.Keys);
    values := [];
    args := [];
    var i := 0;
    while i < |order|
      invariant 0 <= i <= |order|
      invariant values == Tuples(i, 5)
      invariant args == SaveArgs(data, order[..i])
    {
      assert order[..i + 1][..i] == order[..i];
      values := values + [Tuple(i * 5 + 1, 5)];
      args := args + URLArgs(data[order[i]]);
      i := i + 1;
    }
    assert order[..i] == order;
    forall n | 0 <= n < |order| ensures args[5 * n..5 * n + 5] == URLArgs(data[order[n]]) {
      SaveArgsAt(data, order, n);
    }
  }

  /** The arguments of the entries visited in `order`, five per entry. */
  function SaveArgs(data: StorageURL, order: seq<string>): (args: seq<Arg>)
    requires forall i :: 0 <= i < |order| ==> order[i] in data
    ensures |args| == 5 * |order|
    decreases |order|
  {
    if |order| == 0 then [] else SaveArgs(data, order[..|order| - 1]) + URLArgs(data[order[|order| - 1]])
  }

  lemma {:induction false} SaveArgsAt(data: StorageURL, order: seq<string>, i: nat)
    requires forall j :: 0 <= j < |order| ==> order[j] in data
    requires i < |order|
    ensures SaveArgs(data, order)[5 * i..5 * i + 5] == URLArgs(data[order[i]])
    decreases |order|
  {
    var front := order[..|order| - 1];
    if i < |front| {
      SaveArgsAt(data, front, i);
      assert SaveArgs(data, order)[5 * i..5 * i + 5] == SaveArgs(data, front)[5 * i..5 * i + 5];
    }
  }

  predicate HasOriginal(rows: seq<DataURL>, o: string) {
    exists i :: 0 <= i < |rows| && rows[i].originalURL == o
  }

  /** The `original_url` unique constraint of `dataurl`. */
  predicate UniqueOriginals(rows: seq<DataURL>) {
    forall i, j :: 0 <= i < j < |rows| ==> rows[i].originalURL != rows[j].originalURL
  }

  /** One row of `INSERT ... ON CONFLICT (original_url) DO NOTHING`. */
  function InsertRow(rows: seq<DataURL>, d: DataURL): (r: seq<DataURL>)
    ensures HasOriginal(r, d.originalURL)
    ensures |rows| <= |r| <= |rows| + 1 && r[..|rows|] == rows
    ensures |r| > |rows| ==> r[|rows|] == d
    ensures UniqueOriginals(rows) ==> UniqueOriginals(r)
  {
    if HasOriginal(rows, d.originalURL) then rows
    else
      var r := rows + [d];
      assert r[|rows|].originalURL == d.originalURL;
      r
  }

  /** `INSERT ... ON CONFLICT (original_url) DO NOTHING`, row by row. */
  function InsertIgnoringConflicts(rows: seq<DataURL>, batch: seq<DataURL>): (r: seq<DataURL>)
    ensures |rows| <= |r| && r[..|rows|] == rows
    decreases |batch|
  {
    if |batch| == 0 then rows
    else
      var next := InsertRow(rows, batch[0]);
      var r := InsertIgnoringConflicts(next, batch[1..]);
      assert r[..|rows|] == r[..|next|][..|rows|];
      r
  }

  /** Every row of the batch has its original URL in the table afterwards. */
  lemma {:induction false} InsertCovers(rows: seq<DataURL>, batch: seq<DataURL>, i: nat)
    requires i < |batch|
    ensures HasOriginal(InsertIgnoringConflicts(rows, batch), batch[i].originalURL)
    decreases |batch|
  {
    var next := InsertRow(rows, batch[0]);
    var r := InsertIgnoringConflicts(next, batch[1..]);
    if i == 0 {
      HasOriginalExtended(next, r, batch[0].originalURL);
    } else {
      InsertCovers(next, batch[1..], i - 1);
    }
  }

  lemma HasOriginalExtended(rows: seq<DataURL>, r: seq<DataURL>, o: string)
    requires |rows| <= |r| && r[..|rows|] == rows && HasOriginal(rows, o)
    ensures HasOriginal(r, o)
  {
    var j :| 0 <= j < |rows| && rows[j].originalURL == o;
    assert r[j] == rows[j];
  }

  /** The unique constraint holds after the batch if it held before. */
  lemma {:induction false} InsertKeepsUnique(rows: seq<DataURL>, batch: seq<DataURL>)
    ensures UniqueOriginals(rows) ==> UniqueOriginals(InsertIgnoringConflicts(rows, batch))
    decreases |batch|
  {
    if |batch| > 0 {
      InsertKeepsUnique(InsertRow(rows, batch[0]), batch[1..]);
    }
  }

  /** Every row added is a row of the batch. */
  lemma {:induction false} InsertOnlyFromBatch(rows: seq<DataURL>, batch: seq<DataURL>, i: nat)
    requires |rows| <= i < |InsertIgnoringConflicts(rows, batch)|
    ensures exists j :: 0 <= j < |batch| && InsertIgnoringConflicts(rows, batch)[i] == batch[j]
    decreases |batch|
  {
    var r := InsertIgnoringConflicts(rows, batch);
    if |batch| > 0 {
      var next := InsertRow(rows, batch[0]);
      if i < |next| {
        assert r[i] == r[..|next|][i] == batch[0];
      } else {
        InsertOnlyFromBatch(next, batch[1..], i);
        var j :| 0 <= j < |batch[1..]| && r[i] == batch[1..][j];
        assert r[i] == batch[j + 1];
      }
    }
  }

  /** A batch whose every original URL is already stored inserts nothing. */
  lemma {:induction false} InsertPresentIsNoop(rows: seq<DataURL>, batch: seq<DataURL>)
    requires forall i :: 0 <= i < |batch| ==> HasOriginal(rows, batch[i].originalURL)
    ensures InsertIgnoringConflicts(rows, batch) == rows
    decreases |batch|
  {
    if |batch| > 0 {
      assert InsertRow(rows, batch[0]) == rows;
      InsertPresentIsNoop(rows, batch[1..]);
    }
  }

  /** The rows of a batch, in the order the map is visited. */
  function BatchRows(data: StorageURL, order: seq<string>): (rs: seq<DataURL>)
    requires forall i :: 0 <= i < |order| ==> order[i] in data
    ensures |rs| == |order| && forall i :: 0 <= i < |order| ==> rs[i] == data[order[i]]
  {
    seq(|order|, i requires 0 <= i < |order| => data[order[i]])
  }

  /**
   SaveBatch: an empty map gives an empty VALUES list and the statement is
   rejected; an execution failure is returned; otherwise every record is
   inserted unless its original URL is already stored, so the table keeps
   one row per original URL and every record's original URL is present.
   */
  function SaveBatch(t: Table, data: StorageURL, order: seq<string>, execErr: Option<Error>): (r: (Table, Option<Error>))
    requires IsEnumeration(order, data.Keys)
    ensures |data| == 0 ==> r == (t, Some(SyntaxError))
    ensures |data| > 0 && execErr.Some? ==> r == (t, execErr)
    ensures |data| > 0 && execErr.None? ==> r.1 == None && r.0.users == t.users
    ensures |data| > 0 && execErr.None? ==> |t.urls| <= |r.0.urls| && r.0.urls[..|t.urls|] == t.urls
    ensures |data| > 0 && execErr.None? ==> forall k :: k in data ==> HasOriginal(r.0.urls, data[k].originalURL)
    ensures |data| > 0 && execErr.None? ==> forall i :: |t.urls| <= i < |r.0.urls| ==> exists k :: k in data && r.0.urls[i] == data[k]
    ensures UniqueOriginals(t.urls) ==> UniqueOriginals(r.0.urls)
  {
    EnumerationSize(order, data.Keys);
    if |order| == 0 then (t, Some(SyntaxError))
    else if execErr.Some? then (t, execErr)
    else
      var batch := BatchRows(data, order);
      var urls := InsertIgnoringConflicts(t.urls, batch);
      forall k | k in data ensures HasOriginal(urls, data[k].originalURL) {
        var i :| 0 <= i < |order| && order[i] == k;
        InsertCovers(t.urls, batch, i);
      }
      forall i | |t.urls| <= i < |urls| ensures exists k :: k in data && urls[i] == data[k] {
        InsertOnlyFromBatch(t.urls, batch, i);
        var j :| 0 <= j < |batch| && urls[i] == batch[j];
        assert urls[i] == data[order[j]];
      }
      InsertKeepsUnique(t.urls, batch);
      (t.(urls := urls), None)
  }

  /** A second identical SaveBatch changes nothing. */
  lemma SaveBatchIdempotent(t: Table, data: StorageURL, order: seq<string>)
    requires IsEnumeration(order, data.Keys)
    ensures SaveBatch(SaveBatch(t, data, order, None).0, data, order, None).0 == SaveBatch(t, data, order, None).0
  {
    var t1 := SaveBatch(t, data, order, None).0;
    if |data| > 0 {
      EnumerationSize(order, data.Keys);
      var batch := BatchRows(data, order);
      forall i | 0 <= i < |batch| ensures HasOriginal(t1.urls, batch[i].originalURL) {
        assert batch[i] == data[order[i]];
      }
      InsertPresentIsNoop(t1.urls, batch);
    }
  }

  // ---------------------------------------------------------------------------
  // Save and SaveUser: choosing the result

  /** How the INSERT ended. */
  datatype Exec = Done | UniqueViolation | ExecFailed(reason: string)

  /** What the re-read returned: the row, or the Scan error. */
  datatype Reread<T> = Row(value: T) | ScanError(e: Error)

  /**
   The result selection shared by Save and SaveUser: a failed re-read wins
   and returns the caller's record; otherwise the re-read row comes back, with
   `Conflict` after a unique violation, the INSERT's error after any other
   failure, and no error after a clean insert.
   */
  function SelectResult<T>(data: T, exec: Exec, reread: Reread<T>): (a: Answer<T>)
    ensures reread.ScanError? ==> a == Answer(data, Some(reread.e))
    ensures reread.Row? ==> a.value == reread.value
    ensures reread.Row? ==> (a.err == Some(Conflict) <==> exec.UniqueViolation?)
    ensures reread.Row? ==> (a.err == None <==> exec.Done?)
    ensures reread.Row? && exec.ExecFailed? ==> a.err == Some(Failure(exec.reason))
  {
    match reread
    case ScanError(e) => Answer(data, Some(e))
    case Row(m) =>
      match exec
      case UniqueViolation => Answer(m, Some(Conflict))
      case ExecFailed(reason) => Answer(m, Some(Failure(reason)))
      case Done => Answer(m, None)
  }

  /** The first row with a given original URL. */
  function FindOriginal(rows: seq<DataURL>, o: string): (r: Option<DataURL>)
    ensures r.None? <==> !HasOriginal(rows, o)
    ensures r.Some? ==> r.value.originalURL == o && r.value in rows
  {
    if |rows| == 0 then None
    else if rows[0].originalURL == o then Some(rows[0])
    else
      var r := FindOriginal(rows[1..], o);
      assert forall i :: 1 <= i < |rows| ==> rows[i] == rows[1..][i - 1];
      r
  }

  /** The row Save inserts: the caller's record with its UUID defaulted. */
  function NewURLRow(data: DataURL, newID: string): DataURL
    requires newID != ""
  {
    data.(uuid := DefaultUUID(data.uuid, newID))
  }

  /**
   Save: insert the record (the key argument is unused), then re-read the row
   by original URL and choose the result. The insert violates the unique
   constraint exactly when the original URL is already stored.
   */
  function Save(t: Table, key: string, data: DataURL, newID: string, execErr: Option<string>): (r: (Table, Answer<DataURL>))
    requires newID != ""
    ensures r.0.users == t.users
    ensures execErr.None? && !HasOriginal(t.urls, data.originalURL) ==>
              r.0.urls == t.urls + [NewURLRow(data, newID)]
    ensures execErr.Some? || HasOriginal(t.urls, data.originalURL) ==> r.0 == t
    ensures execErr.Some? && HasOriginal(t.urls, data.originalURL) ==>
              r.1 == Answer(FindOriginal(t.urls, data.originalURL).value, Some(Failure(execErr.value)))
    ensures execErr.Some? && !HasOriginal(t.urls, data.originalURL) ==> r.1 == Answer(data, Some(NoRows))
  {
    var exec := if execErr.Some? then ExecFailed(execErr.value)
                else if HasOriginal(t.urls, data.originalURL) then UniqueViolation
                else Done;
    var urls := if exec.Done? then t.urls + [NewURLRow(data, newID)] else t.urls;
    var found := FindOriginal(urls, data.originalURL);
    var reread := if found.Some? then Row(found.value) else ScanError(NoRows);
    (t.(urls := urls), SelectResult(data, exec, reread))
  }

  /** A new original URL is stored with the defaulted UUID and the stored row comes back without error. */
  lemma SaveNewOriginal(t: Table, key: string, data: DataURL, newID: string)
    requires newID != ""
    requires !HasOriginal(t.urls, data.originalURL)
    ensures Save(t, key, data, newID, None).1 == Answer(NewURLRow(data, newID), None)
    ensures Save(t, key, data, newID, None).1.value.uuid != ""
    ensures data.uuid != "" ==> Save(t, key, data, newID, None).1.value.uuid == data.uuid
  {
    var urls := t.urls + [NewURLRow(data, newID)];
    var found := FindOriginal(urls, data.originalURL);
    assert urls[|t.urls|].originalURL == data.originalURL;
  }

  /**
   A stored original URL is a conflict: the table is unchanged and the row
   already stored for that original URL comes back with `Conflict`.
   */
  lemma SaveExistingOriginal(t: Table, key: string, data: DataURL, newID: string)
    requires newID != ""
    requires HasOriginal(t.urls, data.originalURL)
    ensures Save(t, key, data, newID, None).0 == t
    ensures Save(t, key, data, newID, None).1.err == Some(Conflict)
    ensures Save(t, key, data, newID, None).1.value == FindOriginal(t.urls, data.originalURL).value
    ensures Save(t, key, data, newID, None).1.value.originalURL == data.originalURL
  {
  }

  /** Save keeps one row per original URL. */
  lemma SavePreservesUniqueOriginals(t: Table, key: string, data: DataURL, newID: string, execErr: Option<string>)
    requires newID != ""
    requires UniqueOriginals(t.urls)
    ensures UniqueOriginals(Save(t, key, data, newID, execErr).0.urls)
  {
    var urls := Save(t, key, data, newID, execErr).0.urls;
    if execErr.None? && !HasOriginal(t.urls, data.originalURL) {
      forall i, j | 0 <= i < j < |urls| ensures urls[i].originalURL != urls[j].originalURL {
        if j == |t.urls| {
          assert urls[i] == t.urls[i];
        }
      }
    }
  }

  predicate HasEmail(rows: seq<DataUser>, e: string) {
    exists i :: 0 <= i < |rows| && rows[i].email == e
  }

  /** The re-read's WHERE: the e-mail matches and, when the caller gave a hash, so does the hash. */
  predicate UserMatches(row: DataUser, data: DataUser) {
    row.email == data.email && (data.hash.Some? ==> row.hash == data.hash)
  }

  /** The first row the re-read selects. */
  function FindUser(rows: seq<DataUser>, data: DataUser): (r: Option<DataUser>)
    ensures r.None? <==> forall i :: 0 <= i < |rows| ==> !UserMatches(rows[i], data)
    ensures r.Some? ==> UserMatches(r.value, data) && r.value in rows
  {
    if |rows| == 0 then None
    else if UserMatches(rows[0], data) then Some(rows[0])
    else
      var r := FindUser(rows[1..], data);
      assert forall i :: 1 <= i < |rows| ==> rows[i] == rows[1..][i - 1];
      r
  }

  /** The number of placeholders in the re-read query: `$1`, plus `$2` for the hash filter. */
  function RereadPlaceholders(data: DataUser): (n: nat)
    ensures n == 2 <==> data.hash.Some?
    ensures n == 1 <==> data.hash.None?
  {
    if data.hash.Some? then 2 else 1
  }

  /** The re-read arguments as the code passes them: the e-mail and the hash, the hash even when nil. */
  function RereadArgsAsWritten(data: DataUser): (args: seq<Arg>)
    ensures |args| == 2 && args[0] == Text(data.email)
  {
    [Text(data.email), Blob(data.hash)]
  }

  /** The re-read arguments matching the query built: the hash only when the hash filter is present. */
  function RereadArgs(data: DataUser): (args: seq<Arg>)
    ensures |args| == RereadPlaceholders(data)
    ensures args[0] == Text(data.email)
    ensures data.hash.Some? ==> args == RereadArgsAsWritten(data)
  {
    if data.hash.Some? then [Text(data.email), Blob(data.hash)] else [Text(data.email)]
  }

  /** pgx refuses to run a query whose argument count differs from its placeholder count. */
  function BindArgs(placeholders: nat, args: seq<Arg>): (e: Option<Error>)
    ensures e.None? <==> |args| == placeholders
  {
    if |args| == placeholders then None
    else Some(Failure("expected " + Decimal(placeholders) + " arguments, got " + Decimal(|args|)))
  }

  /** The row SaveUser inserts. */
  function NewUserRow(data: DataUser, newID: string): DataUser
    requires newID != ""
  {
    data.(uuid := DefaultUUID(data.uuid, newID))
  }

  /** SaveUser's insert and re-read, given the argument list the re-read is run with. */
  function SaveUserWith(t: Table, data: DataUser, newID: string, execErr: Option<string>, args: seq<Arg>)
    : (r: (Table, Answer<DataUser>))
    requires newID != ""
    ensures r.0.urls == t.urls
    ensures execErr.None? && !HasEmail(t.users, data.email) ==> r.0.users == t.users + [NewUserRow(data, newID)]
    ensures execErr.Some? || HasEmail(t.users, data.email) ==> r.0 == t
    ensures |args| != RereadPlaceholders(data) ==> r.1 == Answer(data, BindArgs(RereadPlaceholders(data), args))
    ensures execErr.Some? && |args| == RereadPlaceholders(data) && FindUser(t.users, data).Some? ==>
              r.1 == Answer(FindUser(t.users, data).value, Some(Failure(execErr.value)))
    ensures execErr.Some? && |args| == RereadPlaceholders(data) && FindUser(t.users, data).None? ==>
              r.1 == Answer(data, Some(NoRows))
  {
    var exec := if execErr.Some? then ExecFailed(execErr.value)
                else if HasEmail(t.users, data.email) then UniqueViolation
                else Done;
    var users := if exec.Done? then t.users + [NewUserRow(data, newID)] else t.users;
    var bind := BindArgs(RereadPlaceholders(data), args);
    var found := FindUser(users, data);
    var reread := if bind.Some? then ScanError(bind.value)
                  else if found.Some? then Row(found.value)
                  else ScanError(NoRows);
    (t.(users := users), SelectResult(data, exec, reread))
  }

  /** SaveUser as written: the re-read always carries two arguments. */
  function SaveUserAsWritten(t: Table, key: string, data: DataUser, newID: string, execErr: Option<string>)
    : (r: (Table, Answer<DataUser>))
    requires newID != ""
    ensures data.hash.None? ==> r.1 == Answer(data, BindArgs(1, RereadArgsAsWritten(data)))
    ensures data.hash.Some? ==> r == SaveUser(t, key, data, newID, execErr)
  {
    SaveUserWith(t, data, newID, execErr, RereadArgsAsWritten(data))
  }

  /** SaveUser with the re-read's arguments matching its placeholders. */
  function SaveUser(t: Table, key: string, data: DataUser, newID: string, execErr: Option<string>)
    : (r: (Table, Answer<DataUser>))
    requires newID != ""
    ensures r.0.urls == t.urls
    ensures execErr.None? && !HasEmail(t.users, data.email) ==> r.0.users == t.users + [NewUserRow(data, newID)]
    ensures execErr.Some? || HasEmail(t.users, data.email) ==> r.0 == t
    ensures execErr.Some? && FindUser(t.users, data).Some? ==>
              r.1 == Answer(FindUser(t.users, data).value, Some(Failure(execErr.value)))
    ensures execErr.Some? && FindUser(t.users, data).None? ==> r.1 == Answer(data, Some(NoRows))
  {
    SaveUserWith(t, data, newID, execErr, RereadArgs(data))
  }

  /**
   The discrepancy: for a user without a hash and a new e-mail, the code as
   written stores the row and still reports an error with the caller's
   record, because its re-read has one placeholder and two arguments; with
   matching arguments the stored row comes back without error.
   */
  lemma SaveUserAsWrittenNilHashFails(t: Table, key: string, data: DataUser, newID: string)
    requires newID != ""
    requires data.hash.None? && !HasEmail(t.users, data.email)
    ensures SaveUserAsWritten(t, key, data, newID, None).0.users == t.users + [NewUserRow(data, newID)]
    ensures SaveUserAsWritten(t, key, data, newID, None).1 == Answer(data, Some(Failure("expected 1 arguments, got 2")))
    ensures SaveUser(t, key, data, newID, None).1 == Answer(NewUserRow(data, newID), None)
  {
    SaveUserNewEmail(t, key, data, newID);
    BindTwoForOne(RereadArgsAsWritten(data));
  }

  /** The bind error for two arguments against one placeholder. */
  lemma BindTwoForOne(args: seq<Arg>)
    requires |args| == 2
    ensures BindArgs(1, args) == Some(Failure("expected 1 arguments, got 2"))
  {
    assert Decimal(1) == [Digits[1]] == "1";
    assert Decimal(2) == [Digits[2]] == "2";
    assert "expected " + "1" + " arguments, got " + "2" == "expected 1 arguments, got 2";
  }

  /** A new e-mail with a hash is stored and the stored row comes back without error. */
  lemma SaveUserNewEmail(t: Table, key: string, data: DataUser, newID: string)
    requires newID != ""
    requires !HasEmail(t.users, data.email)
    ensures SaveUser(t, key, data, newID, None).1 == Answer(NewUserRow(data, newID), None)
  {
    var users := t.users + [NewUserRow(data, newID)];
    var found := FindUser(users, data);
    assert UserMatches(users[|t.users|], data);
  }

  /**
   A registered e-mail is a conflict: when the stored row also matches the
   caller's hash (or the caller gave none) it comes back with `Conflict`;
   when no stored row matches the hash, the re-read finds nothing and the
   caller's record comes back with the no-rows error instead.
   */
  lemma SaveUserExistingEmail(t: Table, key: string, data: DataUser, newID: string)
    requires newID != ""
    requires HasEmail(t.users, data.email)
    ensures SaveUser(t, key, data, newID, None).0 == t
    ensures FindUser(t.users, data).Some? ==>
              SaveUser(t, key, data, newID, None).1 == Answer(FindUser(t.users, data).value, Some(Conflict))
    ensures FindUser(t.users, data).None? ==> SaveUser(t, key, data, newID, None).1 == Answer(data, Some(NoRows))
  {
  }

  // ---------------------------------------------------------------------------
  // Load

  /** The key Load files a row under: the path of its short URL with every "/" removed. */
  function LoadKey(path: string -> string, row: DataURL): string {
    RemoveAll(path(row.shortURL), '/')
  }

  /**
   Load: a failed query gives an empty (nil) map and its error; otherwise
   every row is keyed by LoadKey, a later row overwriting an earlier one, and
   an error met while iterating is returned with the rows read so far. The
   URL parser's path extraction is the parameter `path`.
   */
  function Load(rows: seq<DataURL>, queryErr: Option<Error>, iterErr: Option<Error>, path: string -> string)
    : (a: Answer<StorageURL>)
    ensures queryErr.Some? ==> a == Answer(map[], queryErr)
    ensures queryErr.None? ==> a.err == iterErr
    ensures queryErr.None? ==> a.value.Keys == set i | 0 <= i < |rows| :: LoadKey(path, rows[i])
    ensures forall k :: k in a.value ==> '/' !in k
    ensures queryErr.None? ==>
              forall i :: (0 <= i < |rows| && forall j :: i < j < |rows| ==> LoadKey(path, rows[j]) != LoadKey(path, rows[i]))
                ==> a.value[LoadKey(path, rows[i])] == rows[i]
  {
    if queryErr.Some? then Answer(map[], queryErr)
    else
      var key := (r: DataURL) => LoadKey(path, r);
      var id := (r: DataURL) => r;
      var m := Index(map[], rows, key, id);
      IndexKeys(map[], rows, key, id);
      assert (set i | 0 <= i < |rows| :: key(rows[i])) == set i | 0 <= i < |rows| :: LoadKey(path, rows[i]);
      forall i | 0 <= i < |rows| && (forall j :: i < j < |rows| ==> LoadKey(path, rows[j]) != LoadKey(path, rows[i]))
        ensures m[LoadKey(path, rows[i])] == rows[i]
      {
        IndexLastWins(map[], rows, key, id, i);
      }
      Answer(m, iterErr)
  }

  /** LoadUsers: rows keyed by e-mail, a later row overwriting an earlier one. */
  function LoadUsers(rows: seq<DataUser>, queryErr: Option<Error>, iterErr: Option<Error>): (a: Answer<StorageUser>)
    ensures queryErr.Some? ==> a == Answer(map[], queryErr)
    ensures queryErr.None? ==> a.err == iterErr
    ensures queryErr.None? ==> a.value.Keys == set i | 0 <= i < |rows| :: rows[i].email
    ensures queryErr.None? ==>
              forall i :: (0 <= i < |rows| && forall j :: i < j < |rows| ==> rows[j].email != rows[i].email)
                ==> a.value[rows[i].email] == rows[i]
  {
    if queryErr.Some? then Answer(map[], queryErr)
    else
      var key := (u: DataUser) => u.email;
      var id := (u: DataUser) => u;
      var m := Index(map[], rows, key, id);
      IndexKeys(map[], rows, key, id);
      assert (set i | 0 <= i < |rows| :: key(rows[i])) == set i | 0 <= i < |rows| :: rows[i].email;
      forall i | 0 <= i < |rows| && (forall j :: i < j < |rows| ==> rows[j].email != rows[i].email)
        ensures m[rows[i].email] == rows[i]
      {
        IndexLastWins(map[], rows, key, id, i);
      }
      Answer(m, iterErr)
  }

  /** Ping: live exactly when the database answers within its one-second deadline. */
  function Ping(kp: BDKeeper, answered: bool): (up: bool)
    ensures up <==> answered
  {
    answered
  }

  /** Close: always true, whatever closing the connection reported. */
  function Close(kp: BDKeeper): (ok: bool)
    ensures ok
  {
    true
  }
}

=== FILE: cmd_config.dfy ===
/**
 The earlier revision of option handling (cmd/shortener/config/config.go):
 five string options, each registered as a flag with a default and then
 overridden by a non-empty environment variable. No config file, no HTTPS
 options. The option names, flag names, environment names and the override
 rule are those of the current revision, whose definitions are reused.
 */
module CmdConfig {
  import C = Config

  datatype Options = Options(runAddr: string, shortURLAdress: string, logLevel: string,
                             fileStoragePath: string, dataBaseDSN: string)

  /** The options this revision has. */
  predicate Shared(f: C.Field) {
    f.RunAddr? || f.ShortURLAdress? || f.LogLevel? || f.FileStoragePath? || f.DataBaseDSN?
  }

  /** The options as current-revision options, the ones this revision lacks empty. */
  function Lift(o: Options): (c: C.Options)
    ensures forall f :: !Shared(f) ==> C.Get(c, f) == ""
    ensures !c.enableHTTPS
  {
    C.Options(o.runAddr, o.shortURLAdress, o.logLevel, o.fileStoragePath, o.dataBaseDSN, "", "", false, "", "", "")
  }

  /** Lifting loses nothing. */
  lemma LiftInjective(a: Options, b: Options)
    ensures Lift(a) == Lift(b) ==> a == b
  {
  }

  /** NewOptions: every option empty. */
  function NewOptions(): (o: Options)
    ensures forall f :: C.Get(Lift(o), f) == ""
  {
    Options("", "", "", "", "")
  }

  /** The registered defaults of this revision. */
  function Default(f: C.Field): string
    requires Shared(f)
  {
    match f
    case RunAddr => ":8080"
    case ShortURLAdress => "http://localhost:8080/"
    case LogLevel => "info"
    case FileStoragePath => "/tmp/short-url-db.json"
    case DataBaseDSN => ""
  }

  /** The defaults agree with the current revision except for the storage file. */
  lemma DefaultsAgreeExceptStorage(f: C.Field)
    requires Shared(f)
    ensures f != C.FileStoragePath ==> Default(f) == C.Default(f)
    ensures Default(C.FileStoragePath) != C.Default(C.FileStoragePath)
  {
  }

  /** The five regStringVar calls of ParseFlags, in order; an existing flag is left alone. */
  function RegisterFlags(reg: C.Registry): (r: C.Registry)
    ensures forall f :: Shared(f) ==> C.FlagName(f) in r
    ensures forall n :: n in reg ==> n in r && r[n] == reg[n]
  {
    var r1 := C.RegStringVar(reg, C.FlagName(C.RunAddr), Default(C.RunAddr));
    var r2 := C.RegStringVar(r1, C.FlagName(C.ShortURLAdress), Default(C.ShortURLAdress));
    var r3 := C.RegStringVar(r2, C.FlagName(C.LogLevel), Default(C.LogLevel));
    var r4 := C.RegStringVar(r3, C.FlagName(C.FileStoragePath), Default(C.FileStoragePath));
    C.RegStringVar(r4, C.FlagName(C.DataBaseDSN), Default(C.DataBaseDSN))
  }

  /** In a fresh process each flag is registered with this revision's default. */
  lemma FreshRegistration(f: C.Field)
    requires Shared(f)
    ensures C.FlagName(f) in RegisterFlags(map[])
    ensures RegisterFlags(map[])[C.FlagName(f)] == Default(f)
  {
  }

  /** Calling ParseFlags again registers nothing new: the first defaults stay. */
  lemma RegisterFlagsIdempotent(reg: C.Registry)
    ensures RegisterFlags(RegisterFlags(reg)) == RegisterFlags(reg)
  {
  }

  /** The options after `flag.Parse` in a fresh process: the command-line value, else the default. */
  function Parsed(cmdline: map<string, string>): (o: Options)
    ensures forall f :: Shared(f) ==>
              C.Get(Lift(o), f) == (if C.FlagName(f) in cmdline then cmdline[C.FlagName(f)] else Default(f))
  {
    Options(FlagValue(cmdline, C.RunAddr), FlagValue(cmdline, C.ShortURLAdress), FlagValue(cmdline, C.LogLevel),
            FlagValue(cmdline, C.FileStoragePath), FlagValue(cmdline, C.DataBaseDSN))
  }

  function FlagValue(cmdline: map<string, string>, f: C.Field): string
    requires Shared(f)
  {
    if C.FlagName(f) in cmdline then cmdline[C.FlagName(f)] else Default(f)
  }

  /** The env-override block of ParseFlags: a non-empty variable replaces its option. */
  function ApplyEnv(o: Options, env: map<string, string>): (r: Options)
    ensures forall f :: Shared(f) ==>
              C.Get(Lift(r), f) == C.Override(C.Get(Lift(o), f), C.Getenv(env, C.EnvName(f)))
  {
    var c := Lift(o);
    Options(C.EnvValue(c, env, C.RunAddr), C.EnvValue(c, env, C.ShortURLAdress), C.EnvValue(c, env, C.LogLevel),
            C.EnvValue(c, env, C.FileStoragePath), C.EnvValue(c, env, C.DataBaseDSN))
  }

  /** On the options both revisions have, the override rules agree. */
  lemma ApplyEnvAgreesWithCurrent(o: Options, env: map<string, string>, f: C.Field)
    requires Shared(f)
    ensures C.Get(Lift(ApplyEnv(o, env)), f) == C.Get(C.ApplyEnv(Lift(o), env), f)
  {
  }

  /** ParseFlags: defaults, then the command line, then the environment. */
  function ParseFlags(cmdline: map<string, string>, env: map<string, string>): (o: Options)
    ensures forall f :: Shared(f) && C.Getenv(env, C.EnvName(f)) != "" ==> C.Get(Lift(o), f) == C.Getenv(env, C.EnvName(f))
    ensures forall f :: Shared(f) && C.Getenv(env, C.EnvName(f)) == "" && C.FlagName(f) in cmdline ==>
              C.Get(Lift(o), f) == cmdline[C.FlagName(f)]
    ensures forall f :: Shared(f) && C.Getenv(env, C.EnvName(f)) == "" && C.FlagName(f) !in cmdline ==>
              C.Get(Lift(o), f) == Default(f)
  {
    ApplyEnv(Parsed(cmdline), env)
  }

  /** With neither command line nor environment the options are the defaults. */
  lemma ParseFlagsDefaults()
    ensures ParseFlags(map[], map[]) == Options(":8080", "http://localhost:8080/", "info", "/tmp/short-url-db.json", "")
  {
    var o := ParseFlags(map[], map[]);
    assert o.runAddr == C.Get(Lift(o), C.RunAddr);
    assert o.shortURLAdress == C.Get(Lift(o), C.ShortURLAdress);
    assert o.logLevel == C.Get(Lift(o), C.LogLevel);
    assert o.fileStoragePath == C.Get(Lift(o), C.FileStoragePath);
    assert o.dataBaseDSN == C.Get(Lift(o), C.DataBaseDSN);
  }
}

=== FILE: cmd_shorturl.dfy ===
/**
 The earlier revision of short-key derivation (cmd/shortener/shorturl/shorturl.go).
 Its `strHash` loop and `Shorten` are stated here as they are written, and
 proved to compute exactly what the current revision computes, so every
 property of the current revision carries over. The line `Shorten` prints is
 output only and is not modelled.
 */
module CmdShortURL {
  import opened Strings
  import ShortURL

  /** The strHash loop: append the alphabet character of `n mod 62`, divide by 62, until zero. */
  method StrHash(n: ShortURL.Uint64) returns (s: string)
    ensures s == ShortURL.StrHash(n)
    ensures forall i :: 0 <= i < |s| ==> ShortURL.KeyChar(s[i])
    ensures ShortURL.Decode(s) == n
    ensures n == 0 ==> s == ""
  {
    ShortURL.AlphabetDigit(0);
    s := "";
    var m: nat := n;
    while m > 0
      invariant s + ShortURL.StrHash(m) == ShortURL.StrHash(n)
      decreases m
    {
      assert ShortURL.StrHash(m) == [ShortURL.Alphabet[m % 62]] + ShortURL.StrHash(m / 62);
      assert s + ShortURL.StrHash(m) == (s + [ShortURL.Alphabet[m % 62]]) + ShortURL.StrHash(m / 62);
      s := s + [ShortURL.Alphabet[m % 62]];
      m := m / 62;
    }
    assert s == ShortURL.StrHash(n);
    ShortURL.DecodeStrHash(n);
  }

  /**
   Shorten: the key is strHash of the hash of the trimmed URL; the short URL
   is the trimmed base address, "/" unless it already ends in one, and the
   key. A blank base address makes the code fail reading its last character.
   */
  method Shorten(url: string, base: string, hash: string -> ShortURL.Uint64) returns (key: string, short: string)
    requires TrimSpace(base) != ""
    ensures (key, short) == ShortURL.Shorten(url, base, hash)
    ensures ShortURL.Decode(key) == hash(TrimSpace(url))
    ensures EndsWith(TrimSpace(base), '/') ==> short == TrimSpace(base) + key
    ensures !EndsWith(TrimSpace(base), '/') ==> short == TrimSpace(base) + "/" + key
  {
    key := StrHash(hash(TrimSpace(url)));
    var address := TrimSpace(base);
    if address[|address| - 1] != '/' {
      address := address + "/";
    }
    short := address + key;
  }
}

=== FILE: cmd_storage.dfy ===
/**
 The earliest key/value store (cmd/shortener/storage/storage.go): a map from
 short key to original URL with an insert that always succeeds and a lookup
 that fails on an absent key.
 */
module CmdStorage {
  import opened Wrappers
  import opened Models

  datatype MemoryStorage = MemoryStorage(data: map<string, string>)

  /** NewMemoryStorage: an empty store. */
  function NewMemoryStorage(): (s: MemoryStorage)
    ensures s.data == map[]
  {
    MemoryStorage(map[])
  }

  /** Insert: overwrite the key's value; never an error. */
  function Insert(s: MemoryStorage, k: string, v: string): (r: (MemoryStorage, Option<Error>))
    ensures r.1 == None
    ensures k in r.0.data && r.0.data[k] == v
    ensures r.0.data.Keys == s.data.Keys + {k}
    ensures forall q :: q in s.data && q != k ==> r.0.data[q] == s.data[q]
  {
    (MemoryStorage(s.data[k := v]), None)
  }

  /** Get: the stored value, or "" and the "value with such key doesn't exist" error. */
  function Get(s: MemoryStorage, k: string): (a: Answer<string>)
    ensures a.err.None? <==> k in s.data
    ensures k in s.data ==> a.value == s.data[k]
    ensures k !in s.data ==> a == Answer("", Some(NotFound))
  {
    if k in s.data then Answer(s.data[k], None) else Answer("", Some(NotFound))
  }

  /** After Insert(k, v), Get(k) answers v and every other key answers as before. */
  lemma InsertThenGet(s: MemoryStorage, k: string, v: string, q: string)
    ensures Get(Insert(s, k, v).0, k) == Answer(v, None)
    ensures q != k ==> Get(Insert(s, k, v).0, q) == Get(s, q)
  {
  }

  /** A new store answers every key with the error. */
  lemma NewStoreIsEmpty(k: string)
    ensures Get(NewMemoryStorage(), k) == Answer("", Some(NotFound))
  {
  }

  /** Inserting the same pair twice is the same as once. */
  lemma InsertIdempotent(s: MemoryStorage, k: string, v: string)
    ensures Insert(Insert(s, k, v).0, k, v) == Insert(s, k, v)
  {
    assert s.data[k := v][k := v] == s.data[k := v];
  }
}

=== FILE: collections.dfy ===
/**
 Two shapes of iteration that recur across the Go code: a `range` over a map,
 whose visiting order Go leaves unspecified, and a decoding loop that writes
 every record of a stream into a map so that the last record with a given key wins.
 */
module Collections {

  /**
   `order` lists every key in `keys` exactly once. A Go `range` over a map
   visits the keys in some such order; the model takes that order as an input.
   */
  ghost predicate IsEnumeration<K>(order: seq<K>, keys: set<K>) {
    && (forall i, j :: 0 <= i < j < |order| ==> order[i] != order[j])
    && (forall k :: k in keys ==> k in order)
    && (forall i :: 0 <= i < |order| ==> order[i] in keys)
  }

  /** An enumeration has exactly as many entries as the set it enumerates. */
  lemma {:induction false} EnumerationSize<K>(order: seq<K>, keys: set<K>)
    requires IsEnumeration(order, keys)
    ensures |order| == |keys|
    decreases |order|
  {
    if |order| > 0 {
      var last := order[|order| - 1];
      var front := order[..|order| - 1];
      assert forall k :: k in front ==> k != last by {
        forall k | k in front ensures k != last {
          var i :| 0 <= i < |front| && front[i] == k;
          assert order[i] == k;
        }
      }
      assert forall k :: k in keys - {last} <==> k in front by {
        forall k ensures k in keys - {last} <==> k in front {
          if k in keys - {last} {
            var i :| 0 <= i < |order| && order[i] == k;
            assert i < |order| - 1;
            assert front[i] == k;
          }
        }
      }
      EnumerationSize(front, keys - {last});
    }
  }

  /**
   The loop `for each r in rs { m[key(r)] = val(r) }` started from `init`:
   the map a Go decoder loop builds when later records overwrite earlier ones.
   */
  function Index<T, V>(init: map<string, V>, rs: seq<T>, key: T -> string, val: T -> V): map<string, V>
    decreases |rs|
  {
    if |rs| == 0 then init
    else Index(init, rs[..|rs| - 1], key, val)[key(rs[|rs| - 1]) := val(rs[|rs| - 1])]
  }

  /** The keys of the index are the initial keys plus the key of every record. */
  lemma {:induction false} IndexKeys<T, V>(init: map<string, V>, rs: seq<T>, key: T -> string, val: T -> V)
    ensures Index(init, rs, key, val).Keys == init.Keys + set i | 0 <= i < |rs| :: key(rs[i])
    decreases |rs|
  {
    if |rs| > 0 {
      var front := rs[..|rs| - 1];
      IndexKeys(init, front, key, val);
      var fk := set i | 0 <= i < |front| :: key(front[i]);
      var ak := set i | 0 <= i < |rs| :: key(rs[i]);
      assert ak == fk + {key(rs[|rs| - 1])} by {
        forall k | k in ak ensures k in fk + {key(rs[|rs| - 1])} {
          var i :| 0 <= i < |rs| && key(rs[i]) == k;
          if i < |rs| - 1 { assert key(front[i]) == k; }
        }
        forall k | k in fk ensures k in ak {
          var i :| 0 <= i < |front| && key(front[i]) == k;
          assert key(rs[i]) == k;
        }
      }
    }
  }

  /** A record that no later record shadows determines the value stored under its key. */
  lemma {:induction false} IndexLastWins<T, V>(init: map<string, V>, rs: seq<T>, key: T -> string, val: T -> V, i: nat)
    requires i < |rs|
    requires forall j :: i < j < |rs| ==> key(rs[j]) != key(rs[i])
    ensures key(rs[i]) in Index(init, rs, key, val)
    ensures Index(init, rs, key, val)[key(rs[i])] == val(rs[i])
    decreases |rs|
  {
    if i < |rs| - 1 {
      var front := rs[..|rs| - 1];
      assert front[i] == rs[i];
      forall j | i < j < |front| ensures key(front[j]) != key(front[i]) {
        assert front[j] == rs[j];
      }
      IndexLastWins(init, front, key, val, i);
    }
  }

  /** A key that no record carries keeps its initial entry, or stays absent. */
  lemma {:induction false} IndexUntouched<T, V>(init: map<string, V>, rs: seq<T>, key: T -> string, val: T -> V, k: string)
    requires forall i :: 0 <= i < |rs| ==> key(rs[i]) != k
    ensures k in Index(init, rs, key, val) <==> k in init
    ensures k in init ==> Index(init, rs, key, val)[k] == init[k]
    decreases |rs|
  {
    if |rs| > 0 {
      var front := rs[..|rs| - 1];
      forall i | 0 <= i < |front| ensures key(front[i]) != k {
        assert front[i] == rs[i];
      }
      IndexUntouched(init, front, key, val, k);
    }
  }

  /** Indexing a stream that ends with `rs`, whose keys are pairwise distinct, finds each element of `rs`. */
  lemma IndexOfDistinctSuffix<T, V>(init: map<string, V>, prefix: seq<T>, rs: seq<T>, key: T -> string, val: T -> V)
    requires forall i, j :: 0 <= i < j < |rs| ==> key(rs[i]) != key(rs[j])
    ensures forall i :: 0 <= i < |rs| ==>
              key(rs[i]) in Index(init, prefix + rs, key, val) && Index(init, prefix + rs, key, val)[key(rs[i])] == val(rs[i])
  {
    var all := prefix + rs;
    forall i | 0 <= i < |rs|
      ensures key(rs[i]) in Index(init, all, key, val) && Index(init, all, key, val)[key(rs[i])] == val(rs[i])
    {
      assert all[|prefix| + i] == rs[i];
      forall j | |prefix| + i < j < |all| ensures key(all[j]) != key(all[|prefix| + i]) {
        assert all[j] == rs[j - |prefix|];
      }
      IndexLastWins(init, all, key, val, |prefix| + i);
    }
  }
}

=== FILE: config.dfy ===
/**
 Option precedence of the server (internal/config/config.go). Flags are
 registered with defaults and parsed from the command line; a non-empty
 environment variable then overrides its option; finally a JSON config file,
 when one is named, fills only the string options that are still empty,
 while its boolean `enable_https` always applies. The process environment is
 a map (a key is present when the variable is set), the command line is the
 map from flag name to the value given, and the config file is its decoded
 top-level object.
 */
module Config {
  import opened Wrappers
  import opened Models

  /** The string options, one per flag. */
  datatype Field =
    | RunAddr | ShortURLAdress | LogLevel | FileStoragePath | DataBaseDSN | JWTSigningKey
    | ConfigFile | HTTPSCertFile | HTTPSKeyFile | TrustedSubnet

  datatype Options = Options(
    runAddr: string, shortURLAdress: string, logLevel: string, fileStoragePath: string,
    dataBaseDSN: string, jwtSigningKey: string, configFile: string, enableHTTPS: bool,
    httpsCertFile: string, httpsKeyFile: string, trustedSubnet: string)

  function Get(o: Options, f: Field): string {
    match f
    case RunAddr => o.runAddr
    case ShortURLAdress => o.shortURLAdress
    case LogLevel => o.logLevel
    case FileStoragePath => o.fileStoragePath
    case DataBaseDSN => o.dataBaseDSN
    case JWTSigningKey => o.jwtSigningKey
    case ConfigFile => o.configFile
    case HTTPSCertFile => o.httpsCertFile
    case HTTPSKeyFile => o.httpsKeyFile
    case TrustedSubnet => o.trustedSubnet
  }

  /** NewOptions: every option empty, HTTPS off. */
  function NewOptions(): (o: Options)
    ensures forall f :: Get(o, f) == ""
    ensures !o.enableHTTPS
  {
    Options("", "", "", "", "", "", "", false, "", "", "")
  }

  /** The options whose string option `f` is `v(f)`. */
  function Build(v: Field -> string, https: bool): (o: Options)
    ensures forall f :: Get(o, f) == v(f)
    ensures o.enableHTTPS == https
  {
    Options(v(RunAddr), v(ShortURLAdress), v(LogLevel), v(FileStoragePath), v(DataBaseDSN), v(JWTSigningKey),
            v(ConfigFile), https, v(HTTPSCertFile), v(HTTPSKeyFile), v(TrustedSubnet))
  }

  // ---------------------------------------------------------------------------
  // Flags

  function FlagName(f: Field): string {
    match f
    case RunAddr => "a"
    case ShortURLAdress => "b"
    case LogLevel => "l"
    case FileStoragePath => "f"
    case DataBaseDSN => "d"
    case JWTSigningKey => "j"
    case ConfigFile => "c"
    case HTTPSCertFile => "r"
    case HTTPSKeyFile => "k"
    case TrustedSubnet => "t"
  }

  /** The name of the boolean HTTPS flag. */
  const HTTPSFlag: string := "s"

  function Default(f: Field): string {
    match f
    case RunAddr => ":8080"
    case ShortURLAdress => "http://localhost:8080/"
    case LogLevel => "info"
    case FileStoragePath => "test777"
    case DataBaseDSN => ""
    case JWTSigningKey => "test_key"
    case ConfigFile => ""
    case HTTPSCertFile => ""
    case HTTPSKeyFile => ""
    case TrustedSubnet => ""
  }

  /** The flag set: flag name to the default it was registered with. */
  type Registry = map<string, string>

  /** regStringVar: register a flag unless one of that name exists; the first registration stays. */
  function RegStringVar(reg: Registry, name: string, value: string): (r: Registry)
    ensures name in r && r.Keys == reg.Keys + {name}
    ensures name in reg ==> r == reg
    ensures name !in reg ==> r[name] == value && forall n :: n in reg ==> r[n] == reg[n]
  {
    if name in reg then reg else reg[name := value]
  }

  /** A second registration under a name changes nothing. */
  lemma ReRegistrationSkipped(reg: Registry, name: string, v1: string, v2: string)
    ensures RegStringVar(RegStringVar(reg, name, v1), name, v2) == RegStringVar(reg, name, v1)
  {
  }

  /** The string flags in the order ParseFlags registers them. */
  const Fields: seq<Field> := [RunAddr, ShortURLAdress, LogLevel, FileStoragePath, DataBaseDSN, JWTSigningKey,
                               ConfigFile, HTTPSCertFile, HTTPSKeyFile, TrustedSubnet]

  lemma FieldsComplete(f: Field)
    ensures f in Fields
  {
  }

  function RegisterAll(reg: Registry, fs: seq<Field>): Registry
    decreases |fs|
  {
    if |fs| == 0 then reg else RegisterAll(RegStringVar(reg, FlagName(fs[0]), Default(fs[0])), fs[1..])
  }

  /** Distinct options have distinct flag names. */
  lemma FlagNameInjective(f: Field, g: Field)
    ensures FlagName(f) == FlagName(g) ==> f == g
  {
  }

  /** Registering the listed flags records the default of every listed one not registered before. */
  lemma {:induction false} RegisterAllDefaults(reg: Registry, fs: seq<Field>, f: Field)
    requires f in fs
    requires FlagName(f) !in reg
    ensures FlagName(f) in RegisterAll(reg, fs) && RegisterAll(reg, fs)[FlagName(f)] == Default(f)
    decreases |fs|
  {
    var next := RegStringVar(reg, FlagName(fs[0]), Default(fs[0]));
    if fs[0] == f {
      RegisterAllKeeps(next, fs[1..], FlagName(f));
    } else {
      FlagNameInjective(f, fs[0]);
      assert f in fs[1..];
      RegisterAllDefaults(next, fs[1..], f);
    }
  }

  lemma {:induction false} RegisterAllKeeps(reg: Registry, fs: seq<Field>, name: string)
    requires name in reg
    ensures name in RegisterAll(reg, fs) && RegisterAll(reg, fs)[name] == reg[name]
    decreases |fs|
  {
    if |fs| > 0 {
      RegisterAllKeeps(RegStringVar(reg, FlagName(fs[0]), Default(fs[0])), fs[1..], name);
    }
  }

  /** In a fresh process every flag's default is the one ParseFlags registers. */
  lemma DefaultsRegistered(f: Field)
    ensures FlagName(f) in RegisterAll(map[], Fields)
    ensures RegisterAll(map[], Fields)[FlagName(f)] == Default(f)
  {
    FieldsComplete(f);
    var empty: Registry := map[];
    RegisterAllDefaults(empty, Fields, f);
  }

  /**
   The options after `flag.Parse` in a fresh process: the value given on the
   command line, else the registered default; HTTPS from its flag, else off.
   */
  function Parsed(cmdline: map<string, string>, https: Option<bool>): (o: Options)
    ensures forall f :: Get(o, f) == (if FlagName(f) in cmdline then cmdline[FlagName(f)] else Default(f))
    ensures o.enableHTTPS == https.GetOr(false)
  {
    Build(f => FlagValue(cmdline, f), https.GetOr(false))
  }

  function FlagValue(cmdline: map<string, string>, f: Field): string {
    if FlagName(f) in cmdline then cmdline[FlagName(f)] else Default(f)
  }

  // ---------------------------------------------------------------------------
  // Environment

  function EnvName(f: Field): string {
    match f
    case RunAddr => "SERVER_ADDRESS"
    case ShortURLAdress => "BASE_URL"
    case LogLevel => "LOG_LEVEL"
    case FileStoragePath => "FILE_STORAGE_PATH"
    case DataBaseDSN => "DATABASE_DSN"
    case JWTSigningKey => "JWT_SIGNING_KEY"
    case ConfigFile => "CONFIG"
    case HTTPSCertFile => "HTTPS_CERT_FILE"
    case HTTPSKeyFile => "HTTPS_KEY_FILE"
    case TrustedSubnet => "TRUSTED_SUBNET"
  }

  const HTTPSEnv: string := "ENABLE_HTTPS"

  /** os.Getenv: "" for an unset variable. */
  function Getenv(env: map<string, string>, key: string): (v: string)
    ensures key !in env ==> v == ""
  {
    if key in env then env[key] else ""
  }

  /** GetAsString: the variable's value whenever it is set, even to "", else the default. */
  function GetAsString(env: map<string, string>, key: string, default: string): (v: string)
    ensures key in env ==> v == env[key]
    ensures key !in env ==> v == default
  {
    if key in env then env[key] else default
  }

  /** GetAsString and Getenv differ only for an unset variable. */
  lemma GetAsStringVersusGetenv(env: map<string, string>, key: string, default: string)
    ensures key in env ==> GetAsString(env, key, default) == Getenv(env, key)
    ensures key !in env ==> GetAsString(env, key, default) == default && Getenv(env, key) == ""
  {
  }

  /** strconv.ParseBool. */
  function ParseBool(s: string): (b: Option<bool>)
    ensures b == Some(true) <==> s in {"1", "t", "T", "TRUE", "true", "True"}
    ensures b == Some(false) <==> s in {"0", "f", "F", "FALSE", "false", "False"}
  {
    if s in {"1", "t", "T", "TRUE", "true", "True"} then Some(true)
    else if s in {"0", "f", "F", "FALSE", "false", "False"} then Some(false)
    else None
  }

  /** The override rule: a non-empty environment value replaces the current one. */
  function Override(current: string, envValue: string): (v: string)
    ensures envValue != "" ==> v == envValue
    ensures envValue == "" ==> v == current
  {
    if envValue != "" then envValue else current
  }

  /**
   The env-override block of ParseFlags: every string option whose variable
   is non-empty takes that value and every other keeps its flag value;
   ENABLE_HTTPS applies when it parses as a boolean and is otherwise ignored.
   */
  function ApplyEnv(o: Options, env: map<string, string>): (r: Options)
    ensures forall f :: Get(r, f) == EnvValue(o, env, f)
    ensures r.enableHTTPS == EnvHTTPS(o.enableHTTPS, env)
  {
    Build(f => EnvValue(o, env, f), EnvHTTPS(o.enableHTTPS, env))
  }

  /** ENABLE_HTTPS applies when it parses as a boolean; otherwise the current value stays. */
  function EnvHTTPS(current: bool, env: map<string, string>): (b: bool)
    ensures ParseBool(Getenv(env, HTTPSEnv)).Some? ==> b == ParseBool(Getenv(env, HTTPSEnv)).value
    ensures ParseBool(Getenv(env, HTTPSEnv)).None? ==> b == current
  {
    var https := ParseBool(Getenv(env, HTTPSEnv));
    if https.Some? then https.value else current
  }

  /** The value of option `f` after the override: the variable's when it is non-empty, else the current one. */
  function EnvValue(o: Options, env: map<string, string>, f: Field): (v: string)
    ensures Getenv(env, EnvName(f)) != "" ==> v == Getenv(env, EnvName(f))
    ensures Getenv(env, EnvName(f)) == "" ==> v == Get(o, f)
  {
    Override(Get(o, f), Getenv(env, EnvName(f)))
  }

  /** Applying the environment twice is the same as once. */
  lemma ApplyEnvIdempotent(o: Options, env: map<string, string>)
    ensures ApplyEnv(ApplyEnv(o, env), env) == ApplyEnv(o, env)
  {
    var r1 := ApplyEnv(o, env);
    var r2 := ApplyEnv(r1, env);
    assert forall f :: Get(r2, f) == Get(r1, f);
    assert r2.runAddr == Get(r2, RunAddr) == Get(r1, RunAddr) == r1.runAddr;
    assert r2.shortURLAdress == Get(r2, ShortURLAdress);
    assert r2.logLevel == Get(r2, LogLevel);
    assert r2.fileStoragePath == Get(r2, FileStoragePath);
    assert r2.dataBaseDSN == Get(r2, DataBaseDSN);
    assert r2.jwtSigningKey == Get(r2, JWTSigningKey);
    assert r2.configFile == Get(r2, ConfigFile);
    assert r2.httpsCertFile == Get(r2, HTTPSCertFile);
    assert r2.httpsKeyFile == Get(r2, HTTPSKeyFile);
    assert r2.trustedSubnet == Get(r2, TrustedSubnet);
  }

  // ---------------------------------------------------------------------------
  // Config file

  /** A decoded JSON value, as far as the merge looks at it. */
  datatype Json = JString(s: string) | JBool(b: bool) | JOther

  type ConfigObject = map<string, Json>

  /** The config-file key of each string option; the config path itself has none. */
  function ConfigKey(f: Field): Option<string> {
    match f
    case RunAddr => Some("server_address")
    case ShortURLAdress => Some("base_url")
    case LogLevel => Some("log_level")
    case FileStoragePath => Some("file_storage_path")
    case DataBaseDSN => Some("database_dsn")
    case JWTSigningKey => Some("jwt_signing_key")
    case ConfigFile => None
    case HTTPSCertFile => Some("https_cert_file")
    case HTTPSKeyFile => Some("https_key_file")
    case TrustedSubnet => Some("trusted_subnet")
  }

  /** `config[key]`: an absent key reads as nil. */
  function Lookup(cfg: ConfigObject, key: string): Option<Json> {
    if key in cfg then Some(cfg[key]) else None
  }

  /**
   setIfNotEmpty: a non-empty target is never changed; an empty one takes
   the value exactly when the value is a non-empty string.
   */
  function SetIfNotEmpty(target: string, value: Option<Json>): (r: string)
    ensures target != "" ==> r == target
    ensures target == "" && value.Some? && value.value.JString? && value.value.s != "" ==> r == value.value.s
    ensures target == "" && !(value.Some? && value.value.JString? && value.value.s != "") ==> r == ""
  {
    if target != "" then target
    else if value.Some? && value.value.JString? && value.value.s != "" then value.value.s
    else target
  }

  lemma SetIfNotEmptyIdempotent(target: string, value: Option<Json>)
    ensures SetIfNotEmpty(SetIfNotEmpty(target, value), value) == SetIfNotEmpty(target, value)
  {
  }

  /** The merged value of one option from the config file. */
  function Filled(o: Options, cfg: ConfigObject, f: Field): string {
    if ConfigKey(f).Some? then SetIfNotEmpty(Get(o, f), Lookup(cfg, ConfigKey(f).value)) else Get(o, f)
  }

  /**
   LoadFromConfigFile: a file that cannot be opened or decoded is reported
   and changes nothing; otherwise every string option with a config key is
   merged by setIfNotEmpty, and a boolean `enable_https` always applies.
   */
  function LoadFromConfigFile(o: Options, file: Answer<ConfigObject>): (r: (Options, Option<Error>))
    ensures file.err.Some? ==> r == (o, file.err)
    ensures file.err.None? ==> r.1 == None
    ensures file.err.None? ==> forall f :: Get(r.0, f) == Filled(o, file.value, f)
    ensures file.err.None? && Lookup(file.value, "enable_https").Some? && Lookup(file.value, "enable_https").value.JBool? ==>
              r.0.enableHTTPS == Lookup(file.value, "enable_https").value.b
    ensures file.err.None? && !(Lookup(file.value, "enable_https").Some? && Lookup(file.value, "enable_https").value.JBool?) ==>
              r.0.enableHTTPS == o.enableHTTPS
  {
    if file.err.Some? then (o, file.err)
    else
      var cfg := file.value;
      var https := Lookup(cfg, "enable_https");
      (Build(f => Filled(o, cfg, f), if https.Some? && https.value.JBool? then https.value.b else o.enableHTTPS), None)
  }

  /** Merging the same config file twice is the same as once. */
  lemma LoadFromConfigFileIdempotent(o: Options, cfg: ConfigObject)
    ensures LoadFromConfigFile(LoadFromConfigFile(o, Answer(cfg, None)).0, Answer(cfg, None)).0
         == LoadFromConfigFile(o, Answer(cfg, None)).0
  {
    var r1 := LoadFromConfigFile(o, Answer(cfg, None)).0;
    var r2 := LoadFromConfigFile(r1, Answer(cfg, None)).0;
    forall f ensures Get(r2, f) == Get(r1, f) {
      if ConfigKey(f).Some? {
        SetIfNotEmptyIdempotent(Get(o, f), Lookup(cfg, ConfigKey(f).value));
      }
    }
    assert r2.runAddr == Get(r2, RunAddr);
    assert r2.shortURLAdress == Get(r2, ShortURLAdress);
    assert r2.logLevel == Get(r2, LogLevel);
    assert r2.fileStoragePath == Get(r2, FileStoragePath);
    assert r2.dataBaseDSN == Get(r2, DataBaseDSN);
    assert r2.jwtSigningKey == Get(r2, JWTSigningKey);
    assert r2.configFile == Get(r2, ConfigFile);
    assert r2.httpsCertFile == Get(r2, HTTPSCertFile);
    assert r2.httpsKeyFile == Get(r2, HTTPSKeyFile);
    assert r2.trustedSubnet == Get(r2, TrustedSubnet);
  }

  // ---------------------------------------------------------------------------
  // The whole precedence

  /**
   ParseFlags after `flag.Parse`: the environment overrides the flag values,
   then the config file named by the result, if any, is merged. `file` is
   what opening and decoding that file gives.
   */
  function ParseFlags(flags: Options, env: map<string, string>, file: Answer<ConfigObject>): (o: Options)
    ensures ApplyEnv(flags, env).configFile == "" ==> o == ApplyEnv(flags, env)
    ensures ApplyEnv(flags, env).configFile != "" ==> o == LoadFromConfigFile(ApplyEnv(flags, env), file).0
  {
    var o := ApplyEnv(flags, env);
    if o.configFile != "" then LoadFromConfigFile(o, file).0 else o
  }

  /** A non-empty environment variable beats both the flag and the config file. */
  lemma EnvBeatsFlagAndFile(flags: Options, env: map<string, string>, file: Answer<ConfigObject>, f: Field)
    requires Getenv(env, EnvName(f)) != ""
    ensures Get(ParseFlags(flags, env, file), f) == Getenv(env, EnvName(f))
  {
  }

  /**
   The config file only fills the blanks: an option left empty by flag and
   environment takes the file's non-empty string, stays empty when the file
   has no string for it, and any other option keeps its value.
   */
  lemma FileFillsOnlyBlanks(flags: Options, env: map<string, string>, cfg: ConfigObject, f: Field, s: string)
    requires ApplyEnv(flags, env).configFile != ""
    requires ConfigKey(f).Some?
    ensures Get(ApplyEnv(flags, env), f) != "" ==> Get(ParseFlags(flags, env, Answer(cfg, None)), f) == Get(ApplyEnv(flags, env), f)
    ensures Get(ApplyEnv(flags, env), f) == "" && s != "" && Lookup(cfg, ConfigKey(f).value) == Some(JString(s)) ==>
              Get(ParseFlags(flags, env, Answer(cfg, None)), f) == s
    ensures Get(ApplyEnv(flags, env), f) == "" && !(Lookup(cfg, ConfigKey(f).value).Some? && Lookup(cfg, ConfigKey(f).value).value.JString? && Lookup(cfg, ConfigKey(f).value).value.s != "") ==>
              Get(ParseFlags(flags, env, Answer(cfg, None)), f) == ""
  {
  }

  /** The file's boolean `enable_https` wins over both the flag and ENABLE_HTTPS. */
  lemma FileHTTPSAlwaysApplies(flags: Options, env: map<string, string>, cfg: ConfigObject, b: bool)
    requires ApplyEnv(flags, env).configFile != ""
    requires Lookup(cfg, "enable_https") == Some(JBool(b))
    ensures ParseFlags(flags, env, Answer(cfg, None)).enableHTTPS == b
  {
  }

  /** With no environment and no config file, the options are the parsed flags, defaults included. */
  lemma DefaultsWithoutOverrides(f: Field)
    ensures Get(ParseFlags(Parsed(map[], None), map[], Answer(map[], None)), f) == Default(f)
    ensures !ParseFlags(Parsed(map[], None), map[], Answer(map[], None)).enableHTTPS
  {
    var p := Parsed(map[], None);
    assert Get(p, f) == Default(f) && p.configFile == Get(p, ConfigFile) == "";
    var e := ApplyEnv(p, map[]);
    assert Get(e, f) == Get(p, f) && e.configFile == Get(e, ConfigFile) == "";
    assert !EnvHTTPS(false, map[]) by {
      assert Getenv(map[], HTTPSEnv) == "";
    }
  }
}

=== FILE: deny_os_exit.dfy ===
/**
 The `deny_os_exit` analyzer (cmd/staticlint/multichecker/denyOsExit.go): in
 files of package `main`, every top-level statement of a function named
 `main` that is a call to `os.Exit` gets one diagnostic at the selector. The
 Go syntax tree is cut down to what the matcher looks at.
 */
module DenyOsExit {
  import opened Wrappers

  datatype Expr =
    | Ident(name: string)
    | Selector(x: Expr, sel: string, pos: nat)
    | Call(fun: Expr, args: seq<Expr>)
    | OtherExpr

  /** Statements; a block stands for any statement with statements inside (if, for, a bare block). */
  datatype Stmt = ExprStmt(x: Expr) | BlockStmt(list: seq<Stmt>) | OtherStmt

  datatype Decl = FuncDecl(name: string, body: seq<Stmt>) | GenDecl

  /** A parsed file: its package name and its top-level declarations. */
  datatype File = File(name: string, decls: seq<Decl>)

  datatype Diagnostic = Diagnostic(pos: nat, message: string)

  const Message: string := "avoid direct os.Exit calls in the main function"

  /** The selector position of a statement of the form `os.Exit(...)`, the receiver being the identifier `os` itself. */
  function ExitSelector(s: Stmt): (p: Option<nat>)
    ensures p.Some? <==> exists pos, args :: s == ExprStmt(Call(Selector(Ident("os"), "Exit", pos), args))
    ensures p.Some? ==> s.x.fun.pos == p.value
  {
    if s.ExprStmt? && s.x.Call? && s.x.fun.Selector? && s.x.fun.x.Ident? && s.x.fun.x.name == "os" && s.x.fun.sel == "Exit"
    then Some(s.x.fun.pos)
    else None
  }

  /** checkExitCall: one diagnostic for an `os.Exit` call statement, none otherwise. */
  function CheckExitCall(s: Stmt): (ds: seq<Diagnostic>)
    ensures ExitSelector(s).Some? ==> ds == [Diagnostic(ExitSelector(s).value, Message)]
    ensures ExitSelector(s).None? ==> ds == []
  {
    match ExitSelector(s)
    case Some(p) => [Diagnostic(p, Message)]
    case None => []
  }

  /** The loop of checkMainFunction over the top-level statements, in order. */
  function CheckStmts(body: seq<Stmt>): (ds: seq<Diagnostic>)
    ensures |ds| <= |body|
    decreases |body|
  {
    if |body| == 0 then [] else CheckStmts(body[..|body| - 1]) + CheckExitCall(body[|body| - 1])
  }

  /** checkMainFunction: only a function named `main` is looked at. */
  function CheckMainFunction(d: Decl): (ds: seq<Diagnostic>)
    ensures !(d.FuncDecl? && d.name == "main") ==> ds == []
  {
    if d.FuncDecl? && d.name == "main" then CheckStmts(d.body) else []
  }

  /** ast.Inspect over a file visits each function declaration once, in order. */
  function CheckDecls(decls: seq<Decl>): seq<Diagnostic>
    decreases |decls|
  {
    if |decls| == 0 then [] else CheckDecls(decls[..|decls| - 1]) + CheckMainFunction(decls[|decls| - 1])
  }

  /** runDenyOsExitAnalyzer: the diagnostics of every file of package `main`, file by file. */
  function Run(files: seq<File>): seq<Diagnostic>
    decreases |files|
  {
    if |files| == 0 then []
    else
      var f := files[|files| - 1];
      Run(files[..|files| - 1]) + (if f.name == "main" then CheckDecls(f.decls) else [])
  }

  lemma {:induction false} CheckStmtsIff(body: seq<Stmt>, d: Diagnostic)
    ensures d in CheckStmts(body) <==>
              d.message == Message && exists k :: 0 <= k < |body| && ExitSelector(body[k]) == Some(d.pos)
    decreases |body|
  {
    if |body| > 0 {
      var init := body[..|body| - 1];
      CheckStmtsIff(init, d);
      if d.message == Message && (exists k :: 0 <= k < |body| && ExitSelector(body[k]) == Some(d.pos)) {
        var k :| 0 <= k < |body| && ExitSelector(body[k]) == Some(d.pos);
        if k < |init| {
          assert init[k] == body[k];
        }
      }
      if exists k :: 0 <= k < |init| && ExitSelector(init[k]) == Some(d.pos) {
        var k :| 0 <= k < |init| && ExitSelector(init[k]) == Some(d.pos);
        assert body[k] == init[k];
      }
    }
  }

  /** The diagnostic `d` is due to declaration `decl`: a function `main` with an `os.Exit` call at `d.pos` among its top-level statements. */
  ghost predicate FlaggedDecl(decl: Decl, d: Diagnostic) {
    && d.message == Message && decl.FuncDecl? && decl.name == "main"
    && exists k :: 0 <= k < |decl.body| && ExitSelector(decl.body[k]) == Some(d.pos)
  }

  /** checkMainFunction reports exactly the `os.Exit` calls at the top of a function `main`. */
  lemma CheckMainFunctionIff(decl: Decl, d: Diagnostic)
    ensures d in CheckMainFunction(decl) <==> FlaggedDecl(decl, d)
  {
    if decl.FuncDecl? && decl.name == "main" {
      CheckStmtsIff(decl.body, d);
    }
  }

  /** The diagnostics of one file's declarations. */
  ghost predicate FlaggedIn(decls: seq<Decl>, d: Diagnostic) {
    exists j :: 0 <= j < |decls| && FlaggedDecl(decls[j], d)
  }

  lemma {:induction false} CheckDeclsIff(decls: seq<Decl>, d: Diagnostic)
    ensures d in CheckDecls(decls) <==> FlaggedIn(decls, d)
    decreases |decls|
  {
    if |decls| > 0 {
      var init := decls[..|decls| - 1];
      var last := decls[|decls| - 1];
      CheckDeclsIff(init, d);
      CheckMainFunctionIff(last, d);
      if FlaggedIn(decls, d) {
        var j :| 0 <= j < |decls| && FlaggedDecl(decls[j], d);
        if j < |init| {
          assert init[j] == decls[j];
        }
      }
      if FlaggedIn(init, d) {
        var j :| 0 <= j < |init| && FlaggedDecl(init[j], d);
        assert decls[j] == init[j];
      }
    }
  }

  /** A statement the analyzer flags: an `os.Exit` call at the top of `main` in a file of package `main`. */
  ghost predicate Flagged(files: seq<File>, d: Diagnostic) {
    exists i :: 0 <= i < |files| && files[i].name == "main" && FlaggedIn(files[i].decls, d)
  }

  /** The analyzer reports exactly the flagged statements, with the fixed message. */
  lemma {:induction false} RunIff(files: seq<File>, d: Diagnostic)
    ensures d in Run(files) <==> Flagged(files, d)
    decreases |files|
  {
    if |files| > 0 {
      var init := files[..|files| - 1];
      var last := files[|files| - 1];
      RunIff(init, d);
      CheckDeclsIff(last.decls, d);
      if Flagged(files, d) {
        var i :| 0 <= i < |files| && files[i].name == "main" && FlaggedIn(files[i].decls, d);
        if i < |init| {
          assert init[i] == files[i];
        }
      }
      if Flagged(init, d) {
        var i :| 0 <= i < |init| && init[i].name == "main" && FlaggedIn(init[i].decls, d);
        assert files[i] == init[i];
      }
    }
  }

  /** Files are analysed independently: the diagnostics of two file lists concatenate. */
  lemma {:induction false} RunAppend(a: seq<File>, b: seq<File>)
    ensures Run(a + b) == Run(a) + Run(b)
    decreases |b|
  {
    if |b| > 0 {
      var b' := b[..|b| - 1];
      assert (a + b)[..|a + b| - 1] == a + b';
      assert (a + b)[|a + b| - 1] == b[|b| - 1];
      RunAppend(a, b');
    } else {
      assert a + b == a;
    }
  }

  /** A file of any other package adds nothing. */
  lemma OtherPackageIgnored(files: seq<File>, f: File)
    requires f.name != "main"
    ensures Run(files + [f]) == Run(files)
  {
    assert (files + [f])[..|files|] == files;
  }

  /** A call inside a nested statement is not reported: only the top level of main's body is scanned. */
  lemma NestedCallNotReported(pos: nat, args: seq<Expr>)
    ensures Run([File("main", [FuncDecl("main", [BlockStmt([ExprStmt(Call(Selector(Ident("os"), "Exit", pos), args))])])])]) == []
  {
    var main := FuncDecl("main", [BlockStmt([ExprStmt(Call(Selector(Ident("os"), "Exit", pos), args))])]);
    assert CheckStmts(main.body) == CheckStmts([]) + CheckExitCall(main.body[0]);
    assert CheckDecls([main]) == CheckDecls([]) + CheckMainFunction(main);
  }

  /** A direct call is reported once, at its selector. */
  lemma DirectCallReported(pos: nat, args: seq<Expr>)
    ensures Run([File("main", [FuncDecl("main", [ExprStmt(Call(Selector(Ident("os"), "Exit", pos), args))])])])
         == [Diagnostic(pos, Message)]
  {
    var main := FuncDecl("main", [ExprStmt(Call(Selector(Ident("os"), "Exit", pos), args))]);
    assert CheckStmts(main.body) == CheckStmts([]) + CheckExitCall(main.body[0]);
    assert CheckDecls([main]) == CheckDecls([]) + CheckMainFunction(main);
  }

  /** `os` under another name is not recognised: the receiver must be the identifier `os`. */
  lemma RenamedImportNotReported(alias: string, pos: nat, args: seq<Expr>)
    requires alias != "os"
    ensures CheckExitCall(ExprStmt(Call(Selector(Ident(alias), "Exit", pos), args))) == []
  {
  }
}

=== FILE: filekeeper.dfy ===
/**
 The JSON-file keeper (internal/filekeeper/fileKeeper.go). The file is
 modelled as the sequence of records encoded on its lines, `None` when it
 does not exist. URL records and user records share one file, and every
 decoding pass reads each line as the record type it is looking for, so a
 line written for the other type decodes by JSON field name (see AsURL and
 AsUser). `uuid.New()` is the input `newID`; the failure to open or create
 the file is the input `openErr`.
 */
module FileKeeper {
  import opened Wrappers
  import opened Models
  import opened Collections

  /** One encoded line of the file. */
  datatype Line = URLLine(url: DataURL) | UserLine(user: DataUser)

  type File = Option<seq<Line>>

  datatype FileKeeper = FileKeeper(path: string)

  /** The file after a write, and the Go result pair. */
  datatype Saved<T> = Saved(file: File, answer: Answer<T>)

  /** NewFileKeeper: no keeper (nil) for an empty path. */
  function NewFileKeeper(path: string): (kp: Option<FileKeeper>)
    ensures kp.None? <==> path == ""
    ensures kp.Some? ==> kp.value.path == path
  {
    if path == "" then None else Some(FileKeeper(path))
  }

  /**
   A line decoded into `models.DataURL`. A user line shares only the JSON
   key "user_id" with a URL record: it is the user's UUID there and the
   owner's id here.
   */
  function AsURL(l: Line): DataURL {
    match l
    case URLLine(u) => u
    case UserLine(u) => DataURL("", "", "", u.uuid, false)
  }

  /** A line decoded into `models.DataUser`; a URL line contributes its "user_id" as the UUID. */
  function AsUser(l: Line): DataUser {
    match l
    case UserLine(u) => u
    case URLLine(u) => DataUser(u.userID, "", "", None)
  }

  function URLKey(l: Line): string { AsURL(l).shortURL }
  function UserKey(l: Line): string { AsUser(l).email }

  const FileNotFound: Error := Failure("file not found")

  /**
   Load: a missing file gives an empty map and an error; otherwise every line
   is keyed by its short URL and a later line overwrites an earlier one.
   */
  function Load(file: File): (a: Answer<StorageURL>)
    ensures file.None? ==> a == Answer(map[], Some(FileNotFound))
    ensures file.Some? ==> a.err == None
    ensures file.Some? ==> a.value.Keys == set i | 0 <= i < |file.value| :: URLKey(file.value[i])
    ensures file.Some? ==>
              forall i :: (0 <= i < |file.value| && forall j :: i < j < |file.value| ==> URLKey(file.value[j]) != URLKey(file.value[i]))
                ==> a.value[URLKey(file.value[i])] == AsURL(file.value[i])
  {
    if file.None? then Answer(map[], Some(FileNotFound))
    else
      var ls := file.value;
      IndexKeys(map[], ls, URLKey, AsURL);
      forall i | 0 <= i < |ls| && (forall j :: i < j < |ls| ==> URLKey(ls[j]) != URLKey(ls[i]))
        ensures Index(map[], ls, URLKey, AsURL)[URLKey(ls[i])] == AsURL(ls[i])
      {
        IndexLastWins(map[], ls, URLKey, AsURL, i);
      }
      Answer(Index(map[], ls, URLKey, AsURL), None)
  }

  /** LoadUsers: Load's contract, keyed by e-mail. */
  function LoadUsers(file: File): (a: Answer<StorageUser>)
    ensures file.None? ==> a == Answer(map[], Some(FileNotFound))
    ensures file.Some? ==> a.err == None
    ensures file.Some? ==> a.value.Keys == set i | 0 <= i < |file.value| :: UserKey(file.value[i])
    ensures file.Some? ==>
              forall i :: (0 <= i < |file.value| && forall j :: i < j < |file.value| ==> UserKey(file.value[j]) != UserKey(file.value[i]))
                ==> a.value[UserKey(file.value[i])] == AsUser(file.value[i])
  {
    if file.None? then Answer(map[], Some(FileNotFound))
    else
      var ls := file.value;
      IndexKeys(map[], ls, UserKey, AsUser);
      forall i | 0 <= i < |ls| && (forall j :: i < j < |ls| ==> UserKey(ls[j]) != UserKey(ls[i]))
        ensures Index(map[], ls, UserKey, AsUser)[UserKey(ls[i])] == AsUser(ls[i])
      {
        IndexLastWins(map[], ls, UserKey, AsUser, i);
      }
      Answer(Index(map[], ls, UserKey, AsUser), None)
  }

  /** The first line whose `key` field equals `k`, decoded; None when there is none. */
  function FirstWith<T>(ls: seq<Line>, decode: Line -> T, key: Line -> string, k: string): (r: Option<T>)
    ensures r.None? <==> forall i :: 0 <= i < |ls| ==> key(ls[i]) != k
    ensures r.Some? ==> exists i :: IsFirstWith(ls, key, k, i) && r.value == decode(ls[i])
  {
    if |ls| == 0 then None
    else if key(ls[0]) == k then Some(decode(ls[0]))
    else
      var r := FirstWith(ls[1..], decode, key, k);
      assert forall i :: 1 <= i < |ls| ==> ls[i] == ls[1..][i - 1];
      r
  }

  /** Line i carries `k` and no earlier line does. */
  predicate IsFirstWith(ls: seq<Line>, key: Line -> string, k: string, i: int) {
    0 <= i < |ls| && key(ls[i]) == k && forall j :: 0 <= j < i ==> key(ls[j]) != k
  }

  /** The record Save appends: the caller's UUID or a fresh one, its short and original URL, no owner, not deleted. */
  function NewURLRecord(data: DataURL, newID: string): DataURL
    requires newID != ""
  {
    DataURL(DefaultUUID(data.uuid, newID), data.shortURL, data.originalURL, "", false)
  }

  /**
   The shape Save and SaveUser share: a readable scan for the first line
   whose `key` is `probe`. A line found is returned with `Conflict` and
   nothing is written; otherwise `added` is appended (the file is created if
   missing) and returned.
   */
  function ScanThenAppend<T>(file: File, decode: Line -> T, key: Line -> string, probe: string, added: Line, du: T)
    : Saved<T>
  {
    var existing := if file.Some? then FirstWith(file.value, decode, key, probe) else None;
    if existing.Some? then Saved(file, Answer(existing.value, Some(Conflict)))
    else Saved(Some(file.GetOr([]) + [added]), Answer(du, None))
  }

  /**
   Save, corrected: the conflict scan reads the file and looks for the short
   URL about to be written, the field every line is keyed by. The first line
   carrying it is returned with `Conflict` and nothing is appended; otherwise
   the new record is appended (the file is created if missing) and returned.
   The bare `key` is not consulted.
   */
  function Save(file: File, key: string, data: DataURL, newID: string, openErr: Option<Error>): (r: Saved<DataURL>)
    requires newID != ""
    ensures openErr.Some? ==> r == Saved(file, Answer(data, openErr))
    ensures openErr.None? && file.Some? && (exists i :: 0 <= i < |file.value| && URLKey(file.value[i]) == data.shortURL) ==>
              && r.file == file && r.answer.err == Some(Conflict)
              && exists i :: IsFirstWith(file.value, URLKey, data.shortURL, i) && r.answer.value == AsURL(file.value[i])
    ensures openErr.None? && (file.None? || forall i :: 0 <= i < |file.value| ==> URLKey(file.value[i]) != data.shortURL) ==>
              && r.answer == Answer(NewURLRecord(data, newID), None)
              && r.file == Some(file.GetOr([]) + [URLLine(NewURLRecord(data, newID))])
  {
    if openErr.Some? then Saved(file, Answer(data, openErr))
    else
      var du := NewURLRecord(data, newID);
      ScanThenAppend(file, AsURL, URLKey, data.shortURL, URLLine(du), du)
  }

  /**
   Save with the scan as its code compares, on a readable file: it looks for
   a line whose short URL equals the bare `key`. The line Save itself writes
   carries the caller's full short URL instead, so only lines SaveBatch wrote
   can ever match.
   */
  function SaveKeyScan(file: File, key: string, data: DataURL, newID: string, openErr: Option<Error>)
    : (r: Saved<DataURL>)
    requires newID != ""
    ensures openErr.Some? ==> r == Saved(file, Answer(data, openErr))
    ensures openErr.None? && file.Some? && (exists i :: 0 <= i < |file.value| && URLKey(file.value[i]) == key) ==>
              && r.file == file && r.answer.err == Some(Conflict)
              && exists i :: IsFirstWith(file.value, URLKey, key, i) && r.answer.value == AsURL(file.value[i])
    ensures openErr.None? && (file.None? || forall i :: 0 <= i < |file.value| ==> URLKey(file.value[i]) != key) ==>
              && r.answer == Answer(NewURLRecord(data, newID), None)
              && r.file == Some(file.GetOr([]) + [URLLine(NewURLRecord(data, newID))])
  {
    if openErr.Some? then Saved(file, Answer(data, openErr))
    else
      var du := NewURLRecord(data, newID);
      ScanThenAppend(file, AsURL, URLKey, key, URLLine(du), du)
  }

  /**
   The discrepancy of the key comparison: callers pass the full short URL,
   which differs from the key it ends with. Saving the same URL twice into a
   fresh file then appends twice and reports success both times, whereas the
   corrected Save reports the second as a conflict and leaves the file alone.
   */
  lemma SaveKeyScanMissesRepeat(key: string, data: DataURL, id1: string, id2: string)
    requires id1 != "" && id2 != ""
    requires data.shortURL != key
    ensures var once := SaveKeyScan(None, key, data, id1, None).file;
            && SaveKeyScan(once, key, data, id2, None).answer.err == None
            && SaveKeyScan(once, key, data, id2, None).file.value == once.value + [URLLine(NewURLRecord(data, id2))]
    ensures var once := Save(None, key, data, id1, None).file;
            && Save(once, key, data, id2, None).answer == Answer(NewURLRecord(data, id1), Some(Conflict))
            && Save(once, key, data, id2, None).file == once
  {
  }

  /**
   Save as written: the conflict scan decodes from the descriptor Save has
   just opened with O_APPEND|O_WRONLY. Reading from it fails, the decoder
   reports no further value, and the scan sees no line at all.
   */
  function SaveAsWritten(file: File, key: string, data: DataURL, newID: string, openErr: Option<Error>): (r: Saved<DataURL>)
    requires newID != ""
    ensures openErr.None? ==> r.answer == Answer(NewURLRecord(data, newID), None)
    ensures openErr.None? ==> r.file == Some(file.GetOr([]) + [URLLine(NewURLRecord(data, newID))])
    ensures openErr.Some? ==> r == Saved(file, Answer(data, openErr))
  {
    if openErr.Some? then Saved(file, Answer(data, openErr))
    else
      var du := NewURLRecord(data, newID);
      Saved(Some(file.GetOr([]) + [URLLine(du)]), Answer(du, None))
  }

  /**
   The discrepancy: on a file that already holds a line for `key`, Save
   reports the conflict and leaves the file alone, whereas the code as
   written appends a second line for the same key and reports success.
   */
  lemma SaveAsWrittenMissesConflict(ls: seq<Line>, key: string, data: DataURL, newID: string)
    requires newID != ""
    requires exists i :: 0 <= i < |ls| && URLKey(ls[i]) == data.shortURL
    ensures Save(Some(ls), key, data, newID, None).answer.err == Some(Conflict)
    ensures Save(Some(ls), key, data, newID, None).file == Some(ls)
    ensures SaveAsWritten(Some(ls), key, data, newID, None).answer.err == None
    ensures |SaveAsWritten(Some(ls), key, data, newID, None).file.value| == |ls| + 1
  {
  }

  /** After a Save that appended, Load finds the appended record under its short URL. */
  lemma SaveThenLoad(file: File, key: string, data: DataURL, newID: string)
    requires newID != ""
    requires Save(file, key, data, newID, None).answer.err == None
    ensures data.shortURL in Load(Save(file, key, data, newID, None).file).value
    ensures Load(Save(file, key, data, newID, None).file).value[data.shortURL] == Save(file, key, data, newID, None).answer.value
  {
    var ls := Save(file, key, data, newID, None).file.value;
    IndexLastWins(map[], ls, URLKey, AsURL, |ls| - 1);
  }

  function NewUserRecord(data: DataUser, newID: string): DataUser
    requires newID != ""
  {
    DataUser(DefaultUUID(data.uuid, newID), data.name, data.email, data.hash)
  }

  /**
   SaveUser: the first line whose e-mail equals `key` is returned with
   `Conflict`; otherwise a record with the caller's or a fresh UUID and the
   caller's e-mail, hash and name is appended and returned.
   */
  function SaveUser(file: File, key: string, data: DataUser, newID: string, openErr: Option<Error>): (r: Saved<DataUser>)
    requires newID != ""
    ensures openErr.Some? ==> r == Saved(file, Answer(data, openErr))
    ensures openErr.None? && file.Some? && (exists i :: 0 <= i < |file.value| && UserKey(file.value[i]) == key) ==>
              && r.file == file && r.answer.err == Some(Conflict)
              && exists i :: IsFirstWith(file.value, UserKey, key, i) && r.answer.value == AsUser(file.value[i])
    ensures openErr.None? && (file.None? || forall i :: 0 <= i < |file.value| ==> UserKey(file.value[i]) != key) ==>
              && r.answer == Answer(NewUserRecord(data, newID), None)
              && r.file == Some(file.GetOr([]) + [UserLine(NewUserRecord(data, newID))])
  {
    if openErr.Some? then Saved(file, Answer(data, openErr))
    else
      var du := NewUserRecord(data, newID);
      ScanThenAppend(file, AsUser, UserKey, key, UserLine(du), du)
  }

  /**
   After a SaveUser that appended, LoadUsers finds the appended user under
   the e-mail it was saved with.
   */
  lemma SaveUserThenLoadUsers(file: File, key: string, data: DataUser, newID: string)
    requires newID != ""
    requires SaveUser(file, key, data, newID, None).answer.err == None
    ensures data.email in LoadUsers(SaveUser(file, key, data, newID, None).file).value
    ensures LoadUsers(SaveUser(file, key, data, newID, None).file).value[data.email] == SaveUser(file, key, data, newID, None).answer.value
  {
  }

  /** SaveUser as written: its scan reads from a write-only descriptor too, and sees nothing. */
  function SaveUserAsWritten(file: File, key: string, data: DataUser, newID: string, openErr: Option<Error>)
    : (r: Saved<DataUser>)
    requires newID != ""
    ensures openErr.None? ==> r.answer == Answer(NewUserRecord(data, newID), None)
    ensures openErr.None? ==> r.file == Some(file.GetOr([]) + [UserLine(NewUserRecord(data, newID))])
    ensures openErr.Some? ==> r == Saved(file, Answer(data, openErr))
  {
    if openErr.Some? then Saved(file, Answer(data, openErr))
    else
      var du := NewUserRecord(data, newID);
      Saved(Some(file.GetOr([]) + [UserLine(du)]), Answer(du, None))
  }

  /** The same discrepancy for users: a registered e-mail is appended again instead of conflicting. */
  lemma SaveUserAsWrittenMissesConflict(ls: seq<Line>, key: string, data: DataUser, newID: string)
    requires newID != ""
    requires exists i :: 0 <= i < |ls| && UserKey(ls[i]) == key
    ensures SaveUser(Some(ls), key, data, newID, None).answer.err == Some(Conflict)
    ensures SaveUser(Some(ls), key, data, newID, None).file == Some(ls)
    ensures SaveUserAsWritten(Some(ls), key, data, newID, None).answer.err == None
    ensures |SaveUserAsWritten(Some(ls), key, data, newID, None).file.value| == |ls| + 1
  {
  }

  /** The lines SaveBatch appends: one per map entry, in iteration order, keyed by the map key. */
  function BatchLines(data: StorageURL, order: seq<string>, newID: seq<string>): (ls: seq<Line>)
    requires forall i :: 0 <= i < |order| ==> order[i] in data
    requires |newID| == |order| && forall i :: 0 <= i < |newID| ==> newID[i] != ""
    ensures |ls| == |order|
  {
    if |order| == 0 then []
    else [BatchLine(data, order[0], newID[0])] + BatchLines(data, order[1..], newID[1..])
  }

  /** The record SaveBatch writes for key `k`: that short URL, the entry's original URL and UUID (or `id`), no owner, no tombstone. */
  function BatchLine(data: StorageURL, k: string, id: string): Line
    requires k in data && id != ""
  {
    URLLine(DataURL(DefaultUUID(data[k].uuid, id), k, data[k].originalURL, "", false))
  }

  /** Line i of the batch is the record for the i-th key visited, with the i-th fresh UUID. */
  lemma {:induction false} BatchLineAt(data: StorageURL, order: seq<string>, newID: seq<string>, i: nat)
    requires forall j :: 0 <= j < |order| ==> order[j] in data
    requires |newID| == |order| && forall j :: 0 <= j < |newID| ==> newID[j] != ""
    requires i < |order|
    ensures BatchLines(data, order, newID)[i] == BatchLine(data, order[i], newID[i])
    decreases |order|
  {
    if i > 0 {
      BatchLineAt(data, order[1..], newID[1..], i - 1);
    }
  }

  /**
   SaveBatch appends one record per map entry with the map key as its short
   URL, without any conflict check; a file that cannot be opened or created
   is reported and left alone.
   */
  function SaveBatch(file: File, data: StorageURL, order: seq<string>, newID: seq<string>, openErr: Option<Error>)
    : (r: Saved<()>)
    requires IsEnumeration(order, data.Keys)
    requires |newID| == |order| && forall i :: 0 <= i < |newID| ==> newID[i] != ""
    ensures r.answer.err == openErr
    ensures openErr.Some? ==> r.file == file
    ensures openErr.None? ==> r.file.Some? && |r.file.value| == |file.GetOr([])| + |data|
    ensures openErr.None? ==> r.file.value[..|file.GetOr([])|] == file.GetOr([])
  {
    if openErr.Some? then Saved(file, Answer((), openErr))
    else
      EnumerationSize(order, data.Keys);
      var ls := file.GetOr([]) + BatchLines(data, order, newID);
      assert ls[..|file.GetOr([])|] == file.GetOr([]);
      Saved(Some(ls), Answer((), None))
  }

  /**
   After SaveBatch, Load finds every batch key mapped to a record with that
   short URL, the entry's original URL and UUID (or a fresh one), no owner
   and no tombstone.
   */
  lemma SaveBatchThenLoad(file: File, data: StorageURL, order: seq<string>, newID: seq<string>, k: string)
    requires IsEnumeration(order, data.Keys)
    requires |newID| == |order| && forall i :: 0 <= i < |newID| ==> newID[i] != ""
    requires k in data
    ensures var m := Load(SaveBatch(file, data, order, newID, None).file).value;
            && k in m && m[k].shortURL == k && m[k].originalURL == data[k].originalURL
            && m[k].uuid != "" && (data[k].uuid != "" ==> m[k].uuid == data[k].uuid)
            && m[k].userID == "" && !m[k].deletedFlag
  {
    var prefix := file.GetOr([]);
    var added := BatchLines(data, order, newID);
    SaveBatchFile(file, data, order, newID);
    var i :| 0 <= i < |order| && order[i] == k;
    BatchLineLast(prefix, data, order, newID, i);
    LoadFinds(prefix + added, |prefix| + i);
    BatchLineAt(data, order, newID, i);
  }

  lemma SaveBatchFile(file: File, data: StorageURL, order: seq<string>, newID: seq<string>)
    requires IsEnumeration(order, data.Keys)
    requires |newID| == |order| && forall i :: 0 <= i < |newID| ==> newID[i] != ""
    ensures SaveBatch(file, data, order, newID, None).file == Some(file.GetOr([]) + BatchLines(data, order, newID))
  {
  }

  /** A line that no later line shadows is what Load finds under its key. */
  lemma LoadFinds(ls: seq<Line>, n: nat)
    requires n < |ls|
    requires forall j :: n < j < |ls| ==> URLKey(ls[j]) != URLKey(ls[n])
    ensures URLKey(ls[n]) in Load(Some(ls)).value && Load(Some(ls)).value[URLKey(ls[n])] == AsURL(ls[n])
  {
  }

  /** Batch line i, placed after `prefix`, is not shadowed by any later line. */
  lemma BatchLineLast(prefix: seq<Line>, data: StorageURL, order: seq<string>, newID: seq<string>, i: nat)
    requires IsEnumeration(order, data.Keys)
    requires |newID| == |order| && forall j :: 0 <= j < |newID| ==> newID[j] != ""
    requires i < |order|
    ensures var ls := prefix + BatchLines(data, order, newID);
            && |prefix| + i < |ls| && ls[|prefix| + i] == BatchLines(data, order, newID)[i]
            && forall j :: |prefix| + i < j < |ls| ==> URLKey(ls[j]) != URLKey(ls[|prefix| + i])
  {
    var added := BatchLines(data, order, newID);
    var ls := prefix + added;
    var n := |prefix| + i;
    forall j | n < j < |ls| ensures URLKey(ls[j]) != URLKey(ls[n]) {
      assert ls[j] == added[j - |prefix|] && ls[n] == added[i];
      BatchLineKey(data, order, newID, j - |prefix|);
      BatchLineKey(data, order, newID, i);
    }
  }

  /** Line i of a batch is keyed by the i-th key visited, and no other line of the batch is. */
  lemma BatchLineKey(data: StorageURL, order: seq<string>, newID: seq<string>, i: nat)
    requires IsEnumeration(order, data.Keys)
    requires |newID| == |order| && forall j :: 0 <= j < |newID| ==> newID[j] != ""
    requires i < |order|
    ensures URLKey(BatchLines(data, order, newID)[i]) == order[i]
    ensures forall j :: 0 <= j < |order| && j != i ==> order[j] != order[i]
  {
    BatchLineAt(data, order, newID, i);
  }

  /** UpdateBatch: tombstones live only in memory for this keeper; it always succeeds. */
  function UpdateBatch(reqs: seq<DeleteURL>): (e: Option<Error>)
    ensures e == None
  {
    None
  }

  /** Ping: the file keeper always reports itself live. */
  function Ping(kp: FileKeeper): (up: bool)
    ensures up
  {
    true
  }

  /** Close: nothing to release; always true. */
  function Close(kp: FileKeeper): (ok: bool)
    ensures ok
  {
    true
  }
}

=== FILE: keeper.dfy ===
/**
 The earlier key/value keeper (internal/keeper/keeper.go): an in-memory map
 from short key to original URL, persisted by rewriting a JSON file with one
 numbered record per entry. The file is the sequence of its records, `None`
 when it does not exist.
 */
module LegacyKeeper {
  import opened Wrappers
  import opened Models
  import opened Collections

  /** keeper.DataURL: the record written per entry, numbered from 1. */
  datatype Record = Record(uuid: int, shortURL: string, originalURL: string)

  type File = Option<seq<Record>>

  datatype Keeper = Keeper(data: map<string, string>, path: string)

  /** NewKeeper: an empty map over the given path. */
  function NewKeeper(path: string): (kp: Keeper)
    ensures kp.data == map[] && kp.path == path
  {
    Keeper(map[], path)
  }

  function RecordKey(r: Record): string { r.shortURL }
  function RecordValue(r: Record): string { r.originalURL }

  /**
   Load: a missing file is not an error and changes nothing; a file that
   exists but cannot be opened reports `openErr` and changes nothing;
   otherwise every record maps its short URL to its original URL on top of
   the current map, a later record overwriting an earlier one.
   */
  function Load(kp: Keeper, file: File, openErr: Option<Error>): (r: (Keeper, Option<Error>))
    ensures file.None? ==> r == (kp, None)
    ensures file.Some? && openErr.Some? ==> r == (kp, openErr)
    ensures file.Some? && openErr.None? ==> r.1 == None && r.0.path == kp.path
    ensures file.Some? && openErr.None? ==>
              r.0.data.Keys == kp.data.Keys + set i | 0 <= i < |file.value| :: file.value[i].shortURL
    ensures file.Some? && openErr.None? ==>
              forall k :: k in kp.data && (forall i :: 0 <= i < |file.value| ==> file.value[i].shortURL != k)
                ==> r.0.data[k] == kp.data[k]
  {
    if file.None? then (kp, None)
    else if openErr.Some? then (kp, openErr)
    else
      var rs := file.value;
      IndexKeys(kp.data, rs, RecordKey, RecordValue);
      assert (set i | 0 <= i < |rs| :: RecordKey(rs[i])) == set i | 0 <= i < |rs| :: rs[i].shortURL;
      forall k | k in kp.data && (forall i :: 0 <= i < |rs| ==> rs[i].shortURL != k)
        ensures Index(kp.data, rs, RecordKey, RecordValue)[k] == kp.data[k]
      {
        IndexUntouched(kp.data, rs, RecordKey, RecordValue, k);
      }
      (kp.(data := Index(kp.data, rs, RecordKey, RecordValue)), None)
  }

  /** A record that no later record shadows decides its key after Load. */
  lemma LoadLastWins(kp: Keeper, rs: seq<Record>, i: nat)
    requires i < |rs|
    requires forall j :: i < j < |rs| ==> rs[j].shortURL != rs[i].shortURL
    ensures rs[i].shortURL in Load(kp, Some(rs), None).0.data
    ensures Load(kp, Some(rs), None).0.data[rs[i].shortURL] == rs[i].originalURL
  {
    IndexLastWins(kp.data, rs, RecordKey, RecordValue, i);
  }

  /** The records Save writes for the entries visited in `order`, numbered from `first`. */
  function Records(data: map<string, string>, order: seq<string>, first: int): (rs: seq<Record>)
    requires forall i :: 0 <= i < |order| ==> order[i] in data
    ensures |rs| == |order|
  {
    if |order| == 0 then []
    else [Record(first, order[0], data[order[0]])] + Records(data, order[1..], first + 1)
  }

  /** Record i carries id `first + i` and the i-th entry visited. */
  lemma {:induction false} RecordsAt(data: map<string, string>, order: seq<string>, first: int, i: nat)
    requires forall j :: 0 <= j < |order| ==> order[j] in data
    requires i < |order|
    ensures Records(data, order, first)[i] == Record(first + i, order[i], data[order[i]])
    decreases |order|
  {
    if i > 0 {
      RecordsAt(data, order[1..], first + 1, i - 1);
    }
  }

  lemma RecordsFields(data: map<string, string>, order: seq<string>, first: int)
    requires forall j :: 0 <= j < |order| ==> order[j] in data
    ensures forall i :: 0 <= i < |order| ==> Records(data, order, first)[i] == Record(first + i, order[i], data[order[i]])
  {
    forall i | 0 <= i < |order| ensures Records(data, order, first)[i] == Record(first + i, order[i], data[order[i]]) {
      RecordsAt(data, order, first, i);
    }
  }

  /**
   Save: the old file is removed and a new one created, so the result never
   depends on what the file held. One record per entry, in iteration order,
   with ids 1..n. A failure to create the file is returned, and since the old
   file was already removed, no file is left.
   */
  function Save(kp: Keeper, file: File, data: map<string, string>, order: seq<string>, createErr: Option<Error>)
    : (r: (File, Option<Error>))
    requires IsEnumeration(order, data.Keys)
    ensures r.1 == createErr
    ensures createErr.Some? ==> r.0 == None
    ensures createErr.None? ==> r.0.Some? && |r.0.value| == |data| == |order|
    ensures createErr.None? ==> forall i :: 0 <= i < |r.0.value| ==>
              r.0.value[i] == Record(i + 1, order[i], data[order[i]])
    ensures createErr.None? ==> forall k :: k in data <==> exists i :: 0 <= i < |r.0.value| && r.0.value[i].shortURL == k
  {
    if createErr.Some? then (None, createErr)
    else
      EnumerationSize(order, data.Keys);
      RecordsFields(data, order, 1);
      (Some(Records(data, order, 1)), None)
  }

  /** Save replaces the file: two different prior files give the same result. */
  lemma SaveReplacesFile(kp: Keeper, f1: File, f2: File, data: map<string, string>, order: seq<string>)
    requires IsEnumeration(order, data.Keys)
    ensures Save(kp, f1, data, order, None) == Save(kp, f2, data, order, None)
  {
  }

  /** Round trip: loading the file Save wrote into a fresh keeper gives back the saved map. */
  lemma SaveThenLoad(path: string, data: map<string, string>, order: seq<string>)
    requires IsEnumeration(order, data.Keys)
    ensures Load(NewKeeper(path), Save(NewKeeper(path), None, data, order, None).0, None).0.data == data
  {
    var rs := Records(data, order, 1);
    assert Save(NewKeeper(path), None, data, order, None).0 == Some(rs);
    IndexRecords(data, order);
  }

  lemma IndexRecords(data: map<string, string>, order: seq<string>)
    requires IsEnumeration(order, data.Keys)
    ensures Index(map[], Records(data, order, 1), RecordKey, RecordValue) == data
  {
    var rs := Records(data, order, 1);
    var m := Index(map[], rs, RecordKey, RecordValue);
    IndexRecordsKeys(data, order);
    forall k | k in data ensures m[k] == data[k] {
      var i := KeyRecord(data, order, k);
      IndexRecordAt(data, order, i);
    }
  }

  lemma IndexRecordAt(data: map<string, string>, order: seq<string>, i: nat)
    requires IsEnumeration(order, data.Keys)
    requires i < |order|
    ensures order[i] in Index(map[], Records(data, order, 1), RecordKey, RecordValue)
    ensures Index(map[], Records(data, order, 1), RecordKey, RecordValue)[order[i]] == data[order[i]]
  {
    var rs := Records(data, order, 1);
    RecordsAt(data, order, 1, i);
    forall j | i < j < |rs| ensures RecordKey(rs[j]) != RecordKey(rs[i]) {
      RecordsAt(data, order, 1, j);
    }
    IndexLastWins(map[], rs, RecordKey, RecordValue, i);
  }

  lemma IndexRecordsKeys(data: map<string, string>, order: seq<string>)
    requires IsEnumeration(order, data.Keys)
    ensures Index(map[], Records(data, order, 1), RecordKey, RecordValue).Keys == data.Keys
  {
    var rs := Records(data, order, 1);
    var empty: map<string, string> := map[];
    var m := Index(empty, rs, RecordKey, RecordValue);
    forall k | k in data ensures k in m {
      var i := KeyRecord(data, order, k);
      IndexRecordAt(data, order, i);
    }
    forall k | k in m ensures k in data {
      if k !in data {
        forall i | 0 <= i < |rs| ensures RecordKey(rs[i]) != k {
          RecordsAt(data, order, 1, i);
        }
        IndexUntouched(empty, rs, RecordKey, RecordValue, k);
      }
    }
  }

  /** Where a key of the map is written. */
  lemma KeyRecord(data: map<string, string>, order: seq<string>, k: string) returns (i: nat)
    requires IsEnumeration(order, data.Keys) && k in data
    ensures i < |order| && order[i] == k
  {
    assert k in order;
    i :| 0 <= i < |order| && order[i] == k;
  }
}

=== FILE: models.dfy ===
/**
 The records every component exchanges (internal/models/models.go) and the
 Go `(value, error)` pair that the storage engine and its keepers return.
 */
module Models {
  import opened Wrappers

  type Byte = b: int | 0 <= b < 256

  /** One shortened link: `models.DataURL`. */
  datatype DataURL = DataURL(uuid: string, shortURL: string, originalURL: string, userID: string, deletedFlag: bool)

  /** The zero value `models.DataURL{}`, which a Go map read yields for an absent key. */
  const ZeroURL: DataURL := DataURL("", "", "", "", false)

  /** One user: `models.DataUser`. A `None` hash is Go's nil byte slice. */
  datatype DataUser = DataUser(uuid: string, name: string, email: string, hash: Option<seq<Byte>>)

  /** The zero value `models.DataUser{}`. */
  const ZeroUser: DataUser := DataUser("", "", "", None)

  /** The short form of a link handed back to a user: `models.DataURLite`. */
  datatype DataURLite = DataURLite(uuid: string, shortURL: string, originalURL: string)

  /** A request to tombstone some of one user's links: `models.DeleteURL`. */
  datatype DeleteURL = DeleteURL(userID: string, shortURLs: seq<string>)

  /**
   The error values the core distinguishes: `storage.ErrConflict`, the
   "value with such key doesn't exist" lookup failure, and any other error
   passed through unchanged (I/O, database, decoding).
   */
  datatype Error = Conflict | NotFound | Failure(reason: string)

  /** A Go result pair `(value, error)`; the value is meaningful even when the error is set. */
  datatype Answer<T> = Answer(value: T, err: Option<Error>)

  /** storage.StorageURL and storage.StorageUser. */
  type StorageURL = map<string, DataURL>
  type StorageUser = map<string, DataUser>

  /**
   The UUID defaulting shared by the keepers: the caller's UUID when it has
   one, otherwise `newID`, the string form of a freshly generated `uuid.New()`.
   */
  function DefaultUUID(given: string, newID: string): (id: string)
    requires newID != ""
    ensures id != ""
    ensures given != "" ==> id == given
    ensures given == "" ==> id == newID
  {
    if given == "" then newID else given
  }
}

=== FILE: shorturl.dfy ===
/**
 Short-key derivation (internal/services/shorturl/shorturl.go). A URL's key
 is the base-62 spelling of a 64-bit hash of the trimmed URL, least
 significant digit first; the short URL is the trimmed base address, a "/"
 unless it already ends in one, and the key. The MD5-based `strToUint64` is
 the parameter `hash`.
 */
module ShortURL {
  import opened Strings

  /** The range of Go's uint64. */
  type Uint64 = n: int | 0 <= n < 0x1_0000_0000_0000_0000

  /**
   The 62 key characters: lower-case letters, upper-case letters, decimal
   digits, in that order. The pieces spell the one string of the source; they
   are split only so that the verifier can index into them.
   */
  const Alphabet: string := "abcdefghijklm" + "nopqrstuvwxyz" + "ABCDEFGHIJKLM" + "NOPQRSTUVWXYZ" + "0123456789"

  /** The character of digit value `d`, by character code. */
  function Digit(d: nat): char
    requires d < 62
  {
    if d < 26 then ('a' as int + d) as char
    else if d < 52 then ('A' as int + (d - 26)) as char
    else ('0' as int + (d - 52)) as char
  }

  /** The characters of the alphabet: ASCII letters and decimal digits. */
  predicate KeyChar(c: char) {
    ('a' <= c <= 'z') || ('A' <= c <= 'Z') || ('0' <= c <= '9')
  }

  lemma AlphabetDigit(d: nat)
    requires d < 62
    ensures |Alphabet| == 62
    ensures Alphabet[d] == Digit(d) && KeyChar(Digit(d))
  {
    var c0, c1, c2, c3, c4 := "abcdefghijklm", "nopqrstuvwxyz", "ABCDEFGHIJKLM", "NOPQRSTUVWXYZ", "0123456789";
    if d < 13 { assert Alphabet[d] == c0[d]; }
    else if d < 26 { assert Alphabet[d] == c1[d - 13]; }
    else if d < 39 { assert Alphabet[d] == c2[d - 26]; }
    else if d < 52 { assert Alphabet[d] == c3[d - 39]; }
    else { assert Alphabet[d] == c4[d - 52]; }
  }

  /** The digit value of a key character: its position in the alphabet. */
  function Value(c: char): nat {
    if 'a' <= c <= 'z' then c as int - 'a' as int
    else if 'A' <= c <= 'Z' then 26 + (c as int - 'A' as int)
    else if '0' <= c <= '9' then 52 + (c as int - '0' as int)
    else 0
  }

  /** Value and the alphabet are inverse to each other. */
  lemma ValueOfDigit(d: nat)
    requires d < 62
    ensures Value(Alphabet[d]) == d
  {
    AlphabetDigit(d);
  }

  lemma DigitOfValue(c: char)
    requires KeyChar(c)
    ensures Value(c) < 62 && Alphabet[Value(c)] == c
  {
    AlphabetDigit(Value(c));
  }

  /** KeyChar names exactly the characters of the alphabet. */
  lemma KeyCharIffInAlphabet(c: char)
    ensures KeyChar(c) <==> c in Alphabet
  {
    AlphabetDigit(0);
    if KeyChar(c) {
      DigitOfValue(c);
    }
    if c in Alphabet {
      var d :| 0 <= d < |Alphabet| && Alphabet[d] == c;
      AlphabetDigit(d);
    }
  }

  /** strHash: the base-62 digits of `n`, least significant first, as alphabet characters. */
  function StrHash(n: nat): (s: string)
    ensures forall i :: 0 <= i < |s| ==> KeyChar(s[i])
    ensures s == "" <==> n == 0
    decreases n
  {
    AlphabetDigit(n % 62);
    if n == 0 then "" else [Alphabet[n % 62]] + StrHash(n / 62)
  }

  /** Little-endian base-62 decoding: the value of the first character plus 62 times the value of the rest. */
  function Decode(s: string): nat {
    if |s| == 0 then 0 else Value(s[0]) + 62 * Decode(s[1..])
  }

  /** Round trip: decoding a key gives back the number it was made from. */
  lemma {:induction false} DecodeStrHash(n: nat)
    ensures Decode(StrHash(n)) == n
    decreases n
  {
    if n > 0 {
      AlphabetDigit(0);
      var s := StrHash(n);
      assert s[1..] == StrHash(n / 62);
      DecodeStrHash(n / 62);
      ValueOfDigit(n % 62);
    }
  }

  /** A key as strHash spells it: alphabet characters only, and no most significant zero digit ('a') at the end. */
  predicate Canonical(s: string) {
    (forall i :: 0 <= i < |s| ==> KeyChar(s[i])) && (|s| == 0 || s[|s| - 1] != 'a')
  }

  lemma {:induction false} StrHashCanonical(n: nat)
    ensures Canonical(StrHash(n))
    decreases n
  {
    AlphabetDigit(0);
    if n > 0 {
      StrHashCanonical(n / 62);
      if n / 62 == 0 {
        ValueOfDigit(n % 62);
        ValueOfDigit(0);
      } else {
        assert StrHash(n)[|StrHash(n)| - 1] == StrHash(n / 62)[|StrHash(n / 62)| - 1];
      }
    }
  }

  /** The other direction: every canonical key is strHash of its decoding, so distinct numbers get distinct keys and vice versa. */
  lemma {:induction false} StrHashDecode(s: string)
    requires Canonical(s)
    ensures StrHash(Decode(s)) == s
    decreases |s|
  {
    if |s| > 0 {
      var rest := s[1..];
      CanonicalTail(s);
      StrHashDecode(rest);
      DecodeStep(s);
      var n := Decode(s);
      assert n != 0 by {
        if |rest| == 0 {
          AlphabetDigit(0);
          assert s[0] == s[|s| - 1];
        } else {
          assert StrHash(Decode(rest)) != "";
        }
      }
      StrHashStep(n);
      assert StrHash(n) == [s[0]] + rest;
      assert s == [s[0]] + rest;
    }
  }

  lemma CanonicalTail(s: string)
    requires Canonical(s) && |s| > 0
    ensures Canonical(s[1..]) && KeyChar(s[0])
  {
    var rest := s[1..];
    forall i | 0 <= i < |rest| ensures KeyChar(rest[i]) {
      assert rest[i] == s[i + 1];
    }
    if |rest| > 0 {
      assert rest[|rest| - 1] == s[|s| - 1];
    }
  }

  /** One step of decoding: the first character is the remainder mod 62, the rest the quotient. */
  lemma DecodeStep(s: string)
    requires |s| > 0 && KeyChar(s[0])
    ensures Alphabet[Value(s[0])] == s[0]
    ensures Decode(s) % 62 == Value(s[0]) && Decode(s) / 62 == Decode(s[1..])
    ensures Decode(s) == 0 <==> Value(s[0]) == 0 && Decode(s[1..]) == 0
  {
    DigitOfValue(s[0]);
    DivMod62(Decode(s), Value(s[0]), Decode(s[1..]));
  }

  lemma StrHashStep(n: nat)
    requires n > 0
    ensures StrHash(n) == [Alphabet[n % 62]] + StrHash(n / 62)
  {
  }

  lemma DivMod62(n: nat, d: nat, q: nat)
    requires d < 62 && n == d + 62 * q
    ensures n % 62 == d && n / 62 == q
  {
  }

  /** The number of base-62 digits of `n` (none for zero). */
  function DigitCount(n: nat): nat
    decreases n
  {
    if n == 0 then 0 else 1 + DigitCount(n / 62)
  }

  function Pow62(k: nat): nat {
    if k == 0 then 1 else 62 * Pow62(k - 1)
  }

  /** The key has one character per base-62 digit, and that count is the least k with n < 62^k. */
  lemma {:induction false} StrHashLength(n: nat)
    ensures |StrHash(n)| == DigitCount(n)
    ensures n < Pow62(DigitCount(n))
    ensures n > 0 ==> Pow62(DigitCount(n) - 1) <= n
    decreases n
  {
    if n > 0 {
      StrHashLength(n / 62);
    }
  }

  lemma {:induction false} DigitCountBound(n: nat, k: nat)
    requires n < Pow62(k)
    ensures DigitCount(n) <= k
    decreases k
  {
    if n > 0 {
      DigitCountBound(n / 62, k - 1);
    }
  }

  /** A key derived from a 64-bit hash has at most 11 characters. */
  lemma StrHashAtMost11(n: Uint64)
    ensures |StrHash(n)| <= 11
  {
    assert Pow62(2) == 3844;
    assert Pow62(4) == 14776336 by { assert Pow62(3) == 238328; }
    assert Pow62(6) == 56800235584 by { assert Pow62(5) == 916132832; }
    assert Pow62(8) == 218340105584896 by { assert Pow62(7) == 3521614606208; }
    assert Pow62(10) == 839299365868340224 by { assert Pow62(9) == 13537086546263552; }
    assert Pow62(11) == 52036560683837093888;
    DigitCountBound(n, 11);
    StrHashLength(n);
  }

  /** The base address with "/" appended unless it already ends in one. */
  function WithSlash(base: string): (r: string)
    ensures EndsWith(r, '/')
    ensures EndsWith(base, '/') ==> r == base
    ensures !EndsWith(base, '/') ==> r == base + "/"
  {
    if |base| > 0 && base[|base| - 1] == '/' then base else base + "/"
  }

  /**
   Shorten: the key and the short URL. The base address must not be blank:
   the code reads its last character and fails on an empty one.
   */
  function Shorten(url: string, base: string, hash: string -> Uint64): (r: (string, string))
    requires TrimSpace(base) != ""
    ensures Decode(r.0) == hash(TrimSpace(url)) && Canonical(r.0)
    ensures r.1 == WithSlash(TrimSpace(base)) + r.0
  {
    var key := StrHash(hash(TrimSpace(url)));
    DecodeStrHash(hash(TrimSpace(url)));
    StrHashCanonical(hash(TrimSpace(url)));
    (key, WithSlash(TrimSpace(base)) + key)
  }

  /** The key depends only on the trimmed URL: surrounding white space changes nothing. */
  lemma ShortenIgnoresSurroundingSpace(pre: string, url: string, post: string, base: string, hash: string -> Uint64)
    requires AllSpace(pre) && AllSpace(post)
    requires TrimSpace(base) != ""
    ensures Shorten(pre + url + post, base, hash) == Shorten(url, base, hash)
  {
    TrimSpaceIgnoresSurroundingSpace(pre, url, post);
  }

  /** A trimmed base address with or without its trailing "/" gives the same short URL. */
  lemma ShortenTrailingSlashIrrelevant(url: string, base: string, hash: string -> Uint64)
    requires TrimSpace(base) == base && base != "" && !EndsWith(base, '/')
    ensures TrimSpace(base + "/") == base + "/"
    ensures Shorten(url, base + "/", hash) == Shorten(url, base, hash)
  {
    var b := base + "/";
    assert !IsSpace(base[0]) by {
      assert TrimSpace(base)[0] == base[0];
    }
    assert !IsSpace(b[0]) && !IsSpace(b[|b| - 1]) by {
      assert b[0] == base[0] && b[|b| - 1] == '/';
    }
    TrimSpaceOfTrimmed(b);
    assert WithSlash(TrimSpace(b)) == b == WithSlash(TrimSpace(base));
  }

  /** The short URL ends with "/" followed by the key. */
  lemma ShortenEndsWithKey(url: string, base: string, hash: string -> Uint64)
    requires TrimSpace(base) != ""
    ensures var r := Shorten(url, base, hash);
            |r.0| < |r.1| && r.1[|r.1| - |r.0|..] == r.0 && r.1[|r.1| - |r.0| - 1] == '/'
  {
    var r := Shorten(url, base, hash);
    SlashThenKey(WithSlash(TrimSpace(base)), r.0, r.1);
  }

  lemma SlashThenKey(b: string, key: string, short: string)
    requires EndsWith(b, '/') && short == b + key
    ensures |key| < |short| && short[|short| - |key|..] == key && short[|short| - |key| - 1] == '/'
  {
    assert short[|short| - |key| - 1] == b[|b| - 1];
  }
}

=== FILE: storage.dfy ===
/**
 The storage engine `MemoryStorage` (internal/storage/storage.go): two maps,
 URL records keyed by short key and user records keyed by e-mail, in front of
 an optional persistence adapter, the keeper.

 The engine never looks inside its keeper, so the model is generic in the
 keeper type `K`. Each call the engine makes to the keeper becomes an input to
 the transition that makes it: `saved` is what `keeper.Save` answered,
 `updated` what `keeper.UpdateBatch` answered, and so on. Those inputs are
 consulted only when a keeper is attached, exactly as the Go code only calls
 the keeper when it is not nil.
 */
module Storage {
  import opened Wrappers
  import opened Models
  import opened Strings
  import opened Collections

  datatype MemoryStorage<K> = MemoryStorage(data: StorageURL, users: StorageUser, keeper: Option<K>)

  /** The state after an operation together with what the operation returned. */
  datatype Transition<K, T> = Transition(next: MemoryStorage<K>, result: T)

  /**
   NewMemoryStorage: with no keeper both maps start empty; with a keeper they
   are whatever `Load` and `LoadUsers` returned, errors being only logged.
   */
  function NewMemoryStorage<K>(keeper: Option<K>, loaded: Answer<StorageURL>, loadedUsers: Answer<StorageUser>)
    : (s: MemoryStorage<K>)
    ensures s.keeper == keeper
    ensures keeper.None? ==> s.data == map[] && s.users == map[]
    ensures keeper.Some? ==> s.data == loaded.value && s.users == loadedUsers.value
  {
    if keeper.None? then MemoryStorage(map[], map[], keeper)
    else MemoryStorage(loaded.value, loadedUsers.value, keeper)
  }

  /** A failed load does not stop the engine: the errors have no influence on the state built. */
  lemma NewMemoryStorageIgnoresLoadErrors<K>(keeper: Option<K>, d: StorageURL, u: StorageUser,
                                             e1: Option<Error>, e2: Option<Error>, f1: Option<Error>, f2: Option<Error>)
    ensures NewMemoryStorage(keeper, Answer(d, e1), Answer(u, f1)) == NewMemoryStorage(keeper, Answer(d, e2), Answer(u, f2))
  {
  }

  // ---------------------------------------------------------------------------
  // Delegation to the keeper

  /** SaveURL: the caller's record, unchanged and without error, when no keeper is attached; else the keeper's answer. */
  function SaveURL<K>(s: MemoryStorage<K>, k: string, v: DataURL, saved: Answer<DataURL>): (a: Answer<DataURL>)
    ensures s.keeper.None? ==> a == Answer(v, None)
    ensures s.keeper.Some? ==> a == saved
  {
    if s.keeper.None? then Answer(v, None) else saved
  }

  /** SaveUser: as SaveURL, for user records. */
  function SaveUser<K>(s: MemoryStorage<K>, k: string, v: DataUser, saved: Answer<DataUser>): (a: Answer<DataUser>)
    ensures s.keeper.None? ==> a == Answer(v, None)
    ensures s.keeper.Some? ==> a == saved
  {
    if s.keeper.None? then Answer(v, None) else saved
  }

  /** SaveBatch: no error without a keeper, else the keeper's answer. */
  function SaveBatch<K>(s: MemoryStorage<K>, stg: StorageURL, saved: Option<Error>): (e: Option<Error>)
    ensures s.keeper.None? ==> e == None
    ensures s.keeper.Some? ==> e == saved
  {
    if s.keeper.None? then None else saved
  }

  // ---------------------------------------------------------------------------
  // Writes

  /**
   InsertURL persists first. Any error from the keeper, `Conflict` included,
   is returned with the keeper's record and leaves the state untouched; on
   success the key maps to the record the keeper returned, not to the
   caller's input, and nothing else changes.
   */
  function InsertURL<K>(s: MemoryStorage<K>, k: string, v: DataURL, saved: Answer<DataURL>)
    : (t: Transition<K, Answer<DataURL>>)
    ensures t.result == SaveURL(s, k, v, saved)
    ensures t.result.err.Some? ==> t.next == s
    ensures t.result.err.None? ==>
              && k in t.next.data && t.next.data[k] == t.result.value
              && t.next.users == s.users && t.next.keeper == s.keeper
              && (forall k' :: k' != k ==> (k' in t.next.data <==> k' in s.data))
              && (forall k' :: k' != k && k' in s.data ==> t.next.data[k'] == s.data[k'])
  {
    var nv := SaveURL(s, k, v, saved);
    if nv.err.Some? then Transition(s, nv)
    else Transition(s.(data := s.data[k := nv.value]), Answer(nv.value, None))
  }

  /** InsertUser: InsertURL's contract on the user map. */
  function InsertUser<K>(s: MemoryStorage<K>, k: string, v: DataUser, saved: Answer<DataUser>)
    : (t: Transition<K, Answer<DataUser>>)
    ensures t.result == SaveUser(s, k, v, saved)
    ensures t.result.err.Some? ==> t.next == s
    ensures t.result.err.None? ==>
              && k in t.next.users && t.next.users[k] == t.result.value
              && t.next.data == s.data && t.next.keeper == s.keeper
              && (forall k' :: k' != k ==> (k' in t.next.users <==> k' in s.users))
              && (forall k' :: k' != k && k' in s.users ==> t.next.users[k'] == s.users[k'])
  {
    var nv := SaveUser(s, k, v, saved);
    if nv.err.Some? then Transition(s, nv)
    else Transition(s.(users := s.users[k := nv.value]), Answer(nv.value, None))
  }

  /**
   InsertBatch writes every entry into the URL map before persisting, and
   reports a persistence error without rolling the map back.
   */
  function InsertBatch<K>(s: MemoryStorage<K>, stg: StorageURL, saved: Option<Error>)
    : (t: Transition<K, Option<Error>>)
    ensures t.result == SaveBatch(s, stg, saved)
    ensures t.next.users == s.users && t.next.keeper == s.keeper
    ensures t.next.data.Keys == s.data.Keys + stg.Keys
    ensures forall k :: k in stg ==> t.next.data[k] == stg[k]
    ensures forall k :: k in s.data && k !in stg ==> t.next.data[k] == s.data[k]
  {
    Transition(s.(data := s.data + stg), SaveBatch(s, stg, saved))
  }

  // ---------------------------------------------------------------------------
  // Reads

  /** GetURL: the stored record when the key is present, else the zero record and `NotFound`. */
  function GetURL<K>(s: MemoryStorage<K>, k: string): (a: Answer<DataURL>)
    ensures a.err.None? <==> k in s.data
    ensures k in s.data ==> a.value == s.data[k]
    ensures k !in s.data ==> a == Answer(ZeroURL, Some(NotFound))
  {
    if k in s.data then Answer(s.data[k], None) else Answer(ZeroURL, Some(NotFound))
  }

  /** GetUser: the stored user when the key is present, else the zero user and `NotFound`. */
  function GetUser<K>(s: MemoryStorage<K>, k: string): (a: Answer<DataUser>)
    ensures a.err.None? <==> k in s.users
    ensures k in s.users ==> a.value == s.users[k]
    ensures k !in s.users ==> a == Answer(ZeroUser, Some(NotFound))
  {
    if k in s.users then Answer(s.users[k], None) else Answer(ZeroUser, Some(NotFound))
  }

  /** After a successful InsertURL, GetURL of that key answers the keeper's record; other keys read as before. */
  lemma InsertURLThenGetURL<K>(s: MemoryStorage<K>, k: string, v: DataURL, saved: Answer<DataURL>, other: string)
    requires InsertURL(s, k, v, saved).result.err.None?
    requires other != k
    ensures GetURL(InsertURL(s, k, v, saved).next, k) == Answer(SaveURL(s, k, v, saved).value, None)
    ensures GetURL(InsertURL(s, k, v, saved).next, other) == GetURL(s, other)
  {
  }

  /** A failed InsertURL, a conflict included, is invisible to every later read. */
  lemma FailedInsertURLInvisible<K>(s: MemoryStorage<K>, k: string, v: DataURL, saved: Answer<DataURL>, q: string)
    requires InsertURL(s, k, v, saved).result.err.Some?
    ensures GetURL(InsertURL(s, k, v, saved).next, q) == GetURL(s, q)
  {
  }

  /** The projection GetUserURLs hands back for one record: original and short URL only. */
  function Lite(d: DataURL): DataURLite {
    DataURLite("", d.shortURL, d.originalURL)
  }

  /** The keys whose record belongs to `userID`. */
  ghost function OwnedKeys(data: StorageURL, userID: string): set<string> {
    set k | k in data && data[k].userID == userID
  }

  /** The Go loop of GetUserURLs, visiting the keys in the order `order`. */
  function CollectOwned(data: StorageURL, userID: string, order: seq<string>): seq<DataURLite>
    requires forall i :: 0 <= i < |order| ==> order[i] in data
  {
    if |order| == 0 then []
    else
      var rest := CollectOwned(data, userID, order[1..]);
      if data[order[0]].userID == userID then [Lite(data[order[0]])] + rest else rest
  }

  lemma {:induction false} CollectOwnedMembers(data: StorageURL, userID: string, order: seq<string>, x: DataURLite)
    requires forall i :: 0 <= i < |order| ==> order[i] in data
    ensures x in CollectOwned(data, userID, order) <==>
              exists i :: 0 <= i < |order| && data[order[i]].userID == userID && x == Lite(data[order[i]])
    decreases |order|
  {
    if |order| > 0 {
      CollectOwnedMembers(data, userID, order[1..], x);
      if exists i :: 0 <= i < |order[1..]| && data[order[1..][i]].userID == userID && x == Lite(data[order[1..][i]]) {
        var i :| 0 <= i < |order[1..]| && data[order[1..][i]].userID == userID && x == Lite(data[order[1..][i]]);
        assert order[i + 1] == order[1..][i];
      }
      if exists i :: 0 <= i < |order| && data[order[i]].userID == userID && x == Lite(data[order[i]]) {
        var i :| 0 <= i < |order| && data[order[i]].userID == userID && x == Lite(data[order[i]]);
        if i > 0 {
          assert order[1..][i - 1] == order[i];
        }
      }
    }
  }

  /** The owner's keys among those visited, as a set. */
  ghost function OwnedIn(data: StorageURL, userID: string, order: seq<string>): set<string>
    requires forall i :: 0 <= i < |order| ==> order[i] in data
  {
    if |order| == 0 then {}
    else (if data[order[0]].userID == userID then {order[0]} else {}) + OwnedIn(data, userID, order[1..])
  }

  lemma {:induction false} OwnedInMembers(data: StorageURL, userID: string, order: seq<string>, k: string)
    requires forall i :: 0 <= i < |order| ==> order[i] in data
    ensures k in OwnedIn(data, userID, order) <==> k in order && data[k].userID == userID
    decreases |order|
  {
    if |order| > 0 {
      OwnedInMembers(data, userID, order[1..], k);
      assert order == [order[0]] + order[1..];
    }
  }

  /** Over distinct keys the loop appends one entry per owned key. */
  lemma {:induction false} CollectOwnedCount(data: StorageURL, userID: string, order: seq<string>)
    requires forall i :: 0 <= i < |order| ==> order[i] in data
    requires forall i, j :: 0 <= i < j < |order| ==> order[i] != order[j]
    ensures |CollectOwned(data, userID, order)| == |OwnedIn(data, userID, order)|
    decreases |order|
  {
    if |order| > 0 {
      var tail := order[1..];
      CollectOwnedCount(data, userID, tail);
      assert order[0] !in tail by {
        forall j | 0 <= j < |tail| ensures tail[j] != order[0] {
          assert tail[j] == order[j + 1];
        }
      }
      OwnedInMembers(data, userID, tail, order[0]);
      var rest := OwnedIn(data, userID, tail);
      if data[order[0]].userID == userID {
        assert {order[0]} * rest == {};
      } else {
        assert {} + rest == rest;
      }
    }
  }

  /** The owner's visited keys whose record projects to `x`. */
  ghost function OwnedWith(data: StorageURL, userID: string, order: seq<string>, x: DataURLite): set<string>
    requires forall i :: 0 <= i < |order| ==> order[i] in data
  {
    if |order| == 0 then {}
    else (if data[order[0]].userID == userID && Lite(data[order[0]]) == x then {order[0]} else {})
         + OwnedWith(data, userID, order[1..], x)
  }

  lemma {:induction false} OwnedWithMembers(data: StorageURL, userID: string, order: seq<string>, x: DataURLite, k: string)
    requires forall i :: 0 <= i < |order| ==> order[i] in data
    ensures k in OwnedWith(data, userID, order, x) <==> k in order && data[k].userID == userID && Lite(data[k]) == x
    decreases |order|
  {
    if |order| > 0 {
      OwnedWithMembers(data, userID, order[1..], x, k);
      assert order == [order[0]] + order[1..];
    }
  }

  /** Over distinct keys the loop emits `x` once per owned key whose record projects to `x`. */
  lemma {:induction false} CollectOwnedMultiplicity(data: StorageURL, userID: string, order: seq<string>, x: DataURLite)
    requires forall i :: 0 <= i < |order| ==> order[i] in data
    requires forall i, j :: 0 <= i < j < |order| ==> order[i] != order[j]
    ensures multiset(CollectOwned(data, userID, order))[x] == |OwnedWith(data, userID, order, x)|
    decreases |order|
  {
    if |order| > 0 {
      var tail := order[1..];
      CollectOwnedMultiplicity(data, userID, tail, x);
      assert order[0] !in tail by {
        forall j | 0 <= j < |tail| ensures tail[j] != order[0] {
          assert tail[j] == order[j + 1];
        }
      }
      OwnedWithMembers(data, userID, tail, x, order[0]);
      var rest := OwnedWith(data, userID, tail, x);
      var out := CollectOwned(data, userID, tail);
      if data[order[0]].userID == userID {
        assert CollectOwned(data, userID, order) == [Lite(data[order[0]])] + out;
        assert multiset([Lite(data[order[0]])] + out) == multiset{Lite(data[order[0]])} + multiset(out);
        if Lite(data[order[0]]) == x {
          assert {order[0]} * rest == {};
        } else {
          assert {} + rest == rest;
        }
      } else {
        assert {} + rest == rest;
      }
    }
  }

  /**
   GetUserURLs returns one entry per owned record: each projection occurs
   exactly as often as the owner has keys whose record projects to it.
   */
  lemma GetUserURLsMultiplicity<K>(s: MemoryStorage<K>, userID: string, order: seq<string>, x: DataURLite)
    requires IsEnumeration(order, s.data.Keys)
    ensures multiset(GetUserURLs(s, userID, order))[x] ==
            |set k | k in s.data && s.data[k].userID == userID && Lite(s.data[k]) == x|
  {
    CollectOwnedMultiplicity(s.data, userID, order, x);
    var w := OwnedWith(s.data, userID, order, x);
    forall k ensures k in w <==> k in s.data && s.data[k].userID == userID && Lite(s.data[k]) == x {
      OwnedWithMembers(s.data, userID, order, x, k);
    }
    assert w == set k | k in s.data && s.data[k].userID == userID && Lite(s.data[k]) == x;
  }

  /**
   GetUserURLs returns exactly the owner's records, projected to original and
   short URL, one entry per record: tombstoned records are included.
   */
  function GetUserURLs<K>(s: MemoryStorage<K>, userID: string, order: seq<string>): (r: seq<DataURLite>)
    requires IsEnumeration(order, s.data.Keys)
    ensures forall x :: x in r <==> exists k :: k in s.data && s.data[k].userID == userID && x == Lite(s.data[k])
    ensures |r| == |OwnedKeys(s.data, userID)|
  {
    var r := CollectOwned(s.data, userID, order);
    forall x ensures x in r <==> exists k :: k in s.data && s.data[k].userID == userID && x == Lite(s.data[k]) {
      CollectOwnedMembers(s.data, userID, order, x);
      if exists k :: k in s.data && s.data[k].userID == userID && x == Lite(s.data[k]) {
        var k :| k in s.data && s.data[k].userID == userID && x == Lite(s.data[k]);
        var i :| 0 <= i < |order| && order[i] == k;
      }
    }
    CollectOwnedCount(s.data, userID, order);
    forall k ensures k in OwnedIn(s.data, userID, order) <==> k in OwnedKeys(s.data, userID) {
      OwnedInMembers(s.data, userID, order, k);
    }
    assert OwnedIn(s.data, userID, order) == OwnedKeys(s.data, userID);
    r
  }

  // ---------------------------------------------------------------------------
  // Tombstoning

  /** The map read `s.data[k]`: the zero record for an absent key. */
  function Get(data: StorageURL, k: string): DataURL {
    if k in data then data[k] else ZeroURL
  }

  function Marked(d: DataURL): DataURL {
    d.(deletedFlag := true)
  }

  /** The guard of DeleteURLs: the stored record is `owner`'s and its short URL contains the key. */
  predicate Eligible(data: StorageURL, owner: string, k: string) {
    Get(data, k).userID == owner && Contains(Get(data, k).shortURL, k)
  }

  /** One iteration of the inner loop of DeleteURLs. */
  function Tombstone(data: StorageURL, owner: string, k: string): StorageURL {
    var cs := Get(data, k);
    if cs.userID == owner && Contains(cs.shortURL, k) then data[k := Marked(cs)] else data
  }

  /** The inner loop over one request's keys. */
  function TombstoneKeys(data: StorageURL, owner: string, keys: seq<string>): StorageURL
    decreases |keys|
  {
    if |keys| == 0 then data else TombstoneKeys(Tombstone(data, owner, keys[0]), owner, keys[1..])
  }

  /** The outer loop over the requests. */
  function TombstoneAll(data: StorageURL, reqs: seq<DeleteURL>): StorageURL
    decreases |reqs|
  {
    if |reqs| == 0 then data else TombstoneAll(TombstoneKeys(data, reqs[0].userID, reqs[0].shortURLs), reqs[1..])
  }

  /** Some request lists `k` and the stored record passes the guard for that request's owner. */
  ghost predicate Requested(data: StorageURL, reqs: seq<DeleteURL>, k: string) {
    exists i :: 0 <= i < |reqs| && k in reqs[i].shortURLs && Eligible(data, reqs[i].userID, k)
  }

  ghost function RequestedKeys(reqs: seq<DeleteURL>): set<string> {
    set i, k | 0 <= i < |reqs| && k in reqs[i].shortURLs :: k
  }

  /**
   Reference definition of the tombstoned map: every requested key whose
   record passes the guard reads as that record with the flag set, and every
   other key is untouched. A requested key that is absent reads as the zero
   record, so it is added only when both its key and the owner are empty.
   */
  ghost function Tombstoned(data: StorageURL, reqs: seq<DeleteURL>): StorageURL {
    map k | k in data.Keys + RequestedKeys(reqs) && (k in data || Requested(data, reqs, k)) ::
      if Requested(data, reqs, k) then Marked(Get(data, k)) else data[k]
  }

  lemma EligibleStable(data: StorageURL, owner: string, k: string, owner2: string, k2: string)
    ensures Eligible(Tombstone(data, owner, k), owner2, k2) <==> Eligible(data, owner2, k2)
  {
  }

  lemma {:induction false} TombstoneKeysSpec(data: StorageURL, owner: string, keys: seq<string>, k: string)
    ensures Eligible(TombstoneKeys(data, owner, keys), owner, k) <==> Eligible(data, owner, k)
    ensures forall o :: Eligible(TombstoneKeys(data, owner, keys), o, k) <==> Eligible(data, o, k)
    ensures k in TombstoneKeys(data, owner, keys) <==> k in data || (k in keys && Eligible(data, owner, k))
    ensures Get(TombstoneKeys(data, owner, keys), k)
            == if k in keys && Eligible(data, owner, k) then Marked(Get(data, k)) else Get(data, k)
    decreases |keys|
  {
    if |keys| > 0 {
      var d1 := Tombstone(data, owner, keys[0]);
      TombstoneKeysSpec(d1, owner, keys[1..], k);
      forall o ensures Eligible(d1, o, k) <==> Eligible(data, o, k) {
        EligibleStable(data, owner, keys[0], o, k);
      }
      assert k in keys <==> k == keys[0] || k in keys[1..];
    }
  }

  lemma {:induction false} TombstoneAllSpec(data: StorageURL, reqs: seq<DeleteURL>, k: string)
    ensures forall o :: Eligible(TombstoneAll(data, reqs), o, k) <==> Eligible(data, o, k)
    ensures k in TombstoneAll(data, reqs) <==> k in data || Requested(data, reqs, k)
    ensures Get(TombstoneAll(data, reqs), k)
            == if Requested(data, reqs, k) then Marked(Get(data, k)) else Get(data, k)
    decreases |reqs|
  {
    if |reqs| > 0 {
      var d1 := TombstoneKeys(data, reqs[0].userID, reqs[0].shortURLs);
      TombstoneKeysSpec(data, reqs[0].userID, reqs[0].shortURLs, k);
      TombstoneAllSpec(d1, reqs[1..], k);
      assert Requested(data, reqs, k) <==>
             (k in reqs[0].shortURLs && Eligible(data, reqs[0].userID, k)) || Requested(d1, reqs[1..], k) by {
        if Requested(d1, reqs[1..], k) {
          var i :| 0 <= i < |reqs[1..]| && k in reqs[1..][i].shortURLs && Eligible(d1, reqs[1..][i].userID, k);
          assert reqs[i + 1] == reqs[1..][i];
        }
        if Requested(data, reqs, k) {
          var i :| 0 <= i < |reqs| && k in reqs[i].shortURLs && Eligible(data, reqs[i].userID, k);
          if i > 0 {
            assert reqs[1..][i - 1] == reqs[i];
          }
        }
      }
    } else {
      assert !Requested(data, reqs, k);
    }
  }

  /** The loops of DeleteURLs compute the reference map. */
  lemma TombstoneAllIsTombstoned(data: StorageURL, reqs: seq<DeleteURL>)
    ensures TombstoneAll(data, reqs) == Tombstoned(data, reqs)
  {
    var a := TombstoneAll(data, reqs);
    var b := Tombstoned(data, reqs);
    forall k ensures k in a <==> k in b {
      TombstoneAllSpec(data, reqs, k);
      if Requested(data, reqs, k) {
        var i :| 0 <= i < |reqs| && k in reqs[i].shortURLs && Eligible(data, reqs[i].userID, k);
        assert k in RequestedKeys(reqs);
      }
    }
    forall k | k in a ensures a[k] == b[k] {
      TombstoneAllSpec(data, reqs, k);
    }
  }

  /**
   DeleteURLs: with no keeper, or when the keeper's `UpdateBatch` fails, the
   state is unchanged; otherwise the URL map becomes the reference map
   `Tombstoned`, and the error returned is the keeper's.
   */
  function DeleteURLs<K>(s: MemoryStorage<K>, reqs: seq<DeleteURL>, updated: Option<Error>)
    : (t: Transition<K, Option<Error>>)
    ensures s.keeper.None? ==> t == Transition(s, None)
    ensures s.keeper.Some? ==> t.result == updated
    ensures s.keeper.Some? && updated.Some? ==> t.next == s
    ensures s.keeper.Some? && updated.None? ==>
              t.next == s.(data := Tombstoned(s.data, reqs))
  {
    if s.keeper.None? then Transition(s, None)
    else if updated.Some? then Transition(s, updated)
    else
      TombstoneAllIsTombstoned(s.data, reqs);
      Transition(s.(data := TombstoneAll(s.data, reqs)), None)
  }

  /** Tombstoning changes at most the flag of a record, and only ever sets it. */
  lemma TombstonedOnlySetsFlag(data: StorageURL, reqs: seq<DeleteURL>, k: string)
    requires k in data
    ensures k in Tombstoned(data, reqs)
    ensures Tombstoned(data, reqs)[k] == data[k] || Tombstoned(data, reqs)[k] == data[k].(deletedFlag := true)
  {
  }

  /** Tombstone isolation: a key whose record belongs to none of the requesters of that key is untouched. */
  lemma TombstoneIsolation(data: StorageURL, reqs: seq<DeleteURL>, k: string)
    requires forall i :: 0 <= i < |reqs| && k in reqs[i].shortURLs ==> Get(data, k).userID != reqs[i].userID
    ensures k in Tombstoned(data, reqs) <==> k in data
    ensures k in data ==> Tombstoned(data, reqs)[k] == data[k]
  {
  }

  /** A record whose owner asks for it, and whose short URL contains its key, ends up tombstoned. */
  lemma OwnerRequestTombstones(data: StorageURL, reqs: seq<DeleteURL>, i: nat, k: string)
    requires i < |reqs| && k in reqs[i].shortURLs
    requires k in data && data[k].userID == reqs[i].userID && Contains(data[k].shortURL, k)
    ensures k in Tombstoned(data, reqs) && Tombstoned(data, reqs)[k].deletedFlag
  {
  }

  /** The only key DeleteURLs can add is the empty key, requested by the empty owner. */
  lemma TombstoneAddsOnlyEmptyKey(data: StorageURL, reqs: seq<DeleteURL>, k: string)
    requires k !in data && k in Tombstoned(data, reqs)
    ensures k == ""
    ensures exists i :: 0 <= i < |reqs| && "" in reqs[i].shortURLs && reqs[i].userID == ""
    ensures Tombstoned(data, reqs)[k] == ZeroURL.(deletedFlag := true)
  {
    var i :| 0 <= i < |reqs| && k in reqs[i].shortURLs && Eligible(data, reqs[i].userID, k);
    ContainsBasics(k, k);
  }

  /** Tombstoning is idempotent: a second identical request changes nothing. */
  lemma TombstonedIdempotent(data: StorageURL, reqs: seq<DeleteURL>)
    ensures Tombstoned(Tombstoned(data, reqs), reqs) == Tombstoned(data, reqs)
  {
    var once := Tombstoned(data, reqs);
    TombstoneAllIsTombstoned(data, reqs);
    TombstoneAllIsTombstoned(once, reqs);
    forall k ensures k in Tombstoned(once, reqs) <==> k in once {
      TombstoneAllSpec(data, reqs, k);
      TombstoneAllSpec(once, reqs, k);
      if Requested(once, reqs, k) {
        var i :| 0 <= i < |reqs| && k in reqs[i].shortURLs && Eligible(once, reqs[i].userID, k);
        assert Eligible(data, reqs[i].userID, k);
      }
    }
    forall k | k in once ensures Tombstoned(once, reqs)[k] == once[k] {
      TombstoneAllSpec(data, reqs, k);
      TombstoneAllSpec(once, reqs, k);
      if Requested(once, reqs, k) {
        var i :| 0 <= i < |reqs| && k in reqs[i].shortURLs && Eligible(once, reqs[i].userID, k);
        assert Eligible(data, reqs[i].userID, k);
      }
    }
  }

  /** DeleteURLs applied twice with the same requests and replies leaves the same state as once. */
  lemma DeleteURLsIdempotent<K>(s: MemoryStorage<K>, reqs: seq<DeleteURL>, updated: Option<Error>)
    ensures DeleteURLs(DeleteURLs(s, reqs, updated).next, reqs, updated).next == DeleteURLs(s, reqs, updated).next
  {
    TombstonedIdempotent(s.data, reqs);
  }

  /** InsertBatch applied twice with the same batch yields the same maps as applying it once. */
  lemma InsertBatchIdempotent<K>(s: MemoryStorage<K>, stg: StorageURL, saved: Option<Error>)
    ensures InsertBatch(InsertBatch(s, stg, saved).next, stg, saved).next == InsertBatch(s, stg, saved).next
  {
  }

  // ---------------------------------------------------------------------------
  // Liveness

  /** GetBaseConnection: false with no keeper, else the keeper's `Ping`. */
  function GetBaseConnection<K>(s: MemoryStorage<K>, ping: bool): (up: bool)
    ensures up <==> s.keeper.Some? && ping
  {
    if s.keeper.None? then false else ping
  }
}

=== FILE: strings.dfy ===
/**
 The handful of Go `strings` functions the core relies on, over `seq<char>`:
 `strings.TrimSpace`, `strings.Contains`, `strings.Replace(s, old, "", -1)` for a
 one-character `old`, `strings.HasSuffix`, `strings.Join`, and the decimal
 rendering `fmt.Sprintf("%d", n)` of a natural number.
 */
module Strings {

  /** unicode.IsSpace: the ASCII spaces, U+0085, U+00A0 and the Unicode White_Space code points above Latin-1. */
  predicate IsSpace(c: char) {
    || c == '\t' || c == '\n' || c == '\U{000B}' || c == '\U{000C}' || c == '\r' || c == ' '
    || c == '\U{0085}' || c == '\U{00A0}' || c == '\U{1680}'
    || ('\U{2000}' <= c <= '\U{200A}')
    || c == '\U{2028}' || c == '\U{2029}' || c == '\U{202F}' || c == '\U{205F}' || c == '\U{3000}'
  }

  predicate AllSpace(s: string) {
    forall i :: 0 <= i < |s| ==> IsSpace(s[i])
  }

  /** The first index at or after `i` that does not hold white space (`|s|` if there is none). */
  function SpanStart(s: string, i: nat): (n: nat)
    requires i <= |s|
    ensures i <= n <= |s|
    ensures forall k :: i <= k < n ==> IsSpace(s[k])
    ensures n < |s| ==> !IsSpace(s[n])
    decreases |s| - i
  {
    if i < |s| && IsSpace(s[i]) then SpanStart(s, i + 1) else i
  }

  /** The least index `n` at or after `lo` such that `s[n..j]` is all white space. */
  function SpanStop(s: string, lo: nat, j: nat): (n: nat)
    requires lo <= j <= |s|
    ensures lo <= n <= j
    ensures forall k :: n <= k < j ==> IsSpace(s[k])
    ensures n > lo ==> !IsSpace(s[n - 1])
    decreases j
  {
    if j > lo && IsSpace(s[j - 1]) then SpanStop(s, lo, j - 1) else j
  }

  /** The number of white-space characters at the front of `s`. */
  function LeadingSpace(s: string): (n: nat)
    ensures n <= |s| && AllSpace(s[..n])
    ensures n < |s| ==> !IsSpace(s[n])
  {
    var n := SpanStart(s, 0);
    assert forall k :: 0 <= k < n ==> s[..n][k] == s[k];
    n
  }

  /**
   strings.TrimSpace: the start index skips the leading white space, then the
   stop index steps back over the trailing white space of what is left. The
   result is the infix of `s` between them; it neither starts nor ends with a
   space.
   */
  function TrimSpace(s: string): (r: string)
    ensures LeadingSpace(s) + |r| <= |s|
    ensures r == s[LeadingSpace(s)..LeadingSpace(s) + |r|]
    ensures AllSpace(s[LeadingSpace(s) + |r|..])
    ensures |r| > 0 ==> !IsSpace(r[0]) && !IsSpace(r[|r| - 1])
  {
    var a := SpanStart(s, 0);
    var b := SpanStop(s, a, |s|);
    assert forall k :: 0 <= k < |s| - b ==> s[b..][k] == s[b + k];
    s[a..b]
  }

  lemma {:induction false} SpanStartAt(s: string, i: nat, n: nat)
    requires i <= n <= |s|
    requires forall k :: i <= k < n ==> IsSpace(s[k])
    requires n < |s| ==> !IsSpace(s[n])
    ensures SpanStart(s, i) == n
    decreases n - i
  {
    if i < n {
      SpanStartAt(s, i + 1, n);
    }
  }

  lemma {:induction false} SpanStopAt(s: string, lo: nat, j: nat, n: nat)
    requires lo <= n <= j <= |s|
    requires forall k :: n <= k < j ==> IsSpace(s[k])
    requires n > lo ==> !IsSpace(s[n - 1])
    ensures SpanStop(s, lo, j) == n
    decreases j - n
  {
    if n < j {
      SpanStopAt(s, lo, j - 1, n);
    }
  }

  /**
   TrimSpace is determined by any split of `s` into white space, a part that
   neither starts nor ends with a space, and white space: it is that part.
   */
  lemma TrimSpaceOfSplit(pre: string, x: string, post: string)
    requires AllSpace(pre) && AllSpace(post)
    requires |x| > 0 ==> !IsSpace(x[0]) && !IsSpace(x[|x| - 1])
    ensures TrimSpace(pre + x + post) == x
  {
    var s := pre + x + post;
    var a := |pre|;
    var b := |pre| + |x|;
    if |x| > 0 {
      assert forall k :: 0 <= k < a ==> s[k] == pre[k];
      assert s[a] == x[0] && s[b - 1] == x[|x| - 1];
      SpanStartAt(s, 0, a);
      assert forall k :: b <= k < |s| ==> s[k] == post[k - b];
      SpanStopAt(s, a, |s|, b);
      assert s[a..b] == x;
    } else {
      assert forall k :: 0 <= k < |s| ==> s[k] == if k < a then pre[k] else post[k - a];
      SpanStartAt(s, 0, |s|);
      SpanStopAt(s, |s|, |s|, |s|);
    }
  }

  /** Surrounding white space does not reach the trimmed result. */
  lemma TrimSpaceIgnoresSurroundingSpace(pre: string, x: string, post: string)
    requires AllSpace(pre) && AllSpace(post)
    ensures TrimSpace(pre + x + post) == TrimSpace(x)
  {
    var r := TrimSpace(x);
    var i := LeadingSpace(x);
    var p, q := x[..i], x[i + |r|..];
    SplitThree(x, i, i + |r|);
    Regroup(pre, p, r, q, post);
    AllSpaceConcat(pre, p);
    AllSpaceConcat(q, post);
    TrimSpaceOfSplit(pre + p, r, q + post);
  }

  lemma AllSpaceConcat(a: string, b: string)
    requires AllSpace(a) && AllSpace(b)
    ensures AllSpace(a + b)
  {
    assert forall k :: 0 <= k < |a + b| ==> (a + b)[k] == if k < |a| then a[k] else b[k - |a|];
  }

  lemma Regroup<T>(a: seq<T>, b: seq<T>, c: seq<T>, d: seq<T>, e: seq<T>)
    ensures a + (b + c + d) + e == (a + b) + c + (d + e)
  {
  }

  lemma SplitThree<T>(x: seq<T>, i: nat, j: nat)
    requires i <= j <= |x|
    ensures x == x[..i] + x[i..j] + x[j..]
  {
  }

  /** A string that neither starts nor ends with white space is its own trim. */
  lemma TrimSpaceOfTrimmed(s: string)
    requires |s| == 0 || (!IsSpace(s[0]) && !IsSpace(s[|s| - 1]))
    ensures TrimSpace(s) == s
  {
    assert "" + s + "" == s;
    TrimSpaceOfSplit("", s, "");
  }

  /** strings.HasPrefix. */
  predicate HasPrefix(s: string, prefix: string) {
    |prefix| <= |s| && s[..|prefix|] == prefix
  }

  /** strings.Contains: `sub` occurs in `s` at some offset. */
  predicate Contains(s: string, sub: string)
    decreases |s|
  {
    HasPrefix(s, sub) || (|s| > 0 && Contains(s[1..], sub))
  }

  /** Every string contains the empty string and itself; the empty string contains only the empty string. */
  lemma ContainsBasics(s: string, sub: string)
    ensures Contains(s, "")
    ensures Contains(s, s)
    ensures Contains("", sub) <==> sub == ""
  {
    assert HasPrefix(s, "");
    assert HasPrefix(s, s);
  }

  /** strings.HasSuffix(s, "/") on a non-empty string is a test of its last character. */
  predicate EndsWith(s: string, c: char) {
    |s| > 0 && s[|s| - 1] == c
  }

  /** strings.Replace(s, [c], "", -1): every occurrence of `c` removed, the rest kept in order. */
  function RemoveAll(s: string, c: char): (r: string)
    ensures c !in r
    ensures |r| <= |s|
    ensures c !in s ==> r == s
  {
    if |s| == 0 then ""
    else if s[0] == c then RemoveAll(s[1..], c)
    else [s[0]] + RemoveAll(s[1..], c)
  }

  /** strings.Join. */
  function Join(parts: seq<string>, sep: string): string {
    if |parts| == 0 then ""
    else if |parts| == 1 then parts[0]
    else parts[0] + sep + Join(parts[1..], sep)
  }

  const Digits: string := "0123456789"

  /** fmt.Sprintf("%d", n) for a natural number. */
  function Decimal(n: nat): (r: string)
    ensures |r| > 0
    ensures forall i :: 0 <= i < |r| ==> r[i] in Digits
  {
    if n < 10 then [Digits[n]] else Decimal(n / 10) + [Digits[n % 10]]
  }
}

=== FILE: worker.dfy ===
/**
 The deletion worker (internal/worker/worker.go) as an event-driven state
 machine. Its goroutine loops on a `select` over three sources: cancellation
 of its context, a job arriving on the job channel, and the ticker. Each
 becomes an event; the order in which the scheduler picks them is the order
 of the event sequence. The only storage call the loop makes is
 `DeleteURLs(buffer...)` on a tick, and what that call returned is carried by
 the `Tick` event.
 */
module Worker {
  import opened Wrappers
  import opened Models

  /** Capacity of the job channel created by NewWorker. */
  const JobQueueCapacity: nat := 1024

  /** Period of the flush ticker, in seconds. */
  const FlushIntervalSeconds: nat := 10

  /** Idle: constructed, loop not started. Running: loop started. Stopped: loop returned. */
  datatype Status = Idle | Running | Stopped

  datatype Worker = Worker(buffer: seq<DeleteURL>, queueCapacity: nat, status: Status)

  /** What the loop's `select` picked: a job, a tick (with the storage's reply to the flush), or cancellation. */
  datatype Event = Receive(job: DeleteURL) | Tick(reply: Option<Error>) | Cancel

  /** The state after one event and the `DeleteURLs` call it made, if any. */
  datatype Step = Step(next: Worker, call: Option<seq<DeleteURL>>)

  /** NewWorker: an empty buffer, a job channel of capacity 1024, the loop not yet started. */
  function NewWorker(): (w: Worker)
    ensures w.buffer == [] && w.queueCapacity == JobQueueCapacity && w.status == Idle
  {
    Worker([], JobQueueCapacity, Idle)
  }

  /** Start: the loop begins with whatever the buffer holds. */
  function Start(w: Worker): (w': Worker)
    ensures w'.status == Running && w'.buffer == w.buffer && w'.queueCapacity == w.queueCapacity
  {
    w.(status := Running)
  }

  /**
   doWork: a non-empty buffer is handed whole, in arrival order, to exactly
   one `DeleteURLs` call and then cleared whatever that call answered, so a
   failed batch is dropped, not retried; an empty buffer makes no call.
   */
  function DoWork(w: Worker, reply: Option<Error>): (st: Step)
    ensures |w.buffer| == 0 ==> st == Step(w, None)
    ensures |w.buffer| > 0 ==> st.call == Some(w.buffer)
    ensures st.next == w.(buffer := [])
  {
    if |w.buffer| != 0 then Step(w.(buffer := []), Some(w.buffer)) else Step(w, None)
  }

  /** One iteration of the `select` loop; a loop that is not running reacts to nothing. */
  function Next(w: Worker, e: Event): (st: Step)
    ensures w.status != Running ==> st == Step(w, None)
    ensures w.status == Running && e.Receive? ==> st == Step(w.(buffer := w.buffer + [e.job]), None)
    ensures w.status == Running && e.Cancel? ==> st == Step(w.(status := Stopped), None)
    ensures w.status == Running && e.Tick? ==> st.next == w.(buffer := []) && (st.call.Some? <==> |w.buffer| > 0)
    ensures st.call.Some? ==> e.Tick? && |st.call.value| > 0 && st.call.value == w.buffer && st.next.buffer == []
  {
    if w.status != Running then Step(w, None)
    else match e
      case Receive(job) => Step(w.(buffer := w.buffer + [job]), None)
      case Tick(reply) => DoWork(w, reply)
      case Cancel => Step(w.(status := Stopped), None)
  }

  /** The worker after a run of events, and the `DeleteURLs` calls made, in order. */
  datatype Trace = Trace(last: Worker, calls: seq<seq<DeleteURL>>)

  function Run(w: Worker, events: seq<Event>): Trace
    decreases |events|
  {
    if |events| == 0 then Trace(w, [])
    else
      var st := Next(w, events[0]);
      var rest := Run(st.next, events[1..]);
      if st.call.Some? then Trace(rest.last, [st.call.value] + rest.calls) else rest
  }

  function Flatten(calls: seq<seq<DeleteURL>>): seq<DeleteURL> {
    if |calls| == 0 then [] else calls[0] + Flatten(calls[1..])
  }

  /** The jobs the loop takes in before it is cancelled. */
  function Received(events: seq<Event>): seq<DeleteURL> {
    if |events| == 0 || events[0].Cancel? then []
    else if events[0].Receive? then [events[0].job] + Received(events[1..])
    else Received(events[1..])
  }

  /** A stopped or never-started worker ignores every event and calls nothing. */
  lemma {:induction false} InactiveRunIsInert(w: Worker, events: seq<Event>)
    requires w.status != Running
    ensures Run(w, events) == Trace(w, [])
    decreases |events|
  {
    if |events| > 0 {
      InactiveRunIsInert(w, events[1..]);
    }
  }

  /**
   Conservation: every job the running loop takes in is sent to storage in
   exactly one call, in arrival order, or is still in the buffer; none is
   duplicated, reordered or retried.
   */
  lemma {:induction false} RunConservesJobs(w: Worker, events: seq<Event>)
    requires w.status == Running
    ensures Flatten(Run(w, events).calls) + Run(w, events).last.buffer == w.buffer + Received(events)
    decreases |events|
  {
    if |events| > 0 {
      var st := Next(w, events[0]);
      match events[0]
      case Cancel =>
        InactiveRunIsInert(st.next, events[1..]);
      case Receive(job) =>
        RunConservesJobs(st.next, events[1..]);
        assert w.buffer + Received(events) == (w.buffer + [job]) + Received(events[1..]);
      case Tick(reply) =>
        RunConservesJobs(st.next, events[1..]);
        var rest := Run(st.next, events[1..]);
        if st.call.Some? {
          assert Flatten([st.call.value] + rest.calls) == st.call.value + Flatten(rest.calls) by {
            assert ([st.call.value] + rest.calls)[1..] == rest.calls;
          }
          assert st.next.buffer == [];
          assert Run(w, events) == Trace(rest.last, [st.call.value] + rest.calls);
          assert Received(events) == Received(events[1..]);
          assert Flatten(rest.calls) + rest.last.buffer == Received(events[1..]);
          assert st.call.value + Flatten(rest.calls) + rest.last.buffer
              == st.call.value + (Flatten(rest.calls) + rest.last.buffer);
        } else {
          assert w.buffer == [];
        }
    }
  }

  /** Every `DeleteURLs` call the loop makes carries at least one job. */
  lemma {:induction false} RunCallsNonEmpty(w: Worker, events: seq<Event>)
    ensures forall i :: 0 <= i < |Run(w, events).calls| ==> |Run(w, events).calls[i]| > 0
    decreases |events|
  {
    if |events| > 0 {
      RunCallsNonEmpty(Next(w, events[0]).next, events[1..]);
    }
  }

  /** Cancellation does not flush: whatever follows it, the calls are those made before it. */
  lemma {:induction false} CancelDoesNotFlush(w: Worker, before: seq<Event>, after: seq<Event>)
    ensures Run(w, before + [Cancel] + after).calls == Run(w, before).calls
    ensures Run(w, before + [Cancel] + after).last.buffer == Run(w, before).last.buffer
    decreases |before|
  {
    var all := before + [Cancel] + after;
    if |before| == 0 {
      assert all[1..] == after;
      InactiveRunIsInert(Next(w, Cancel).next, after);
    } else {
      assert all[0] == before[0];
      assert all[1..] == before[1..] + [Cancel] + after;
      CancelDoesNotFlush(Next(w, before[0]).next, before[1..], after);
    }
  }

  /** What storage answered to a flush has no influence on the worker. */
  lemma TickReplyIgnored(w: Worker, e1: Option<Error>, e2: Option<Error>)
    ensures Next(w, Tick(e1)) == Next(w, Tick(e2))
  {
  }
}

=== FILE: wrappers.dfy ===
/** Failure-compatible helper datatypes shared by every module of the model. */
module Wrappers {

  /** The conventional Some/None datatype, used where the Go code has a nil-able value. */
  datatype Option<+T> = None | Some(value: T) {

    /** Returns the value in Some, or `default` when None. */
    function GetOr(default: T): (r: T)
      ensures Some? ==> r == value
      ensures None? ==> r == default
    {
      match this
      case Some(v) => v
      case None => default
    }
  }
}
